=== FILE: README.md ===
# Foppy client decision logic, modelled in Dafny

Foppy is a personal-finance web app. Its client shows a management dashboard
of budgets, goals, debts and charts for a chosen period. It also runs a set of
forms: goals, budgets, debt payments, profile, change password and password
recovery. It builds report previews and report requests, and it carries
values between screens. Values travel from a recommendation card into a
form through local storage, and from a voice command into a form or a
create page through the query string. This project models the decisions
those screens and hooks make, and proves what they promise.

Layout: one module per source file of the app, plus shared modules.

- One module per source file:
  - `Dashboard`
  - `PeriodSelector`
  - `ReportPreview` (the preview page)
  - `ReportPreviewData` (the preview hook and its payloads)
  - `ReportForm`
  - `ReportCreateView`
  - `Reports`
  - `CategorySummary`
  - `RecommendationCard`
  - `VoiceInput`
  - `Audio`
  - `ChangePassword`
  - `ProfileForm`
  - `RecoveryForm`
  - `Premium`
  - `MenuList`
  - `BudgetForm`
  - `DebtPaymentForm`
  - `GoalForm`
- Shared modules for what those files take from their platform:
  - `Json`: a flat-object `JSON.stringify` / `JSON.parse` pair with its round trip.
  - `Uri`: `encodeURIComponent` / `decodeURIComponent` over UTF-8 with their round trip.
  - `Calendar`: the `date-fns` month arithmetic.
  - `DateText`: `yyyy-MM-dd`, `toISOString` and reading dates back.
  - `Numerals`: `Number`, `String` and `toFixed(1)`.
  - `Strings`: character classes and ASCII lower case.
  - `Ranking`: filtering, a descending sort, slices and sums.
  - `FormState`: the form's field map, truthiness and zod issue shapes.
  - `Browser`: local storage plus a log of navigations.
  - `Wrappers`: `Option` and `Result`.

How the model represents the app:

- Hooks whose refs and state change become classes, with methods for their
  effects and handlers.
- Pure helpers and zod schemas become functions.
- A schema is modelled as the list of issues it reports, and a lemma states
  exactly which inputs produce no issue.
- Backend answers, the clock and the session are parameters.

## Model

| member | source | states |
|---|---|---|
| Dashboard.VisibleBudgets | src/app/management/page.tsx:60-67 | a budget is listed exactly when its month is set and falls inside the selected period; the list keeps the input order, and each listed budget appears as often as in the input |
| Dashboard.VisibleGoals | src/app/management/page.tsx:72-78 | a goal is listed exactly when it is not yet reached or its end date falls inside the period; the list keeps the input order, and each listed goal appears as often as in the input |
| Dashboard.VisibleDebts | src/app/management/page.tsx:83-92 | a debt is listed exactly when something is still owed, or its due date is set and falls inside the period; the list keeps the input order, and each listed debt appears as often as in the input |
| Dashboard.PositiveSlicesMembers | src/app/management/page.tsx:114-123 | the pie's candidate slices are exactly the slices of the categories with a positive total |
| Dashboard.PieChartData | src/app/management/page.tsx:114-123 | the pie holds five slices, or all the positive ones when there are fewer; all are positive, largest first, and none appears more often than the categories yield it |
| Dashboard.PieChartTopFive | src/app/management/page.tsx:114-123 | a positive category is left out only when five slices are shown, each at least as large as it; every slice comes from a category |
| Dashboard.LineChartData | src/app/management/page.tsx:125-129 | the line chart shows the last six monthly trends in their order, each labelled with the month `new Date` reads in the browser's zone and carrying that month's income and expense; it throws "Invalid time value" exactly when one of those months cannot be read |
| Dashboard.MonthLabel | src/app/management/page.tsx:126 | a month is labelled exactly when its first day is readable; at or east of UTC it is that month's Spanish short name, west of UTC the previous month's |
| Dashboard.CappedProgress | src/app/management/page.tsx:274-278 | progress never exceeds 100, is exactly 100 once the target or limit is reached, and is the plain ratio below it |
| Dashboard.ProgressColorMonotone | src/app/management/page.tsx:131-143 | as the percentage grows, the colour moves one way: red to green for goals, green to red for budgets; NaN gets the first colour |
| Dashboard.Cards | src/app/management/page.tsx:274-278 | the dashboard cards are the first three items, or all of them when there are fewer |
| Dashboard.DebtsLoadingIgnored | src/app/management/page.tsx:145-151 | whether the debts query is loading never changes the page's loading state |
| PeriodSelector.ParsePeriodCode | src/components/period-selector.tsx:23-29 | reading a period kind from text and writing it back gives the same text |
| PeriodSelector.PeriodCodeRoundTrip | src/components/period-selector.tsx:23-29 | every listed period kind is read back from its own code |
| PeriodSelector.PresetRange | src/components/period-selector.tsx:46-88 | every preset starts on the first day of a month, ends on the last day of a month, and does not end before it starts |
| PeriodSelector.PresetDays | src/components/period-selector.tsx:46-88 | a day lies in a preset exactly when its month is one of the preset's months: this month, the previous month, the last 3 or 6 months, or January to this month |
| PeriodSelector.PresetContainsToday | src/components/period-selector.tsx:46-88 | every preset except "last month" contains today |
| Calendar.SubMonths | src/components/period-selector.tsx:60-77 | subtracting n months lands n months earlier, on the same day clamped to that month's length |
| PeriodSelector.PillOptions | src/components/period-selector.tsx:132-137 | the pills are the five presets in declaration order, followed by "Personalizado" |
| PeriodSelector.Selector.HandlePresetChange | src/components/period-selector.tsx:99-115 | the choice is recorded; a preset emits its range with its label; "custom" emits nothing |
| PeriodSelector.Selector.SelectStart | src/components/period-selector.tsx:201-202 | picking a start day records only that day |
| PeriodSelector.Selector.SelectEnd | src/components/period-selector.tsx:231-235 | only a day not before the start can be picked as the end, and only it is recorded |
| PeriodSelector.Selector.HandleCustomDateChange | src/components/period-selector.tsx:117-130 | with both days set, the custom range and its label are emitted; otherwise nothing is |
| PeriodSelector.ReversedCustomRange | src/components/period-selector.tsx:201-235 | picking the end first and a later start afterwards applies a custom period that ends before it starts |
| ReportPreview.PrepareCategoryData | src/features/reports/presentation/components/report-preview.tsx:42-53 | one pie entry per top category, in order, carrying its name, amount and percentage; none without a list |
| ReportPreview.PrepareTrendData | src/features/reports/presentation/components/report-preview.tsx:68-78 | one trend point per monthly trend, with its month and total |
| ReportPreview.PrepareMonthlyDataAsWritten | src/features/reports/presentation/components/report-preview.tsx:55-66 | as written: one bar per trend, and the bars are zero for every type other than income and expense |
| ReportPreview.PrepareMonthlyData | src/features/reports/presentation/components/report-preview.tsx:55-66 | corrected: each bar takes the trend's own income and expenses where the trend has them, and otherwise is as written |
| ReportPreview.MonthlyDataAgreesOnTotals | src/features/reports/presentation/components/report-preview.tsx:55-66 | on trends that carry only a total, the corrected series equals the series as written |
| ReportPreview.ComprehensiveChartBlank | src/features/reports/presentation/components/report-preview.tsx:55-66 | as written, the comprehensive report's two bars show zero income and zero expenses |
| ReportPreview.ComprehensiveChartFilled | src/features/reports/presentation/components/report-preview.tsx:55-66 | corrected, the comprehensive report's bars show each month's income and expenses |
| ReportPreview.ComprehensiveTrendRows | src/features/reports/hooks/use-report-preview.ts:300-317 | the comprehensive payload's monthly trends are the rows its builder places there |
| ReportPreview.ComprehensiveRowAmounts | src/features/reports/hooks/use-report-preview.ts:300-317 | those rows carry incomes 3000 and 500 and expenses 1200 and 1300.5 |
| ReportPreview.BudgetChartEmpty | src/features/reports/presentation/components/report-preview.tsx:55-66 | the budget payload has no monthly trends, so its bar chart is empty, whether as written or corrected |
| ReportPreview.PercentText | src/features/reports/presentation/components/report-preview.tsx:129 | `v?.toFixed(1)` inside a template: a missing value reads "undefined%", a number reads as one decimal followed by "%", and any other value throws |
| ReportPreview.FixedPercent | src/features/reports/presentation/components/report-preview.tsx:186 | `v.toFixed(1)` without `?.`: it succeeds exactly on a number, and then reads as the percentage text; a missing value throws |
| ReportPreview.MetricsFor | src/features/reports/presentation/components/report-preview.tsx:85-144 | building the metrics throws exactly when the percentage metric's value is present but not a number; otherwise expense and income reports show three metrics and the others four, the fourth being the percentage text and, for the comprehensive report, the savings rate |
| ReportPreview.SummaryMetrics | src/features/reports/presentation/components/report-preview.tsx:80-164 | no metrics without data; otherwise the report type's metrics in order, or the error building them throws |
| ReportPreview.MetricDisplay | src/features/reports/presentation/components/report-preview.tsx:146-163 | numbers are shown as currency; other falsy values are shown as "N/A"; texts are shown as they are |
| ReportPreview.GoalTypesShareMetrics | src/features/reports/presentation/components/report-preview.tsx:85-144 | the five goal and savings types show the same metrics |
| ReportPreview.ExpenseMetricsAvailable | src/features/reports/presentation/components/report-preview.tsx:85-144 | every expense metric finds its figure in the expense payload |
| ReportPreview.IncomeMetricsAvailable | src/features/reports/presentation/components/report-preview.tsx:85-144 | every income metric finds its figure in the income payload |
| ReportPreview.BudgetMetricsAvailable | src/features/reports/presentation/components/report-preview.tsx:85-144 | every budget metric finds its figure in the budget payload |
| ReportPreview.DebtMetricsAvailable | src/features/reports/presentation/components/report-preview.tsx:85-144 | every debt metric finds its figure in the debt payload |
| ReportPreview.SavingsSummaryMetricsAvailable | src/features/reports/presentation/components/report-preview.tsx:85-144 | every goal metric finds its figure in the savings-summary payload |
| ReportPreview.GoalsByStatusMetricsMissing | src/features/reports/presentation/components/report-preview.tsx:134-143 | the goals-by-status payload names its figures differently, so three metrics read "N/A" and the progress reads "undefined%" |
| ReportPreview.BudgetStatusLabel | src/features/reports/presentation/components/report-preview.tsx:207-211 | "over" reads "Sobre Presupuesto"; "at_limit" reads "En el Límite"; anything else reads "Bajo Presupuesto" |
| ReportPreview.DebtStatusLabel | src/features/reports/presentation/components/report-preview.tsx:240-244 | "overdue" reads "Vencida"; "paid" reads "Pagada"; anything else reads "Activa" |
| ReportPreview.Rows | src/features/reports/presentation/components/report-preview.tsx:178 | a table has the cells of the first ten items, in order; it throws exactly when some row's cells do |
| ReportPreview.MapRows | src/features/reports/presentation/components/report-preview.tsx:178-248 | rows are built in order, and building them fails exactly when some item's cells fail |
| ReportPreview.TableFor | src/features/reports/presentation/components/report-preview.tsx:166-284 | only the expense, income, budget and debt types have a table; it throws exactly when its list is truthy but not an array (`.slice` or `.map` is not a function) or one of its first ten rows throws; there is none exactly when the list is missing, falsy or empty; otherwise it has 1 to 10 rows under that type's headers |
| ReportPreview.DetailTable | src/features/reports/presentation/components/report-preview.tsx:166-284 | without data there is no table; otherwise the table is the type's table, or its error |
| ReportPreview.BudgetTableStatuses | src/features/reports/presentation/components/report-preview.tsx:190-213 | the mock budgets' rows read "Bajo Presupuesto" and "Sobre Presupuesto" |
| ReportPreview.DebtTableStatuses | src/features/reports/presentation/components/report-preview.tsx:214-246 | the mock debts' rows read "Activa" and "Vencida" |
| ReportPreview.NotAList | src/features/reports/presentation/components/report-preview.tsx:175-179 | a truthy list value that is not an array makes the table throw: a text has `.slice` but no `.map`, anything else has no `.slice` |
| ReportPreview.NonArrayListThrows | src/features/reports/presentation/components/report-preview.tsx:175-179 | an expense payload whose `topCategories` is truthy but not an array makes the page throw |
| ReportPreview.MissingPercentageThrows | src/features/reports/presentation/components/report-preview.tsx:186 | an expense payload whose first top category has no percentage makes the page throw the `toFixed` error |
| ReportPreview.Charts | src/features/reports/presentation/components/report-preview.tsx:335-393 | only the expense, income, budget and comprehensive types have charts; expense and income reports show the category pie, then the trend line drawn from the trend series; budget reports show the bar chart alone; comprehensive reports show the bar chart, then the pie; the bar chart draws the monthly series as written, the pie the category series |
| ReportPreview.PreviewView | src/features/reports/presentation/components/report-preview.tsx:286-428 | the page shows a spinner while loading, then an empty message without data; it throws exactly when the metrics or the table throw (the table also when its list is truthy but not an array); otherwise it shows the type's metrics, charts and table under "type - period" with three enabled downloads |
| ReportPreviewData.RoundCents | src/features/reports/hooks/use-report-preview.ts:258 | rounding to cents moves a value by at most half a cent |
| ReportPreviewData.GoalsData | src/features/reports/hooks/use-report-preview.ts:197-227 | only the by-status, by-category and savings-summary types have goal data; the others get an empty object |
| ReportPreviewData.SavingsRate | src/features/reports/hooks/use-report-preview.ts:238 | the savings rate is 0 without income; otherwise it is negative exactly when expenses exceed income |
| ReportPreviewData.BoundLabel | src/features/reports/hooks/use-report-preview.ts:241-253 | a missing or empty bound is labelled with its fallback word; a bound can be labelled exactly when it is missing, empty or a readable date |
| ReportPreviewData.ComprehensiveData | src/features/reports/hooks/use-report-preview.ts:229-319 | the comprehensive payload is built exactly when both bounds can be labelled |
| ReportPreviewData.PayloadTotals | src/features/reports/hooks/use-report-preview.ts:235-236 | the comprehensive summary reads 3500 of income and 2500.5 of expenses from the other payloads |
| ReportPreviewData.ComprehensiveSummary | src/features/reports/hooks/use-report-preview.ts:254-259 | the summary's balance is income less expenses; its savings rate is that balance as a share of income, rounded to cents |
| ReportPreviewData.ComprehensiveLabel | src/features/reports/hooks/use-report-preview.ts:241-253 | the period label joins the two bounds' labels with " - " |
| ReportPreviewData.OpenPeriodData | src/features/reports/hooks/use-report-preview.ts:241-253 | without bounds, the payload is built around the label "Inicio - Fin" |
| ReportPreviewData.OpenPeriodLabel | src/features/reports/hooks/use-report-preview.ts:241-253 | without bounds, the period reads "Inicio - Fin" and both of its dates are today |
| ReportPreviewData.FormDatesReadable | src/features/reports/hooks/use-report-preview.ts:241-253 | the `yyyy-MM-dd` days the report form sends are labelled `dd/MM/yyyy` as the days themselves at or east of UTC and as the days before west of UTC, and the payload is built |
| ReportPreviewData.DayLabel | src/features/reports/hooks/use-report-preview.ts:241-253 | a `yyyy-MM-dd` bound is labelled with its own day at or east of UTC, and with the day before west of UTC |
| ReportPreviewData.MutationFn | src/features/reports/hooks/use-report-preview.ts:12-44 | without a user the result is the not-authenticated error, and only then, except for a comprehensive report whose bounds cannot be labelled |
| ReportPreviewData.GoalTypesDispatch | src/features/reports/hooks/use-report-preview.ts:24-43 | the five goal and savings types share the goals builder, and two of them preview as an empty object |
| ReportForm.BuildFilters | src/features/reports/hooks/use-report-form.ts:41-62 | the filters hold the user, each date that is set as the timestamp of its local midnight, which the backend reads as that day at or west of UTC and as the day before east of UTC, and a category or goal only when chosen |
| ReportForm.FiltersOfUnique | src/features/reports/hooks/use-report-form.ts:41-62 | the description of the filters fixes them completely |
| ReportForm.DefaultsSendOnlyUser | src/features/reports/hooks/use-report-form.ts:29-62 | submitting the default values sends only the user |
| ReportForm.ReportFormHook.OnSubmit | src/features/reports/hooks/use-report-form.ts:40-83 | the request carries the type, the format and the filters; a tab opens only for a report the backend created |
| DateText.ParseDayTimestamp | src/features/reports/hooks/use-report-form.ts:47 | a timestamp written by `toISOString` for a local midnight is read back as its day exactly when the zone is at or west of UTC, and as the day before otherwise |
| DateText.IsoTimestamp | src/features/reports/hooks/use-report-form.ts:47 | `toISOString` of a local midnight starts with the day itself at or west of UTC, and with the day before east of UTC |
| Calendar.PrevDay | src/features/reports/hooks/use-report-form.ts:47 | the day before is a valid day, the latest one before the given day, and in the same year except on the first of January |
| DateText.LocalDay | src/features/reports/hooks/use-report-preview.ts:242-249 | `new Date(text)` yields a day exactly when the text is readable; a bare `yyyy-MM-dd` day becomes the day before west of UTC |
| DateText.PrevDayLabel | src/features/reports/hooks/use-report-preview.ts:242-249 | a day and the day before it are labelled differently |
| ReportForm.InitialPeriod | src/features/reports/presentation/components/report-form.tsx:34-41 | the period given by the parent wins; otherwise the form starts on a current-month period |
| ReportForm.InitialPeriodIsCurrentMonth | src/features/reports/presentation/components/report-form.tsx:34-41 | without a period from the parent, the form starts on exactly the selector's "Mes actual" preset, which contains today |
| ReportForm.ReportFormView.SetSelectedPeriod | src/features/reports/presentation/components/report-form.tsx:104 | the selector's choice becomes the selected period |
| ReportForm.PreviewConfigOf | src/features/reports/presentation/components/report-form.tsx:108-131 | the preview configuration carries the type, the category, both period days and the period; it carries no user |
| ReportForm.PreviewConfigReadable | src/features/reports/presentation/components/report-form.tsx:108-131 | the configuration's dates name the period's own days; `new Date` reads them back as those days exactly at or east of UTC and as the days before west of UTC; a signed-in user's preview always has data |
| ReportForm.TypeOptions | src/features/reports/presentation/components/report-form.tsx:48-53 | one option per report type, with its code and its label |
| ReportForm.FormatOptions | src/features/reports/presentation/components/report-form.tsx:56-61 | one option per format, with its code and its label |
| ReportForm.OneOptionEach | src/features/reports/presentation/components/report-form.tsx:48-61 | every type and every format is offered by exactly one option |
| ReportForm.CategoryOptions | src/features/reports/presentation/components/report-form.tsx:67-72 | one option per category, its id as text |
| ReportForm.FormButtons | src/features/reports/presentation/components/report-form.tsx:108-140 | the preview button exists only when the parent gives `onPreview`; both buttons are disabled, and the caption reads "Generando...", exactly while the form's own `generateReport` instance is pending |
| ReportCreateView.QueryPeriodOf | src/features/reports/presentation/views/report-create-view.tsx:46-60 | a query period exists exactly when both dates are given; each date is what `new Date` reads in the browser's zone, and is missing exactly when unreadable; the type defaults to custom and the label to "Período personalizado" |
| ReportCreateView.QueryPeriodRoundTrip | src/features/reports/presentation/views/report-create-view.tsx:46-60 | a period written into the query string reaches the page with its type and caption; its days arrive unchanged exactly at or east of UTC, and each one day early west of UTC |
| ReportCreateView.PeriodQueryRead | src/features/reports/presentation/views/report-create-view.tsx:46-60 | the page reads the days of such a query string with `new Date`, and its type and caption as written |
| DateText.LocalIsoDate | src/features/reports/presentation/views/report-create-view.tsx:54-55 | `new Date` reads a `yyyy-MM-dd` day back as that day exactly at or east of UTC, and as the day before west of UTC |
| ReportCreateView.CreateView.InitFromQuery | src/features/reports/presentation/views/report-create-view.tsx:46-60 | the initial period is set only when the query gives both dates; nothing else changes |
| ReportCreateView.CreateView.HandlePreview | src/features/reports/presentation/views/report-create-view.tsx:63-80 | the configuration is stored first; the preview is shown with the data only when the data comes back |
| ReportCreateView.CreateView.HandleDownload | src/features/reports/presentation/views/report-create-view.tsx:83-101 | without a configuration nothing is requested; otherwise the configured report is requested, and a tab opens only for a created report |
| ReportCreateView.CreateView.HandleCancel | src/features/reports/presentation/views/report-create-view.tsx:104-108 | cancelling hides the preview and forgets the data and the configuration; a form mounted again reads the initial period at that moment |
| ReportCreateView.CreateView.CurrentScreen | src/features/reports/presentation/views/report-create-view.tsx:124-150 | the form, mounted with the period it was mounted with, while no preview is shown; otherwise the preview of the stored data, type and period |
| ReportCreateView.CreateView.Title | src/features/reports/presentation/views/report-create-view.tsx:119-121 | the heading reads "Vista Previa del Reporte" exactly on the preview and "Generar Nuevo Reporte" exactly on the form |
| ReportCreateView.QueryReachesOnlyRemountedForm | src/features/reports/presentation/views/report-create-view.tsx:46-60 | a period in the query string does not reach the form first mounted; it reaches the form mounted after a preview is cancelled |
| ReportCreateView.PreviewDownloadCancel | src/features/reports/presentation/views/report-create-view.tsx:63-108 | a download after a preview requests the previewed report; after a cancel, a download does nothing |
| Reports.Enumerations | src/features/reports/interfaces/reports.interface.ts:1-21 | the ten report types and the four formats are each listed exactly once |
| Reports.LabelsDistinct | src/features/reports/interfaces/reports.interface.ts:46-64 | no two types share a label or a code, and no two formats do |
| CategorySummary.SortedExpenses | src/features/transactions/presentation/components/category-expenses-summary.tsx:51-53 | the list is the positive categories, rearranged only, largest total first |
| Ranking.SortDescSorted | src/features/transactions/presentation/components/category-expenses-summary.tsx:51-53 | the insertion sort orders by descending key |
| Ranking.Filter | src/features/transactions/presentation/components/category-expenses-summary.tsx:51-53 | `filter` keeps exactly the elements that pass, in their order |
| Ranking.FilterCounts | src/features/transactions/presentation/components/category-expenses-summary.tsx:51-53 | `filter` keeps each passing element as often as it occurs, and no other |
| CategorySummary.Displayed | src/features/transactions/presentation/components/category-expenses-summary.tsx:55-57 | the list shown is a prefix of the sorted list: all of it, or its first `maxItems` |
| CategorySummary.Summary | src/features/transactions/presentation/components/category-expenses-summary.tsx:30-130 | the card shows a spinner exactly while loading; a listing is never empty and its rows are the displayed part of the sorted list; the "more" note appears exactly when items were cut, and counts them |
| CategorySummary.SummaryContents | src/features/transactions/presentation/components/category-expenses-summary.tsx:51-59 | the rows are positive categories, largest first; the total counts every positive category, shown or not |
| CategorySummary.EmptyWhenNothingDisplayed | src/features/transactions/presentation/components/category-expenses-summary.tsx:61-79 | the empty message appears exactly when no total is positive or the list is cut to nothing |
| CategorySummary.DefaultsShowFour | src/features/transactions/presentation/components/category-expenses-summary.tsx:27-28 | with the defaults, a listing appears exactly when some total is positive; it holds the four largest categories, or all of them when fewer, and the note counts the rest exactly when there are more than four |
| RecommendationCard.PriorityColor | src/features/recommendations/presentation/components/recommendation-card.tsx:48-59 | high priority is "destructive", low is "secondary", anything else is "default" |
| RecommendationCard.ActionButtons | src/features/recommendations/presentation/components/recommendation-card.tsx:128-141 | an actionable card has one button per action, in order, and only the first is emphasised; otherwise there are no buttons |
| RecommendationCard.Card.Render | src/features/recommendations/presentation/components/recommendation-card.tsx:69-73 | each render with a pending recommendation marks it viewed again; other statuses report nothing |
| RecommendationCard.Card.HandleQuickAction | src/features/recommendations/presentation/components/recommendation-card.tsx:75-86 | the action marks the recommendation acted, leaves its prefilled values as JSON under `recommendationAction`, and goes to its page |
| RecommendationCard.Card.HandleDismiss | src/features/recommendations/presentation/components/recommendation-card.tsx:88-90 | dismissing only reports the dismissal |
| RecommendationCard.ShowThenAct | src/features/recommendations/presentation/components/recommendation-card.tsx:69-86 | rendering a pending card several times reports it viewed once per render, then the action reports it acted; the values left in storage read back unchanged |
| RecommendationCard.Repeat | src/features/recommendations/presentation/components/recommendation-card.tsx:69-73 | n copies of a value: n long, every element that value |
| Json.ParseStringify | src/features/recommendations/presentation/components/recommendation-card.tsx:79-82 | what `JSON.stringify` writes, `JSON.parse` reads back unchanged |
| VoiceInput.Coerce | src/components/ui/voice-input-button.tsx:55-64 | date-like keys receive the day `new Date(value)` gives in the browser's zone; other keys receive the value as it is |
| VoiceInput.PopulatedFields | src/components/ui/voice-input-button.tsx:49-72 | filling writes every non-null value, keeps every other field, and adds no field without a value |
| VoiceInput.Populate | src/components/ui/voice-input-button.tsx:55-64 | the loop writes the entries in order |
| VoiceInput.RouteCarriesSchema | src/components/ui/voice-input-button.tsx:78 | the create page's `data` parameter is not cut short, and decoding and parsing it gives back the extracted values |
| Uri.DecodeEncode | src/components/ui/voice-input-button.tsx:78 | `decodeURIComponent` undoes `encodeURIComponent` |
| Uri.EncodeUriComponentSafe | src/components/ui/voice-input-button.tsx:78 | the encoded text holds no character that ends a query parameter |
| VoiceInput.VoiceInputButton.Open | src/components/ui/voice-input-button.tsx:100 | the microphone button opens the modal |
| VoiceInput.VoiceInputButton.HandleAudioCaptured | src/components/ui/voice-input-button.tsx:40-90 | on failure or without form data nothing is written; inside a form the values fill it and reach `onSuccess`; otherwise the page goes to the section's create route; the modal closes in every case |
| VoiceInput.CommandOutsideForm | src/components/ui/voice-input-button.tsx:40-90 | a "create goal" command heard outside a form opens the goal create page carrying the extracted values |
| Audio.IntentPath | src/features/audio/services/audio.service.ts:94-106 | each of the three create intents names its own section, and no other intent names one |
| Audio.IntentPathInjective | src/features/audio/services/audio.service.ts:94-106 | different intents never lead to the same section |
| Audio.MapToFormData | src/features/audio/services/audio.service.ts:81-112 | form data exists exactly for non-empty extracted values and a create intent; it carries those values unchanged |
| Audio.AudioService.SendAudio | src/features/audio/services/audio.service.ts:50-79 | a failed command gives the server's message, or the default one when that is empty; a success gives the transcription and the mapped form data |
| Audio.ServiceSlot.GetInstance | src/features/audio/services/audio.service.ts:43-48 | the service is created on the first call only |
| Audio.SameInstance | src/features/audio/services/audio.service.ts:43-48 | two callers receive the one service object |
| ChangePassword.NewPasswordIssuesExactly | src/features/users/presentation/components/change-password-form.tsx:28-43 | a new password is accepted exactly when it has 8 to 100 characters and an upper-case letter, a lower-case letter and a digit |
| ChangePassword.PasswordIssuesExactly | src/features/users/presentation/components/change-password-form.tsx:28-43 | the form is accepted exactly when the current password is given, the new one is good, and the confirmation repeats it |
| ChangePassword.MismatchReported | src/features/users/presentation/components/change-password-form.tsx:28-43 | a confirmation that differs is reported on the confirmation field, whatever else is wrong |
| ChangePassword.Strength | src/features/users/presentation/components/change-password-form.tsx:81-95 | empty shows nothing; under 8 characters is "Débil"; otherwise 2 or fewer character classes is "Débil", 3 is "Media", and 4 is "Fuerte" |
| ChangePassword.StrengthColor | src/features/users/presentation/components/change-password-form.tsx:97-102 | each strength has its own colour, and any other text has none |
| ChangePassword.AcceptedIsNotWeak | src/features/users/presentation/components/change-password-form.tsx:81-95 | an accepted new password shows "Media", or "Fuerte" exactly when it has a special character |
| ChangePassword.LowerOnlyIsWeak | src/features/users/presentation/components/change-password-form.tsx:81-95 | a long all-lower-case password is weak and rejected |
| ChangePassword.PasswordForm.Shown | src/features/users/presentation/components/change-password-form.tsx:104-105 | the meter shows the new password's strength in that strength's colour |
| ChangePassword.PasswordForm.OnSubmit | src/features/users/presentation/components/change-password-form.tsx:67-79 | the change is requested for this user with the values as they are; the form is cleared only on success |
| ProfileForm.ProfileIssuesExactly | src/features/users/presentation/components/profile-form.tsx:27-38 | accepted exactly with a name of 2 to 100 characters, a username of 3 to 50 without white space, and a valid e-mail |
| ProfileForm.SpaceInUsername | src/features/users/presentation/components/profile-form.tsx:36 | a username with white space anywhere is rejected for it |
| ProfileForm.OpeningFormNotSubmittable | src/features/users/presentation/components/profile-form.tsx:65 | the form as it opens cannot be saved, and any edit enables saving while nothing is pending |
| ProfileForm.UpdateRequest | src/features/users/presentation/components/profile-form.tsx:58-63 | an update is sent exactly when the schema accepts the values, and it carries the user's id and the values as they are |
| RecoveryForm.RecoveryIssuesExactly | src/features/auth/hooks/use-recovery-form.ts:9-25 | accepted exactly when the password matches the pattern and the confirmation repeats it |
| RecoveryForm.DefaultsRejected | src/features/auth/hooks/use-recovery-form.ts:33-36 | the empty starting form gets three issues |
| RecoveryForm.ShortRejected | src/features/auth/hooks/use-recovery-form.ts:9-25 | a password under eight characters fails both the length and the pattern check |
| RecoveryForm.ForeignCharacterRejected | src/features/auth/hooks/use-recovery-form.ts:15 | one character outside the allowed set rejects the password |
| RecoveryForm.RecoveryPasswordIsStrong | src/features/auth/hooks/use-recovery-form.ts:15 | a recovery password shows as "Fuerte", and up to 100 characters the change-password form accepts it |
| Premium.Check | src/features/subscriptions/hooks/use-premium-check.ts:14-23 | no subscription has neither flag, and every subscription has exactly one of basic plan and premium access |
| Premium.LiteIgnoresCase | src/features/subscriptions/hooks/use-premium-check.ts:14 | whether a plan is lite ignores letter case |
| Premium.NamelessPlanIsPremium | src/features/subscriptions/hooks/use-premium-check.ts:15 | a subscription without a plan name has premium access |
| Premium.LiteWordIsBasic | src/features/subscriptions/hooks/use-premium-check.ts:14-15 | a plan name containing "lite" in any case is basic, without premium access |
| MenuList.AllMenus | src/lib/menu-list.ts:41-105 | eight modules in order, each with its link and caption; only reports requires premium |
| MenuList.FreeMenus | src/lib/menu-list.ts:111-116 | the filter keeps menus in order, and none that requires premium |
| MenuList.FreeMenusMembers | src/lib/menu-list.ts:111-116 | the filter keeps exactly the menus that do not require premium |
| MenuList.MenuList | src/lib/menu-list.ts:40-119 | one "Módulos" group: all menus, or only the free ones for a lite plan |
| MenuList.LitePlanMenus | src/lib/menu-list.ts:107-118 | a lite plan loses exactly the reports module; the seven others stay in order |
| MenuList.DashboardOnlyActive | src/lib/menu-list.ts:48 | on the dashboard itself only the dashboard entry is active |
| MenuList.ModulePageActive | src/lib/menu-list.ts:41-105 | a page under a module's path marks that module active, and never the dashboard |
| BudgetForm.BudgetIssuesExactly | src/features/budgets/hooks/use-budget-form.ts:13-44 | accepted exactly with a category of at least 1, 0 ≤ current ≤ limit, and a month |
| BudgetForm.OverLimitIssue | src/features/budgets/hooks/use-budget-form.ts:34-44 | spending over the limit is reported on the current amount, only when every field has the right type |
| BudgetForm.ZeroLimitAccepted | src/features/budgets/hooks/use-budget-form.ts:25-29 | a limit of 0 with nothing spent is accepted |
| BudgetForm.ZeroCurrentApplied | src/features/budgets/hooks/use-budget-form.ts:88-90 | a current amount of 0 in the data is applied |
| BudgetForm.FalsyLimitKept | src/features/budgets/hooks/use-budget-form.ts:76-97 | a falsy limit in the data leaves the form's limit as it was |
| BudgetForm.BudgetFormHook.PrefillEffect | src/features/budgets/hooks/use-budget-form.ts:76-97 | the values are applied once, and only when there are values; the month is the day `new Date` reads in the browser's zone |
| FormState.DateOf | src/features/budgets/hooks/use-budget-form.ts:93 | `new Date(v)`: a text gives a day exactly when it is readable, and a bare `yyyy-MM-dd` text gives its own day at or east of UTC and the day before west of UTC; a number gives the local day of that instant exactly when it is within the range a `Date` holds; `true`, `false` and `null` always give a day |
| FormState.InstantDay | src/features/budgets/hooks/use-budget-form.ts:93 | an instant gives a valid local day exactly when it lies within 8.64e15 ms of the epoch |
| FormState.InstantDayNext | src/features/budgets/hooks/use-budget-form.ts:93 | an instant one day later falls on the next local day |
| FormState.EpochStart | src/features/budgets/hooks/use-budget-form.ts:93 | an instant in the first 24 hours after the local midnight of the epoch falls on 1 January 1970 |
| Calendar.NextDay | src/features/budgets/hooks/use-budget-form.ts:93 | the day after a day is a valid later day, and the day before it is the day itself |
| Calendar.EpochDaySteps | src/features/budgets/hooks/use-budget-form.ts:93 | consecutive day counts from the epoch name consecutive days |
| BudgetForm.BudgetFormHook.OnSubmit | src/features/budgets/hooks/use-budget-form.ts:99-122 | without a session user nothing is sent; otherwise the budget is updated or created; the list opens only after a save |
| BudgetForm.BudgetFormHook.OnCancel | src/features/budgets/hooks/use-budget-form.ts:124-126 | cancel goes to the budget list |
| BudgetForm.MonthSent | src/features/budgets/hooks/use-budget-form.ts:108 | the backend reads back the month picked exactly when the zone is at or west of UTC; east of UTC it reads the day before |
| DebtPaymentForm.PaymentIssuesExactly | src/features/debts/hooks/use-debt-payment-form.ts:10-19 | accepted exactly with an amount of at least 0.01 and a text description, if any |
| DebtPaymentForm.AmountMessageCount | src/features/debts/hooks/use-debt-payment-form.ts:10-19 | an amount of 0 or less gets the message twice; one between 0 and 0.01 gets it once |
| DebtPaymentForm.DefaultsPayable | src/features/debts/hooks/use-debt-payment-form.ts:29-33 | the opening form can be paid exactly when the debt's pending amount is at least 0.01 |
| DebtPaymentForm.PaymentMethodRoundTrip | src/features/debts/hooks/use-debt-payment-form.ts:59-85 | a numeric payment method left by a recommendation is submitted as that same number |
| Numerals.IntNumberText | src/features/debts/hooks/use-debt-payment-form.ts:82 | `Number(String(n))` is `n` |
| DebtPaymentForm.MethodOf | src/features/debts/hooks/use-debt-payment-form.ts:81-83 | no payment method is sent exactly when the text is missing or empty |
| DebtPaymentForm.DebtPaymentHook.PrefillEffect | src/features/debts/hooks/use-debt-payment-form.ts:46-76 | stored values are applied once they parse, the key is removed and the flag set; otherwise nothing changes |
| DebtPaymentForm.DebtPaymentHook.OnSubmit | src/features/debts/hooks/use-debt-payment-form.ts:78-99 | the payment is sent for this debt and user; the list opens only on success |
| DebtPaymentForm.RecommendationToPayment | src/features/debts/hooks/use-debt-payment-form.ts:46-76 | a recommendation's values reach the payment form and the storage key is gone afterwards |
| GoalForm.GoalIssuesExactly | src/features/goals/hooks/use-goal-form.ts:16-47 | the schema accepts exactly the described goals (a non-empty text name among them), whose target exceeds the current amount |
| GoalForm.TargetIssue | src/features/goals/hooks/use-goal-form.ts:44-47 | "target above current" is reported exactly when every type is right (the name is text, every number a number, the end date a date) and the target does not exceed the current amount |
| GoalForm.NameIssues | src/features/goals/hooks/use-goal-form.ts:18 | the name passes exactly when it is non-empty text, and its issues are all on `name` |
| GoalForm.FieldIssues | src/features/goals/hooks/use-goal-form.ts:16-43 | no field check carries the refinement's "target above current" message |
| GoalForm.NonTextName | src/features/goals/hooks/use-goal-form.ts:18 | a name that is not text is reported with zod's "Expected string" message, and the refinement on the target does not run |
| GoalForm.Normalize | src/features/goals/hooks/use-goal-form.ts:12-14 | each character loses its accent and is lowered; the length is kept |
| GoalForm.FindCategory | src/features/goals/hooks/use-goal-form.ts:121-130 | finds the first category whose normalised name matches, and none only when no category does |
| GoalForm.ExplicitCategoryWins | src/features/goals/hooks/use-goal-form.ts:121-138 | an explicit `category_id` wins over the category matched by name |
| GoalForm.PrefillKeeps | src/features/goals/hooks/use-goal-form.ts:105-142 | fields the effect does not write are kept |
| GoalForm.ZeroCurrentIgnored | src/features/goals/hooks/use-goal-form.ts:109-111 | a current amount of 0 in the data is not applied |
| GoalForm.FrequencyKey | src/features/goals/hooks/use-goal-form.ts:132-134 | the frequency comes only from the key `contribution_frecuency` |
| GoalForm.EndDateSent | src/features/goals/hooks/use-goal-form.ts:147-151 | the backend reads back the end date picked exactly when the zone is at or west of UTC; east of UTC it reads the day before |
| GoalForm.Taken | src/features/goals/hooks/use-goal-form.ts:87-99 | stored values are used only when creating and only when the stored text parses |
| GoalForm.GoalFormHook.PrefillEffect | src/features/goals/hooks/use-goal-form.ts:82-145 | a stored recommendation wins over the page's values and is removed once it parses; the values are applied once; a throwing category lookup stops the effect |
| GoalForm.GoalFormHook.ApplyHead | src/features/goals/hooks/use-goal-form.ts:105-119 | name, amounts and end date are written when truthy; the end date is the day `new Date` reads in the browser's zone |
| GoalForm.GoalFormHook.ApplyCategory | src/features/goals/hooks/use-goal-form.ts:121-130 | the category lookup succeeds exactly when the category step does, and sets the matching id |
| GoalForm.GoalFormHook.ApplyTail | src/features/goals/hooks/use-goal-form.ts:132-142 | frequency, category id and contribution amount are written when truthy |
| GoalForm.GoalFormHook.OnSubmit | src/features/goals/hooks/use-goal-form.ts:147-164 | an existing goal is updated under its id; otherwise a new goal is created for the session's user; the end date is sent as a timestamp |
| GoalForm.GoalFormHook.OnCancel | src/features/goals/hooks/use-goal-form.ts:166-169 | cancel resets the form and goes back |
| GoalForm.RecommendationToNewGoal | src/features/goals/hooks/use-goal-form.ts:82-145 | a recommendation's values fill a new goal once, the key is removed, and a second run changes nothing |

## Left out

- Time of day is not modelled: dates are calendar days, and a date picked in a form is the local midnight of its day.
- The browser's time zone is a fixed offset from UTC (`zone`, in minutes); daylight-saving changes are not modelled.
- The dashboard's period checks and the selector's presets compare calendar days, as if the browser ran in UTC.
- FormState.DateOf: a full timestamp text is read by its UTC day; the zone shift is modelled only for a bare `yyyy-MM-dd` text.
- ReportForm.FormButtons: the request `onSubmit` sends goes through the `useGenerateReport()` instance inside `useReportForm`, not the form's own instance the buttons read, so it does not disable them; the pending state of that second instance is not modelled.
- The mock debts' due dates are kept as the calendar days written in the payload; they are never displayed, so their zone shift is not modelled.
- ReportPreviewData.BoundLabel: a full timestamp filter is labelled by its UTC day; the zone shift is modelled only for a bare `yyyy-MM-dd` bound, which is what the report form sends.
- Floating point is not modelled. Amounts are exact reals, and `toFixed(1)` is read on the exact value.
- `Intl` currency and date formatting is not modelled. Month names are a fixed Spanish table.
- The goal form's accent removal covers only the accented Latin-1 letters.
- `toLowerCase` is modelled for ASCII letters only.
- The profile form's e-mail check is a parameter, because zod's e-mail pattern is not modelled.
- JSON is modelled as flat objects only: string keys, and values that are strings, integers, booleans or `null`.
- Json.Stringify escapes only `"` and `\` in strings; control characters are written as they are, so the round trip is proved for all strings but the text differs from `JSON.stringify` for strings holding control characters.
- A stored text that parses to something other than an object counts as a parse failure.
- Json.Parse: reads only what `JSON.stringify` writes for a flat object: no white space between tokens, no nested values, no fractions or exponents. A stored text that `JSON.parse` accepts in another layout counts as a parse failure, so the prefill effects leave the key in place and write nothing for it.
- String lengths count characters, not UTF-16 code units.
- Timers, toasts, modals' animation, `console` logging and React rendering are left out.
- `window.open` is a list of opened tabs.
- `useFormData` is not part of this model: the values it yields are an input.
- `z.coerce` applied to free text is not modelled: the schemas take already-coerced inputs.
- BudgetForm.BudgetFormHook.constructor takes the budget form's `defaultValues` as given.
- GoalForm.GoalFormHook.constructor takes the goal form's `defaultValues` as given.
- `Number()` is modelled for digit strings with an optional minus sign; surrounding white space is not trimmed.
- ReportPreview.Charts draws the monthly series as the page computes it; the corrected series of the finding below, ReportPreview.PrepareMonthlyData, stands beside it with its own lemmas.
- The dashboard's pie `percentage` field is left out.
- The dashboard's `barChartData` is left out, because the page never uses it.
- The voice command's confidence is ignored.
- The backend's answers are inputs (`saved`, `paid`, `changed`, `generated`, the query results).
- The recovery form's `onSubmit` only forwards to `resetPasswordHandler`, which is not part of this model.
- Premium.Check: `hasBasicPlan` is `undefined` when there is no subscription, and it is modelled as `false`.
- Card, form and page layout and styling are left out, except where a decision selects them (colours, variants, captions).

## Findings

| source | as written | input that shows it | evidently intended | confidence | as-written member | corrected member |
|---|---|---|---|---|---|---|
| src/features/reports/presentation/components/report-preview.tsx:55-66 | `prepareMonthlyData` puts a trend's `totalAmount` into income only for income reports and into expenses only for expense reports, and zero elsewhere | a comprehensive report: its monthly trends carry `income` 3000 / 500 and `expenses` 1200 / 1300.5, yet its "Resumen Financiero" chart gets two bars of zero | each month's own income and expenses are drawn when the trend has them | not executed | ReportPreview.ComprehensiveChartBlank | ReportPreview.ComprehensiveChartFilled |

=== FILE: audio.dfy ===
/** The voice-command service: the server's answer to a recorded command is
    checked for success and its extracted data is mapped to the management
    section whose create form it fills. */
module Audio {
  import opened Wrappers
  import opened Json

  /** The body of the `/voice-command` answer. `extractedData` is `None` when
      it is missing, `null` or not an object. */
  datatype VoiceCommandResult = VoiceCommandResult(
    success: bool, intent: string, extractedData: Option<Object>, message: string)

  /** The section to open and the values to put in its form. */
  datatype FormData = FormData(path: string, schema: Object)

  /** What `sendAudio` resolves to. */
  datatype AudioResponse = AudioResponse(transcription: string, formData: Option<FormData>)

  const DefaultError := "Error al procesar el comando de voz"

  const Intents: seq<string> := ["CREATE_TRANSACTION", "CREATE_GOAL", "CREATE_BUDGET"]
  const Sections: seq<string> := ["transactions", "goals", "budgets"]

  /** The `switch` on the intent: each create intent names its own section. */
  function IntentPath(intent: string): (r: Option<string>)
    ensures r.Some? <==> intent in Intents
    ensures r.Some? ==> r.value in Sections
    ensures forall i :: 0 <= i < |Intents| && intent == Intents[i] ==> r == Some(Sections[i])
  {
    if intent == "CREATE_TRANSACTION" then Some("transactions")
    else if intent == "CREATE_GOAL" then Some("goals")
    else if intent == "CREATE_BUDGET" then Some("budgets")
    else None
  }

  /** Different intents never lead to the same section, so the section a
      command opens tells which intent the server recognised. */
  lemma IntentPathInjective(a: string, b: string)
    requires IntentPath(a).Some? && IntentPath(a) == IntentPath(b)
    ensures a == b
  {
  }

  /** `mapToFormData`: nothing for missing or empty data or an intent that
      creates nothing; otherwise the section and the data unchanged. */
  function MapToFormData(intent: string, extracted: Option<Object>): (r: Option<FormData>)
    ensures r.Some? <==> extracted.Some? && extracted.value != [] && intent in Intents
    ensures r.Some? ==> r.value.schema == extracted.value && r.value.path in Sections
                        && IntentPath(intent) == Some(r.value.path)
  {
    if extracted.None? || extracted.value == [] then None
    else
      match IntentPath(intent)
      case None => None
      case Some(path) => Some(FormData(path, extracted.value))
  }

  /** The service object. It keeps no state of its own; `sendAudio` turns the
      server's answer into a result. */
  class AudioService {
    constructor()
    {
    }

    /** `sendAudio` once the answer has arrived: a failed command throws the
        server's message, or the default one when the message is empty. */
    method SendAudio(result: VoiceCommandResult) returns (r: Result<AudioResponse>)
      ensures r.Failure? <==> !result.success
      ensures r.Failure? ==> r.error != [] && (result.message != [] ==> r.error == result.message)
                             && (result.message == [] ==> r.error == DefaultError)
      ensures r.Success? ==> r.value.transcription == result.message
                             && r.value.formData == MapToFormData(result.intent, result.extractedData)
    {
      if !result.success {
        var error := if result.message != [] then result.message else DefaultError;
        return Failure(error);
      }
      var formData := MapToFormData(result.intent, result.extractedData);
      r := Success(AudioResponse(result.message, formData));
    }
  }

  /** The class-wide `instance` slot behind `getInstance`. */
  class ServiceSlot {
    var instance: AudioService?

    constructor()
      ensures instance == null
    {
      instance := null;
    }

    /** `getInstance`: creates the service on the first call only. */
    method GetInstance() returns (s: AudioService)
      modifies this
      ensures instance == s
      ensures old(instance) != null ==> s == old(instance)
      ensures old(instance) == null ==> fresh(s)
    {
      if instance == null {
        instance := new AudioService();
      }
      s := instance;
    }
  }

  /** Every caller of `getInstance` receives the one service object. */
  method SameInstance(slot: ServiceSlot) returns (first: AudioService, second: AudioService)
    modifies slot
    ensures first == second && slot.instance == first
  {
    first := slot.GetInstance();
    second := slot.GetInstance();
  }
}

=== FILE: browser.dfy ===
/** The browser as the pages see it: `localStorage` as a map from keys to
    texts, the list of routes pushed to the router, in order, and how many
    times the router went back. */
module Browser {
  import opened Wrappers

  class Browser {
    var storage: map<string, string>
    var routes: seq<string>
    var backs: nat

    constructor(storage: map<string, string>)
      ensures this.storage == storage && routes == [] && backs == 0
    {
      this.storage := storage;
      routes := [];
      backs := 0;
    }

    /** `localStorage.getItem(key)`; `None` is `null`. */
    function GetItem(key: string): (r: Option<string>)
      reads this
      ensures r.Some? <==> key in storage
      ensures r.Some? ==> r.value == storage[key]
    {
      if key in storage then Some(storage[key]) else None
    }

    method SetItem(key: string, value: string)
      modifies this
      ensures storage == old(storage)[key := value] && routes == old(routes) && backs == old(backs)
    {
      storage := storage[key := value];
    }

    method RemoveItem(key: string)
      modifies this
      ensures storage == old(storage) - {key} && routes == old(routes) && backs == old(backs)
    {
      storage := storage - {key};
    }

    /** `router.push(route)`. */
    method Push(route: string)
      modifies this
      ensures routes == old(routes) + [route] && storage == old(storage) && backs == old(backs)
    {
      routes := routes + [route];
    }

    /** `router.back()`. */
    method Back()
      modifies this
      ensures backs == old(backs) + 1 && routes == old(routes) && storage == old(storage)
    {
      backs := backs + 1;
    }
  }
}

=== FILE: budget_form.dfy ===
/** The budget form: its schema, the effect that fills it once from the
    values the page was opened with, and what submit and cancel do. */
module BudgetForm {
  import opened Wrappers
  import opened Calendar
  import opened Numerals
  import opened DateText
  import opened Json
  import opened FormState
  import opened Browser

  // ----- Schema -----

  /** The budget form after coercion: `None` is `NaN` or an Invalid Date. */
  datatype BudgetInput = BudgetInput(
    categoryId: Option<real>, currentAmount: Option<real>, limitAmount: Option<real>, month: Option<Date>)

  const CurrentAboveLimit := "La cantidad actual no puede ser mayor que el límite"

  /** A field whose type check failed stops the object-level refinement. */
  predicate TypeFailure(b: BudgetInput) {
    b.categoryId.None? || b.currentAmount.None? || b.limitAmount.None? || b.month.None?
  }

  /** `budgetSchema`: the field checks in order, then the refinement that the
      current amount does not exceed the limit, reported on `current_amount`. */
  function BudgetIssues(b: BudgetInput): seq<Issue> {
    MinIssues("category_id", b.categoryId, 1.0,
              "La categoría debe ser un número", "Debe seleccionar una categoría")
    + MinIssues("current_amount", b.currentAmount, 0.0,
                "La cantidad actual debe ser un número", "La cantidad actual debe ser mayor o igual a 0")
    + MinIssues("limit_amount", b.limitAmount, 0.0,
                "El límite debe ser un número", "El límite debe ser mayor que 0")
    + (if b.month.None? then [Issue("month", InvalidDate)] else [])
    + (if !TypeFailure(b) && b.currentAmount.value > b.limitAmount.value
       then [Issue("current_amount", CurrentAboveLimit)] else [])
  }

  /** What a budget the form accepts looks like, field by field. */
  predicate BudgetAccepted(b: BudgetInput) {
    b.categoryId.Some? && b.categoryId.value >= 1.0
    && b.currentAmount.Some? && b.limitAmount.Some?
    && 0.0 <= b.currentAmount.value <= b.limitAmount.value
    && b.month.Some?
  }

  /** The schema reports nothing exactly for the budgets described above. */
  lemma BudgetIssuesExactly(b: BudgetInput)
    ensures BudgetIssues(b) == [] <==> BudgetAccepted(b)
  {
  }

  /** Spending over the limit is reported on the current amount, and only
      when every field has the right type. */
  lemma OverLimitIssue(b: BudgetInput)
    ensures Issue("current_amount", CurrentAboveLimit) in BudgetIssues(b)
            <==> !TypeFailure(b) && b.currentAmount.value > b.limitAmount.value
  {
    var issues := BudgetIssues(b);
    if Issue("current_amount", CurrentAboveLimit) in issues {
      var k :| 0 <= k < |issues| && issues[k] == Issue("current_amount", CurrentAboveLimit);
      assert issues[k].message != "La cantidad actual debe ser un número";
      assert issues[k].message != "La cantidad actual debe ser mayor o igual a 0";
    }
  }

  /** A limit of 0 is accepted (the bound is inclusive), with nothing spent. */
  lemma ZeroLimitAccepted(category: real, month: Date)
    requires category >= 1.0
    ensures BudgetIssues(BudgetInput(Some(category), Some(0.0), Some(0.0), Some(month))) == []
  {
  }

  // ----- Prefill -----

  /** The writes of the effect: category and limit when truthy, the current
      amount whenever the key is present (even `0` or `null`), the month as a date. */
  function BudgetPrefill(form: Form, d: Object, zone: UtcOffset): Form {
    var f := SetTruthy(form, d, "category_id", "category_id");
    var f := SetTruthy(f, d, "limit_amount", "limit_amount");
    var f := if HasKey(d, "current_amount") then f["current_amount" := Raw(Get(d, "current_amount").value)] else f;
    if Truthy(Get(d, "month")) then f["month" := FDate(DateOf(Get(d, "month").value, zone))] else f
  }

  /** Unlike the goal form, a current amount of 0 is applied. */
  lemma ZeroCurrentApplied(form: Form, d: Object, zone: UtcOffset)
    requires Get(d, "current_amount") == Some(JNum(0))
    ensures BudgetPrefill(form, d, zone)["current_amount"] == FNumber(0.0)
  {
    var f1 := SetTruthy(form, d, "category_id", "category_id");
    var f2 := SetTruthy(f1, d, "limit_amount", "limit_amount");
    var g := f2["current_amount" := FNumber(0.0)];
    assert BudgetPrefill(form, d, zone) == (if Truthy(Get(d, "month")) then g["month" := FDate(DateOf(Get(d, "month").value, zone))] else g);
  }

  /** A falsy limit (missing, `0`, `""`, `null`) leaves the form's limit as it was. */
  lemma FalsyLimitKept(form: Form, d: Object, zone: UtcOffset)
    requires !Truthy(Get(d, "limit_amount"))
    ensures Keeps(form, BudgetPrefill(form, d, zone), "limit_amount")
  {
    var f1 := SetTruthy(form, d, "category_id", "category_id");
    var f2 := SetTruthy(f1, d, "limit_amount", "limit_amount");
    SetTruthyKeeps(form, d, "category_id", "category_id", "limit_amount");
    SetTruthyKeeps(f1, d, "limit_amount", "limit_amount", "limit_amount");
  }

  /** What is sent on submit: the values with the month as an ISO timestamp. */
  datatype BudgetBody = BudgetBody(input: BudgetInput, month: string)

  datatype BudgetRequest = UpdateBudget(id: int, body: BudgetBody) | CreateBudget(body: BudgetBody, userId: Option<int>)

  const BudgetsRoute := "/management/budgets"

  class BudgetFormHook {
    /** The id of the budget being edited; `None` when a new one is created. */
    const budgetId: Option<int>
    const browser: Browser
    var form: Form
    /** `initialDataProcessedRef.current`. */
    var processed: bool

    constructor(budgetId: Option<int>, form: Form, browser: Browser)
      ensures this.budgetId == budgetId && this.form == form && this.browser == browser && !processed
    {
      this.budgetId := budgetId;
      this.form := form;
      this.browser := browser;
      processed := false;
    }

    /** The prefill effect: it runs only with values to apply, and only once. */
    method PrefillEffect(formData: Option<Object>, zone: UtcOffset)
      modifies this
      ensures formData.None? || old(processed) ==> form == old(form) && processed == old(processed)
      ensures formData.Some? && !old(processed) ==> form == BudgetPrefill(old(form), formData.value, zone) && processed
    {
      if formData.None? || processed {
        return;
      }
      var d := formData.value;
      if Truthy(Get(d, "category_id")) {
        form := form["category_id" := Raw(Get(d, "category_id").value)];
      }
      if Truthy(Get(d, "limit_amount")) {
        form := form["limit_amount" := Raw(Get(d, "limit_amount").value)];
      }
      if HasKey(d, "current_amount") {
        form := form["current_amount" := Raw(Get(d, "current_amount").value)];
      }
      if Truthy(Get(d, "month")) {
        form := form["month" := FDate(DateOf(Get(d, "month").value, zone))];
      }
      processed := true;
    }

    /** `onSubmit` with values the schema accepted. Without a session user id
        nothing is sent; otherwise the budget is updated or created, and the
        page goes to the budget list only when the save succeeded (`saved`). */
    method OnSubmit(b: BudgetInput, sessionUser: Option<string>, saved: bool, zone: UtcOffset) returns (r: Option<BudgetRequest>)
      requires b.month.Some? && Valid(b.month.value)
      modifies browser
      ensures sessionUser.None? || sessionUser.value == [] ==> r.None? && browser.routes == old(browser.routes)
      ensures sessionUser.Some? && sessionUser.value != [] ==>
                r.Some? && r.value.body == BudgetBody(b, IsoTimestamp(b.month.value, zone))
                && (r.value.UpdateBudget? <==> budgetId.Some?)
                && (r.value.UpdateBudget? ==> r.value.id == budgetId.value)
                && (r.value.CreateBudget? ==> r.value.userId == IntNumber(sessionUser.value))
                && browser.routes == old(browser.routes) + (if saved then [BudgetsRoute] else [])
      ensures browser.storage == old(browser.storage) && browser.backs == old(browser.backs)
    {
      if sessionUser.None? || sessionUser.value == [] {
        return None;
      }
      var body := BudgetBody(b, IsoTimestamp(b.month.value, zone));
      if budgetId.Some? {
        r := Some(UpdateBudget(budgetId.value, body));
      } else {
        r := Some(CreateBudget(body, IntNumber(sessionUser.value)));
      }
      if saved {
        browser.Push(BudgetsRoute);
      }
    }

    /** `onCancel`: back to the budget list. */
    method OnCancel()
      modifies browser
      ensures browser.routes == old(browser.routes) + [BudgetsRoute]
      ensures browser.storage == old(browser.storage) && browser.backs == old(browser.backs)
    {
      browser.Push(BudgetsRoute);
    }
  }

  /** The backend, reading the timestamp by its UTC day, reads back the
      picked day at or west of UTC; east of UTC it reads the day before, which
      for a month picked as its first day is the last day of the month before. */
  lemma MonthSent(b: BudgetInput, zone: UtcOffset)
    requires b.month.Some? && Valid(b.month.value) && b.month.value.year < 10000 && 0 <= PrevDay(b.month.value).year
    ensures ParseDay(BudgetBody(b, IsoTimestamp(b.month.value, zone)).month)
              == Some(if zone <= 0 then b.month.value else PrevDay(b.month.value))
    ensures ParseDay(BudgetBody(b, IsoTimestamp(b.month.value, zone)).month) == b.month <==> zone <= 0
  {
    ParseDayTimestamp(b.month.value, zone);
  }
}

=== FILE: calendar.dfy ===
/** Proleptic Gregorian calendar days and the `date-fns` month arithmetic the
    period presets use (`startOfMonth`, `endOfMonth`, `subMonths`,
    `startOfYear`), and the day before a day. A JavaScript `Date` is modelled
    by the calendar day it falls on. */
module Calendar {

  datatype Date = Date(year: int, month: int, day: int)

  predicate IsLeapYear(y: int) {
    (y % 4 == 0 && y % 100 != 0) || y % 400 == 0
  }

  function DaysInMonth(y: int, m: int): (n: int)
    requires 1 <= m <= 12
    ensures 28 <= n <= 31
    ensures n == 29 <==> m == 2 && IsLeapYear(y)
    ensures n == 28 <==> m == 2 && !IsLeapYear(y)
  {
    if m == 2 then (if IsLeapYear(y) then 29 else 28)
    else if m == 4 || m == 6 || m == 9 || m == 11 then 30
    else 31
  }

  predicate Valid(d: Date) {
    1 <= d.month <= 12 && 1 <= d.day <= DaysInMonth(d.year, d.month)
  }

  /** Chronological order of days (`a <= b` on two `Date`s). */
  predicate LessEq(a: Date, b: Date) {
    a.year < b.year
    || (a.year == b.year && a.month < b.month)
    || (a.year == b.year && a.month == b.month && a.day <= b.day)
  }

  lemma LessEqIsTotalOrder(a: Date, b: Date, c: Date)
    ensures LessEq(a, a)
    ensures LessEq(a, b) || LessEq(b, a)
    ensures LessEq(a, b) && LessEq(b, a) ==> a == b
    ensures LessEq(a, b) && LessEq(b, c) ==> LessEq(a, c)
  {}

  /** Months since January of year 0: the position of a month on the time line. */
  function MonthIndex(y: int, m: int): int {
    y * 12 + (m - 1)
  }

  /** The month at a given index, as (year, month). */
  function MonthAt(k: int): (ym: (int, int))
    ensures 1 <= ym.1 <= 12
    ensures MonthIndex(ym.0, ym.1) == k
  {
    (k / 12, k % 12 + 1)
  }

  lemma MonthIndexOrder(a: Date, b: Date)
    requires 1 <= a.month <= 12 && 1 <= b.month <= 12
    ensures MonthIndex(a.year, a.month) < MonthIndex(b.year, b.month)
            <==> a.year < b.year || (a.year == b.year && a.month < b.month)
  {}

  lemma MonthIndexInjective(y1: int, m1: int, y2: int, m2: int)
    requires 1 <= m1 <= 12 && 1 <= m2 <= 12
    requires MonthIndex(y1, m1) == MonthIndex(y2, m2)
    ensures y1 == y2 && m1 == m2
  {}

  function StartOfMonth(d: Date): (r: Date)
    requires Valid(d)
    ensures Valid(r) && r.year == d.year && r.month == d.month && r.day == 1
    ensures LessEq(r, d)
  {
    Date(d.year, d.month, 1)
  }

  function EndOfMonth(d: Date): (r: Date)
    requires Valid(d)
    ensures Valid(r) && r.year == d.year && r.month == d.month
    ensures r.day == DaysInMonth(d.year, d.month)
    ensures LessEq(d, r)
  {
    Date(d.year, d.month, DaysInMonth(d.year, d.month))
  }

  function StartOfYear(d: Date): (r: Date)
    requires Valid(d)
    ensures Valid(r) && r.year == d.year && r.month == 1 && r.day == 1
    ensures LessEq(r, d)
  {
    Date(d.year, 1, 1)
  }

  /** `subMonths(d, n)`: the same day n months earlier, clamped to the length of
      the target month (31 March minus one month is 28 or 29 February). */
  function SubMonths(d: Date, n: nat): (r: Date)
    requires Valid(d)
    ensures Valid(r)
    ensures MonthIndex(r.year, r.month) == MonthIndex(d.year, d.month) - n
    ensures r.day == if d.day <= DaysInMonth(r.year, r.month) then d.day else DaysInMonth(r.year, r.month)
  {
    var ym := MonthAt(MonthIndex(d.year, d.month) - n);
    var last := DaysInMonth(ym.0, ym.1);
    Date(ym.0, ym.1, if d.day <= last then d.day else last)
  }

  /** The day before every day of a later month comes first. */
  lemma EarlierMonthIsBefore(a: Date, b: Date)
    requires Valid(a) && Valid(b)
    requires MonthIndex(a.year, a.month) <= MonthIndex(b.year, b.month)
    requires MonthIndex(a.year, a.month) == MonthIndex(b.year, b.month) ==> a.day <= b.day
    ensures LessEq(a, b)
  {
    MonthIndexOrder(a, b);
    if MonthIndex(a.year, a.month) == MonthIndex(b.year, b.month) {
      MonthIndexInjective(a.year, a.month, b.year, b.month);
    }
  }

  /** `start <= d && d <= end` on days. */
  predicate InRange(d: Date, start: Date, end: Date) {
    LessEq(start, d) && LessEq(d, end)
  }

  /** `a < b` on days. */
  predicate Before(a: Date, b: Date) {
    LessEq(a, b) && a != b
  }

  /** The day before `d`: the latest valid day earlier than it. */
  function PrevDay(d: Date): (r: Date)
    requires Valid(d)
    ensures Valid(r) && Before(r, d)
    ensures forall x :: Valid(x) && Before(x, d) ==> LessEq(x, r)
    ensures r.year == d.year || (r.year == d.year - 1 && d.month == 1 && d.day == 1)
  {
    if d.day > 1 then Date(d.year, d.month, d.day - 1)
    else if d.month > 1 then Date(d.year, d.month - 1, DaysInMonth(d.year, d.month - 1))
    else Date(d.year - 1, 12, 31)
  }

  /** The day after `d`: the earliest valid day later than it. */
  function NextDay(d: Date): (r: Date)
    requires Valid(d)
    ensures Valid(r) && Before(d, r)
    ensures PrevDay(r) == d
  {
    if d.day < DaysInMonth(d.year, d.month) then Date(d.year, d.month, d.day + 1)
    else if d.month < 12 then Date(d.year, d.month + 1, 1)
    else Date(d.year + 1, 1, 1)
  }

  /** The day `k` days after 1 January 1970 (before it when `k` is negative). */
  function EpochDay(k: int): (r: Date)
    ensures Valid(r)
    decreases if k < 0 then -k else k
  {
    if k == 0 then Date(1970, 1, 1)
    else if k > 0 then NextDay(EpochDay(k - 1))
    else PrevDay(EpochDay(k + 1))
  }

  /** Consecutive day counts name consecutive days, in both directions. */
  lemma EpochDaySteps(k: int)
    ensures EpochDay(k + 1) == NextDay(EpochDay(k))
    ensures PrevDay(EpochDay(k + 1)) == EpochDay(k)
  {
    if k < 0 {
      var d := EpochDay(k + 1);
      assert EpochDay(k) == PrevDay(d);
      NextOfPrev(d);
    }
  }

  /** The day after the day before `d` is `d`. */
  lemma NextOfPrev(d: Date)
    requires Valid(d)
    ensures NextDay(PrevDay(d)) == d
  {
  }

  /** A range from the first day of one month to the last day of another holds
      exactly the days of the months between them. */
  lemma MonthSpan(start: Date, end: Date, d: Date)
    requires Valid(start) && Valid(end) && Valid(d)
    requires start.day == 1 && end.day == DaysInMonth(end.year, end.month)
    ensures InRange(d, start, end)
            <==> MonthIndex(start.year, start.month) <= MonthIndex(d.year, d.month) <= MonthIndex(end.year, end.month)
  {
    MonthIndexOrder(start, d);
    MonthIndexOrder(d, end);
    if MonthIndex(start.year, start.month) == MonthIndex(d.year, d.month) {
      MonthIndexInjective(start.year, start.month, d.year, d.month);
    }
    if MonthIndex(end.year, end.month) == MonthIndex(d.year, d.month) {
      MonthIndexInjective(end.year, end.month, d.year, d.month);
    }
  }
}

=== FILE: category_summary.dfy ===
/** The "Gastos por Categoría" card: positive category totals, largest first,
    optionally cut to the first few, with their grand total and a note saying
    how many categories were left out. */
module CategorySummary {
  import opened Wrappers
  import opened Ranking

  datatype CategoryExpense = CategoryExpense(category: string, categoryName: Option<string>, total: real)

  const DefaultShowTopOnly: bool := true
  const DefaultMaxItems: int := 4

  /** What the card shows. `more` is the number after "+" in "+N categorías más",
      present exactly when the "Ver todos" link is shown too. */
  datatype View =
    | Loading
    | Empty
    | Listing(rows: seq<CategoryExpense>, total: real, more: Option<int>)

  function Total(e: CategoryExpense): real { e.total }

  predicate IsPositive(e: CategoryExpense) { e.total > 0.0 }

  /** `[...expenses].filter(e => e.total > 0).sort((a, b) => b.total - a.total)`. */
  function SortedExpenses(expenses: seq<CategoryExpense>): (r: seq<CategoryExpense>)
    ensures SortedDesc(r, Total)
    ensures forall i :: 0 <= i < |r| ==> r[i].total > 0.0 && r[i] in expenses
    ensures multiset(r) == multiset(Filter(expenses, IsPositive))
  {
    var kept := Filter(expenses, IsPositive);
    SortDescSorted(kept, Total);
    SortDescMembers(kept, Total);
    SortDesc(kept, Total)
  }

  /** The list displayed: all of it, or its first `maxItems` (`slice(0, maxItems)`). */
  function Displayed(sorted: seq<CategoryExpense>, showTopOnly: bool, maxItems: int): (r: seq<CategoryExpense>)
    ensures |r| <= |sorted| && r == sorted[..|r|]
    ensures !showTopOnly ==> r == sorted
    ensures showTopOnly && 0 <= maxItems ==> |r| == if maxItems < |sorted| then maxItems else |sorted|
  {
    if showTopOnly then SliceTo(sorted, maxItems) else sorted
  }

  function Summary(expenses: seq<CategoryExpense>, isLoading: bool, showTopOnly: bool, maxItems: int): (v: View)
    ensures isLoading <==> v == Loading
    ensures v.Listing? ==> |v.rows| > 0 && v.rows == Displayed(SortedExpenses(expenses), showTopOnly, maxItems)
    ensures v.Listing? ==> (v.more.Some? <==> showTopOnly && |SortedExpenses(expenses)| > maxItems)
    ensures v.Listing? && v.more.Some? ==> v.more.value == |SortedExpenses(expenses)| - maxItems
  {
    if isLoading then Loading
    else
      var sorted := SortedExpenses(expenses);
      var shown := Displayed(sorted, showTopOnly, maxItems);
      if shown == [] then Empty
      else
        Listing(shown, SumBy(sorted, Total),
                if showTopOnly && |sorted| > maxItems then Some(|sorted| - maxItems) else None)
  }

  /** The card lists the largest positive totals in descending order, and its
      total counts every positive category, shown or not. */
  lemma SummaryContents(expenses: seq<CategoryExpense>, showTopOnly: bool, maxItems: int)
    ensures var v := Summary(expenses, false, showTopOnly, maxItems);
            v.Listing? ==>
              SortedDesc(v.rows, Total)
              && (forall i :: 0 <= i < |v.rows| ==> v.rows[i].total > 0.0 && v.rows[i] in expenses)
              && v.total == SumBy(Filter(expenses, IsPositive), Total)
              && v.total >= SumBy(v.rows, Total)
    ensures var v := Summary(expenses, false, showTopOnly, maxItems);
            var sorted := SortedExpenses(expenses);
            v.Listing? ==> forall i, j :: 0 <= i < |v.rows| <= j < |sorted| ==> v.rows[i].total >= sorted[j].total
  {
    var kept := Filter(expenses, IsPositive);
    var sorted := SortedExpenses(expenses);
    var shown := Displayed(sorted, showTopOnly, maxItems);
    SumBySort(kept, Total);
    PrefixSumBounded(sorted, |shown|, Total);
    assert sorted[..|shown|] == shown;
  }

  /** The empty message appears exactly when nothing is displayed: with no
      positive total, or when the list is cut to zero items. */
  lemma EmptyWhenNothingDisplayed(expenses: seq<CategoryExpense>, showTopOnly: bool, maxItems: int)
    ensures Summary(expenses, false, showTopOnly, maxItems) == Empty
            <==> Displayed(SortedExpenses(expenses), showTopOnly, maxItems) == []
    ensures (forall i :: 0 <= i < |expenses| ==> expenses[i].total <= 0.0)
            ==> Summary(expenses, false, showTopOnly, maxItems) == Empty
  {
    if forall i :: 0 <= i < |expenses| ==> expenses[i].total <= 0.0 {
      var sorted := SortedExpenses(expenses);
      assert forall x :: x in sorted ==> x in expenses && x.total > 0.0;
    }
  }

  /** With the default settings at most four categories are listed, and any
      further ones are counted in the note. */
  lemma DefaultsShowFour(expenses: seq<CategoryExpense>)
    ensures var v := Summary(expenses, false, DefaultShowTopOnly, DefaultMaxItems);
            var n := |SortedExpenses(expenses)|;
            v.Listing? ==> |v.rows| == (if n < 4 then n else 4) && (v.more.Some? <==> n > 4)
                           && (v.more.Some? ==> v.more.value == n - 4)
    ensures Summary(expenses, false, DefaultShowTopOnly, DefaultMaxItems).Listing? <==> SortedExpenses(expenses) != []
  {
  }
}

=== FILE: change_password.dfy ===
/** The change-password form: its schema, the strength shown for the new
    password, and what submitting does. */
module ChangePassword {
  import opened Strings
  import opened FormState

  datatype PasswordValues = PasswordValues(currentPassword: string, newPassword: string, confirmPassword: string)

  const Mismatch := "Las contraseñas no coinciden"

  /** The checks on the new password, each reported on its own. */
  function NewPasswordIssues(p: string): seq<Issue> {
    (if |p| < 8 then [Issue("newPassword", "La contraseña debe tener al menos 8 caracteres")] else [])
    + (if |p| > 100 then [Issue("newPassword", "La contraseña no debe exceder 100 caracteres")] else [])
    + (if !HasUpper(p) then [Issue("newPassword", "La contraseña debe contener al menos una letra mayúscula")] else [])
    + (if !HasLower(p) then [Issue("newPassword", "La contraseña debe contener al menos una letra minúscula")] else [])
    + (if !HasDigit(p) then [Issue("newPassword", "La contraseña debe contener al menos un número")] else [])
  }

  /** `passwordFormSchema`: every field is text, so the refinement that the
      confirmation matches always runs, and reports on `confirmPassword`. */
  function PasswordIssues(v: PasswordValues): seq<Issue> {
    (if v.currentPassword == [] then [Issue("currentPassword", "La contraseña actual es requerida")] else [])
    + NewPasswordIssues(v.newPassword)
    + (if v.confirmPassword == [] then [Issue("confirmPassword", "Por favor confirma tu contraseña")] else [])
    + (if v.newPassword != v.confirmPassword then [Issue("confirmPassword", Mismatch)] else [])
  }

  /** A new password the schema accepts. */
  predicate GoodNewPassword(p: string) {
    8 <= |p| <= 100 && HasUpper(p) && HasLower(p) && HasDigit(p)
  }

  lemma NewPasswordIssuesExactly(p: string)
    ensures NewPasswordIssues(p) == [] <==> GoodNewPassword(p)
  {
  }

  /** The form is accepted exactly when the current password is given, the
      new one is good, and the confirmation repeats it. */
  lemma PasswordIssuesExactly(v: PasswordValues)
    ensures PasswordIssues(v) == []
            <==> v.currentPassword != [] && GoodNewPassword(v.newPassword) && v.confirmPassword == v.newPassword
  {
    NewPasswordIssuesExactly(v.newPassword);
  }

  /** A confirmation that differs is reported on the confirmation field,
      whatever else is wrong. */
  lemma MismatchReported(v: PasswordValues)
    ensures Issue("confirmPassword", Mismatch) in PasswordIssues(v) <==> v.newPassword != v.confirmPassword
  {
    var issues := PasswordIssues(v);
    if v.newPassword != v.confirmPassword {
      assert issues[|issues| - 1] == Issue("confirmPassword", Mismatch);
    }
  }

  // ----- Strength -----

  /** The characters `[!@#$%^&*(),.?":{}|<>]` matches. */
  predicate IsSpecial(c: char) {
    c in {'!', '@', '#', '$', '%', '^', '&', '*', '(', ')', ',', '.', '?', '"', ':', '{', '}', '|', '<', '>'}
  }

  predicate HasSpecial(s: string) { exists i :: 0 <= i < |s| && IsSpecial(s[i]) }

  /** How many of the four classes the password holds. */
  function ClassCount(p: string): (n: nat)
    ensures n <= 4
  {
    (if HasUpper(p) then 1 else 0) + (if HasLower(p) then 1 else 0)
    + (if HasDigit(p) then 1 else 0) + (if HasSpecial(p) then 1 else 0)
  }

  /** `getPasswordStrength`. */
  function Strength(p: string): (s: string)
    ensures s == "" <==> p == []
    ensures 0 < |p| < 8 ==> s == "Débil"
    ensures |p| >= 8 ==> (s == "Débil" <==> ClassCount(p) <= 2)
    ensures |p| >= 8 ==> (s == "Media" <==> ClassCount(p) == 3)
    ensures s == "Fuerte" <==> |p| >= 8 && ClassCount(p) == 4
  {
    if p == [] then ""
    else if |p| < 8 then "Débil"
    else
      var n := ClassCount(p);
      if n <= 2 then "Débil" else if n == 3 then "Media" else "Fuerte"
  }

  /** `getPasswordStrengthColor`. */
  function StrengthColor(s: string): (c: string)
    ensures c == "text-red-500" <==> s == "Débil"
    ensures c == "text-yellow-500" <==> s == "Media"
    ensures c == "text-green-500" <==> s == "Fuerte"
    ensures c == "" <==> s !in {"Débil", "Media", "Fuerte"}
  {
    if s == "Débil" then "text-red-500"
    else if s == "Media" then "text-yellow-500"
    else if s == "Fuerte" then "text-green-500"
    else ""
  }

  /** A new password the schema accepts is never shown as weak: it is
      "Media", or "Fuerte" when it also holds a special character. */
  lemma AcceptedIsNotWeak(p: string)
    requires NewPasswordIssues(p) == []
    ensures Strength(p) == "Media" || Strength(p) == "Fuerte"
    ensures Strength(p) == "Fuerte" <==> HasSpecial(p)
  {
    NewPasswordIssuesExactly(p);
  }

  /** A long password with only lower-case letters is weak and rejected. */
  lemma LowerOnlyIsWeak(p: string)
    requires |p| >= 8 && forall i :: 0 <= i < |p| ==> IsLower(p[i])
    ensures Strength(p) == "Débil" && NewPasswordIssues(p) != []
  {
    assert !HasUpper(p) && !HasDigit(p) && !HasSpecial(p);
  }

  /** The component's form: the user whose password it changes and the values it holds. */
  class PasswordForm {
    const userId: int
    var values: PasswordValues

    constructor(userId: int)
      ensures this.userId == userId && values == PasswordValues("", "", "")
    {
      this.userId := userId;
      values := PasswordValues("", "", "");
    }

    /** The strength shown under the new password and its colour. */
    function Shown(): (r: (string, string))
      reads this
      ensures r.0 == Strength(values.newPassword) && r.1 == StrengthColor(r.0)
      ensures values.newPassword == [] ==> r.1 == ""
    {
      var s := Strength(values.newPassword);
      (s, StrengthColor(s))
    }

    /** `onSubmit` with accepted values: the change is requested for this user
        with the values as they are; the form is cleared only when it succeeded. */
    method OnSubmit(changed: bool) returns (id: int, sent: PasswordValues)
      requires PasswordIssues(values) == []
      modifies this
      ensures id == userId && sent == old(values)
      ensures values == (if changed then PasswordValues("", "", "") else old(values))
    {
      id := userId;
      sent := values;
      if changed {
        values := PasswordValues("", "", "");
      }
    }
  }
}

=== FILE: dashboard.dfy ===
/** The management dashboard: the budgets, goals and debts shown for the selected
    period, the category pie chart, the trend line chart, progress bars and their
    colours, and the page-wide loading flag. */
module Dashboard {
  import opened Calendar
  import opened DateText
  import opened Wrappers
  import opened Ranking
  import opened PeriodSelector
  import Numerals

  datatype Budget = Budget(month: Option<string>, currentAmount: real, limitAmount: real)
  datatype Goal = Goal(currentAmount: real, targetAmount: real, endDate: string)
  datatype Debt = Debt(pendingAmount: real, dueDate: Option<string>)
  datatype CategoryTotal = CategoryTotal(category: string, categoryName: Option<string>, total: real)
  datatype MonthlyTrend = MonthlyTrend(month: string, income: real, expense: real)

  /** A pie slice: the category's name and its total. */
  datatype Slice = Slice(name: string, value: real)

  /** A line-chart point; `month` is `None` where `format` rejects the date. */
  datatype LinePoint = LinePoint(month: string, income: real, expense: real)

  /** `new Date(text)` compared with the period's bounds: an unreadable date
      (`Invalid Date`) fails both comparisons. */
  predicate DateInPeriod(text: string, p: PeriodRange) {
    match ParseDay(text)
    case None => false
    case Some(d) => InRange(d, p.startDate, p.endDate)
  }

  predicate BudgetShown(b: Budget, p: PeriodRange) {
    b.month.Some? && b.month.value != [] && DateInPeriod(b.month.value, p)
  }

  predicate GoalShown(g: Goal, p: PeriodRange) {
    g.currentAmount < g.targetAmount || DateInPeriod(g.endDate, p)
  }

  predicate DebtShown(d: Debt, p: PeriodRange) {
    if d.dueDate.None? then d.pendingAmount > 0.0
    else d.pendingAmount > 0.0 || DateInPeriod(d.dueDate.value, p)
  }

  /** The budgets listed: those whose month is set and falls in the period. */
  function VisibleBudgets(all: seq<Budget>, p: PeriodRange): (r: seq<Budget>)
    ensures forall b :: b in r <==> b in all && b.month.Some? && b.month.value != []
                                    && DateInPeriod(b.month.value, p)
    ensures SubsequenceOf(r, all)
    ensures forall b :: multiset(r)[b] == if BudgetShown(b, p) then multiset(all)[b] else 0
  {
    FilterCounts(all, b => BudgetShown(b, p));
    Filter(all, b => BudgetShown(b, p))
  }

  /** The goals listed: those not yet reached, and the reached ones ending in the period. */
  function VisibleGoals(all: seq<Goal>, p: PeriodRange): (r: seq<Goal>)
    ensures forall g :: g in r <==> g in all && (g.currentAmount < g.targetAmount || DateInPeriod(g.endDate, p))
    ensures SubsequenceOf(r, all)
    ensures forall g :: multiset(r)[g] == if GoalShown(g, p) then multiset(all)[g] else 0
  {
    FilterCounts(all, g => GoalShown(g, p));
    Filter(all, g => GoalShown(g, p))
  }

  /** The debts listed: those still owed, and the settled ones due in the period. */
  function VisibleDebts(all: seq<Debt>, p: PeriodRange): (r: seq<Debt>)
    ensures forall d :: d in r <==> d in all && (d.pendingAmount > 0.0
                                    || (d.dueDate.Some? && DateInPeriod(d.dueDate.value, p)))
    ensures SubsequenceOf(r, all)
    ensures forall d :: multiset(r)[d] == if DebtShown(d, p) then multiset(all)[d] else 0
  {
    FilterCounts(all, d => DebtShown(d, p));
    Filter(all, d => DebtShown(d, p))
  }

  /** `categoryName || "Categoría " + category`. */
  function CategoryLabel(c: CategoryTotal): string {
    if c.categoryName.Some? && c.categoryName.value != [] then c.categoryName.value
    else "Categoría " + c.category
  }

  function SliceOf(c: CategoryTotal): Slice {
    Slice(CategoryLabel(c), c.total)
  }

  function SliceValue(s: Slice): real { s.value }

  predicate PositiveSlice(s: Slice) { s.value > 0.0 }

  /** The slices of the categories with a positive total, in input order. */
  function PositiveSlices(totals: seq<CategoryTotal>): seq<Slice> {
    Filter(seq(|totals|, i requires 0 <= i < |totals| => SliceOf(totals[i])), PositiveSlice)
  }

  /** The positive slices are exactly the slices of the categories with a
      positive total. */
  lemma PositiveSlicesMembers(totals: seq<CategoryTotal>)
    ensures forall i :: 0 <= i < |totals| && totals[i].total > 0.0 ==> SliceOf(totals[i]) in PositiveSlices(totals)
    ensures forall x :: x in PositiveSlices(totals) ==>
              x.value > 0.0 && exists i :: 0 <= i < |totals| && x == SliceOf(totals[i])
  {
    var slices := seq(|totals|, i requires 0 <= i < |totals| => SliceOf(totals[i]));
    var kept := PositiveSlices(totals);
    forall i | 0 <= i < |totals| && totals[i].total > 0.0
      ensures SliceOf(totals[i]) in kept
    {
      assert slices[i] == SliceOf(totals[i]);
    }
    forall x | x in kept
      ensures x.value > 0.0 && exists i :: 0 <= i < |totals| && x == SliceOf(totals[i])
    {
      var k :| 0 <= k < |kept| && kept[k] == x;
      var i :| 0 <= i < |slices| && slices[i] == x;
    }
  }

  /** The five largest of some positive slices are positive, largest first,
      and taken from them. */
  lemma TopFive(kept: seq<Slice>)
    requires forall x :: x in kept ==> x.value > 0.0
    ensures var r := SliceTo(SortDesc(kept, SliceValue), 5);
            multiset(r) <= multiset(kept) && SortedDesc(r, SliceValue)
            && forall i :: 0 <= i < |r| ==> r[i].value > 0.0
  {
    var sorted := SortDesc(kept, SliceValue);
    SortDescSorted(kept, SliceValue);
    SortDescMembers(kept, SliceValue);
    SliceToMultiset(sorted, 5);
  }

  /** `pieChartData`: positive totals as slices, largest first, five of them
      or all there are when fewer; no slice appears more often than the
      categories yield it. */
  function PieChartData(totals: seq<CategoryTotal>): (r: seq<Slice>)
    ensures var n := |PositiveSlices(totals)|; |r| == if n < 5 then n else 5
    ensures multiset(r) <= multiset(PositiveSlices(totals))
    ensures forall i :: 0 <= i < |r| ==> r[i].value > 0.0
    ensures SortedDesc(r, SliceValue)
  {
    PositiveSlicesMembers(totals);
    TopFive(PositiveSlices(totals));
    SliceTo(SortDesc(PositiveSlices(totals), SliceValue), 5)
  }

  /** A positive category left out of the five largest is no larger than any
      of them, and then there are five. */
  lemma LeftOutOfPieChart(totals: seq<CategoryTotal>, i: int)
    requires 0 <= i < |totals| && totals[i].total > 0.0 && SliceOf(totals[i]) !in PieChartData(totals)
    ensures var r := PieChartData(totals);
            |r| == 5 && forall j :: 0 <= j < |r| ==> r[j].value >= totals[i].total
  {
    var kept := PositiveSlices(totals);
    var sorted := SortDesc(kept, SliceValue);
    SortDescSorted(kept, SliceValue);
    SortDescMembers(kept, SliceValue);
    PositiveSlicesMembers(totals);
    var x := SliceOf(totals[i]);
    assert x in multiset(kept);
    assert x in sorted by {
      assert x in multiset(sorted);
    }
    LeftOutOfTop(sorted, SliceValue, 5, x);
  }

  /** Every positive category is either in the pie chart or no larger than any
      slice shown; every slice comes from a positive category. */
  lemma PieChartTopFive(totals: seq<CategoryTotal>)
    ensures var r := PieChartData(totals);
            forall i :: 0 <= i < |totals| && totals[i].total > 0.0 && SliceOf(totals[i]) !in r ==>
              |r| == 5 && forall j :: 0 <= j < |r| ==> r[j].value >= totals[i].total
    ensures var r := PieChartData(totals);
            forall j :: 0 <= j < |r| ==> exists i :: 0 <= i < |totals| && r[j] == SliceOf(totals[i])
  {
    var r := PieChartData(totals);
    forall i | 0 <= i < |totals| && totals[i].total > 0.0 && SliceOf(totals[i]) !in r
      ensures |r| == 5 && forall j :: 0 <= j < |r| ==> r[j].value >= totals[i].total
    {
      LeftOutOfPieChart(totals, i);
    }
    PositiveSlicesMembers(totals);
    forall j | 0 <= j < |r|
      ensures exists i :: 0 <= i < |totals| && r[j] == SliceOf(totals[i])
    {
      assert r[j] in multiset(r);
      assert r[j] in multiset(PositiveSlices(totals));
    }
  }

  /** `format(new Date(month + "-01"), "MMM")`: the month of the local day on
      which that UTC midnight falls, which west of UTC is the month before;
      `None` where date-fns throws on an Invalid Date. */
  function MonthLabel(month: string, zone: UtcOffset): (r: Option<string>)
    ensures r.Some? <==> ParseDay(month + "-01").Some?
    ensures r.Some? && |month| == 7 ==>
              var m := ParseDay(month + "-01").value.month;
              r.value == SpanishMonth(if zone >= 0 then m else if m == 1 then 12 else m - 1)
  {
    FirstOfMonth(month);
    match LocalDay(month + "-01", zone)
    case None => None
    case Some(d) => Some(SpanishMonth(d.month))
  }

  /** A `yyyy-MM` text followed by "-01" reads as the first day of a month. */
  lemma FirstOfMonth(month: string)
    ensures |month| == 7 && ParseDay(month + "-01").Some? ==> ParseDay(month + "-01").value.day == 1
  {
    var s := month + "-01";
    if |month| == 7 {
      assert s[8..] == "01";
      assert ParseDay(s) == ParseIsoDate(s);
      assert Numerals.DigitsValue("01") == 1 by {
        assert "01"[..1] == "0";
      }
    }
  }

  /** `lineChartData`: the last six monthly trends, in their original order,
      each under its month's label; the render throws when a month cannot be read. */
  function LineChartData(trends: seq<MonthlyTrend>, zone: UtcOffset): (r: Result<seq<LinePoint>>)
    ensures var n := if |trends| < 6 then |trends| else 6;
            r.Failure? <==> exists i :: |trends| - n <= i < |trends| && MonthLabel(trends[i].month, zone).None?
    ensures r.Failure? ==> r.error == InvalidTimeValue
    ensures r.Success? ==>
              var n := if |trends| < 6 then |trends| else 6;
              |r.value| == n
              && forall i :: 0 <= i < n ==>
                   var t := trends[|trends| - n + i];
                   r.value[i] == LinePoint(MonthLabel(t.month, zone).value, t.income, t.expense)
  {
    var last := TakeLast(trends, 6);
    if exists i :: 0 <= i < |last| && MonthLabel(last[i].month, zone).None? then Failure(InvalidTimeValue)
    else Success(seq(|last|, i requires 0 <= i < |last| => LinePoint(MonthLabel(last[i].month, zone).value, last[i].income, last[i].expense)))
  }

  /** A JavaScript number that can come out of a division. */
  datatype Num = Finite(v: real) | PlusInfinity | MinusInfinity | NaN

  /** `(a / b) * 100`. */
  function PercentOf(a: real, b: real): Num {
    if b != 0.0 then Finite(a / b * 100.0)
    else if a > 0.0 then PlusInfinity
    else if a < 0.0 then MinusInfinity
    else NaN
  }

  /** `x >= c`: false for `NaN`. */
  predicate AtLeast(x: Num, c: real) {
    match x
    case Finite(v) => v >= c
    case PlusInfinity => true
    case MinusInfinity => false
    case NaN => false
  }

  /** `Math.min(100, (current / limit) * 100)`. */
  function CappedProgress(current: real, limit: real): (r: Num)
    ensures r != PlusInfinity
    ensures r.Finite? ==> r.v <= 100.0
    ensures 0.0 < limit && 0.0 <= current ==> r.Finite? && 0.0 <= r.v
    ensures 0.0 < limit <= current ==> r == Finite(100.0)
    ensures 0.0 < limit && 0.0 <= current < limit ==> r == Finite(current / limit * 100.0)
  {
    RatioBounds(current, limit);
    match PercentOf(current, limit)
    case Finite(v) => if v < 100.0 then Finite(v) else Finite(100.0)
    case PlusInfinity => Finite(100.0)
    case MinusInfinity => MinusInfinity
    case NaN => NaN
  }

  lemma RatioBounds(a: real, b: real)
    ensures 0.0 < b <= a ==> a / b * 100.0 >= 100.0
    ensures 0.0 < b && 0.0 <= a < b ==> 0.0 <= a / b * 100.0 < 100.0
  {
    if 0.0 < b {
      assert a / b * b == a;
    }
  }

  /** `getProgressColor(percentage, isInverse)`. */
  function ProgressColor(pct: Num, inverse: bool): string {
    if inverse then
      if AtLeast(pct, 100.0) then "bg-red-500"
      else if AtLeast(pct, 90.0) then "bg-yellow-500"
      else if AtLeast(pct, 75.0) then "bg-yellow-400"
      else "bg-green-500"
    else
      if AtLeast(pct, 100.0) then "bg-green-500"
      else if AtLeast(pct, 75.0) then "bg-green-400"
      else if AtLeast(pct, 50.0) then "bg-yellow-400"
      else "bg-red-500"
  }

  /** How far along a colour is on the scale it belongs to: for a goal, from
      red (far) to green (reached); for a budget, from green (room left) to red
      (limit reached). */
  function ColorStep(color: string, inverse: bool): int {
    if inverse then
      if color == "bg-green-500" then 0
      else if color == "bg-yellow-400" then 1
      else if color == "bg-yellow-500" then 2
      else 3
    else
      if color == "bg-red-500" then 0
      else if color == "bg-yellow-400" then 1
      else if color == "bg-green-400" then 2
      else 3
  }

  /** Progress colours move one way along the scale as the percentage grows, and
      a percentage that is not a number gets the first colour of the scale. */
  lemma ProgressColorMonotone(a: real, b: real, inverse: bool)
    requires a <= b
    ensures ColorStep(ProgressColor(Finite(a), inverse), inverse)
            <= ColorStep(ProgressColor(Finite(b), inverse), inverse)
    ensures ColorStep(ProgressColor(NaN, inverse), inverse) == 0
    ensures ColorStep(ProgressColor(Finite(100.0), inverse), inverse) == 3
  {
  }

  /** The cards listed under goals and budgets: at most the first three. */
  function Cards<T>(items: seq<T>): (r: seq<T>)
    ensures |r| == if |items| < 3 then |items| else 3
    ensures r == items[..|r|]
  {
    SliceTo(items, 3)
  }

  datatype LoadingFlags = LoadingFlags(
    balance: bool, budgets: bool, goals: bool, debts: bool,
    categoryTotals: bool, trends: bool, recommendations: bool)

  /** `isLoading`: any query but the debts query still loading. */
  function IsLoading(f: LoadingFlags): bool {
    f.balance || f.budgets || f.goals || f.categoryTotals || f.trends || f.recommendations
  }

  /** The debts query does not hold back the page. */
  lemma DebtsLoadingIgnored(f: LoadingFlags, b: bool)
    ensures IsLoading(f.(debts := b)) == IsLoading(f)
  {
  }
}

=== FILE: date_text.dfy ===
/** The date texts the application produces and reads: `format(d, "yyyy-MM-dd")`,
    `format(d, "dd/MM/yyyy")`, the Spanish `"dd MMM"` and `"dd MMM yyyy"` of the
    period selector, `toISOString()`, and `new Date(text)` for `yyyy-MM-dd`. */
module DateText {
  import opened Strings
  import opened Wrappers
  import opened Numerals
  import opened Calendar

  function YearText(y: int): string {
    if y < 0 then "-" + Padded(-y, 4) else Padded(y, 4)
  }

  /** `format(d, "yyyy-MM-dd")`. */
  function IsoDate(d: Date): (s: string)
    requires Valid(d)
  {
    YearText(d.year) + "-" + Padded(d.month, 2) + "-" + Padded(d.day, 2)
  }

  /** `format(d, "dd/MM/yyyy")`. */
  function DayMonthYear(d: Date): string
    requires Valid(d)
  {
    Padded(d.day, 2) + "/" + Padded(d.month, 2) + "/" + YearText(d.year)
  }

  /** Abbreviated month names of the `date-fns` Spanish locale. */
  function SpanishMonth(m: int): string
    requires 1 <= m <= 12
  {
    ["ene", "feb", "mar", "abr", "may", "jun", "jul", "ago", "sep", "oct", "nov", "dic"][m - 1]
  }

  /** `format(d, "dd MMM", { locale: es })`. */
  function DayMonthShort(d: Date): string
    requires Valid(d)
  {
    Padded(d.day, 2) + " " + SpanishMonth(d.month)
  }

  /** `format(d, "dd MMM yyyy", { locale: es })`. */
  function DayMonthYearShort(d: Date): string
    requires Valid(d)
  {
    DayMonthShort(d) + " " + YearText(d.year)
  }

  /** A time zone: the minutes its clocks run ahead of UTC (negative west of
      Greenwich), from UTC-12:00 to UTC+14:00. */
  type UtcOffset = m: int | -720 <= m <= 840

  /** `HH:mm` for a time of day given in minutes. */
  function ClockText(minutes: int): string
    requires 0 <= minutes < 1440
  {
    Padded(minutes / 60, 2) + ":" + Padded(minutes % 60, 2)
  }

  /** `d.toISOString()` for the local midnight that starts day `d` in the zone
      `zone`. That instant lies `zone` minutes before the UTC midnight of `d`:
      east of UTC it falls on the UTC day before. */
  function IsoTimestamp(d: Date, zone: UtcOffset): (s: string)
    requires Valid(d)
    ensures zone <= 0 ==> StartsWith(s, IsoDate(d))
    ensures zone > 0 ==> StartsWith(s, IsoDate(PrevDay(d)))
  {
    if zone <= 0 then IsoDate(d) + "T" + ClockText(-zone) + ":00.000Z"
    else IsoDate(PrevDay(d)) + "T" + ClockText(1440 - zone) + ":00.000Z"
  }

  /** `new Date(s)` for a `yyyy-MM-dd` text; `None` is JavaScript's Invalid Date.
      Only this one shape is read, and a day past the end of its month is invalid. */
  function ParseIsoDate(s: string): (r: Option<Date>)
    ensures r.Some? ==> Valid(r.value) && 0 <= r.value.year < 10000
  {
    if |s| == 10 && s[4] == '-' && s[7] == '-'
       && AllDigits(s[..4]) && AllDigits(s[5..7]) && AllDigits(s[8..])
    then
      var d := Date(DigitsValue(s[..4]), DigitsValue(s[5..7]), DigitsValue(s[8..]));
      DigitsBound(s[..4]);
      assert Pow10(4) == 10000;
      if Valid(d) then Some(d) else None
    else None
  }

  lemma {:induction false} DigitsBound(s: string)
    requires AllDigits(s)
    ensures DigitsValue(s) < Pow10(|s|)
  {
    if s != [] {
      DigitsBound(s[..|s| - 1]);
    }
  }

  /** Reading back a formatted day gives the same day. */
  lemma IsoDateRoundTrip(d: Date)
    requires Valid(d) && 0 <= d.year < 10000
    ensures ParseIsoDate(IsoDate(d)) == Some(d)
  {
    var y, m, dd := Padded(d.year, 4), Padded(d.month, 2), Padded(d.day, 2);
    PaddedLength(d.year, 4);
    PaddedLength(d.month, 2);
    PaddedLength(d.day, 2);
    var s := IsoDate(d);
    assert s == y + "-" + m + "-" + dd;
    assert s[..4] == y && s[5..7] == m && s[8..] == dd;
    PaddedValue(d.year, 4);
    PaddedValue(d.month, 2);
    PaddedValue(d.day, 2);
  }

  /** Two valid days with the same text are the same day. */
  lemma IsoDateInjective(a: Date, b: Date)
    requires Valid(a) && Valid(b) && 0 <= a.year < 10000 && 0 <= b.year < 10000
    requires IsoDate(a) == IsoDate(b)
    ensures a == b
  {
    IsoDateRoundTrip(a);
    IsoDateRoundTrip(b);
  }

  /** `new Date(s)` for the texts the backend sends: a `yyyy-MM-dd` day, or an
      ISO timestamp whose day is read and whose time of day is dropped. */
  function ParseDay(s: string): (r: Option<Date>)
    ensures r.Some? ==> Valid(r.value)
    ensures |s| == 10 ==> r == ParseIsoDate(s)
  {
    if |s| > 10 && s[10] == 'T' then ParseIsoDate(s[..10]) else ParseIsoDate(s)
  }

  /** A day written as `yyyy-MM-dd` is read back as that day. */
  lemma ParseDayIsoDate(d: Date)
    requires Valid(d) && 0 <= d.year < 10000
    ensures |IsoDate(d)| == 10 && ParseDay(IsoDate(d)) == Some(d)
  {
    PaddedLength(d.year, 4);
    PaddedLength(d.month, 2);
    PaddedLength(d.day, 2);
    IsoDateRoundTrip(d);
  }

  /** A timestamp written by `IsoTimestamp` is read back, by its UTC day, as
      the day it was written for in a zone at or west of UTC, and as the day
      before east of UTC. */
  lemma ParseDayTimestamp(d: Date, zone: UtcOffset)
    requires Valid(d) && d.year < 10000 && 0 <= PrevDay(d).year
    ensures ParseDay(IsoTimestamp(d, zone)) == Some(if zone <= 0 then d else PrevDay(d))
    ensures ParseDay(IsoTimestamp(d, zone)) == Some(d) <==> zone <= 0
  {
    var day := if zone <= 0 then d else PrevDay(d);
    var t := IsoTimestamp(d, zone);
    PaddedLength(day.year, 4);
    PaddedLength(day.month, 2);
    PaddedLength(day.day, 2);
    assert |IsoDate(day)| == 10;
    assert t[..10] == IsoDate(day);
    IsoDateRoundTrip(day);
  }

  /** The local day on which `new Date(s)` falls in the zone `zone`. A
      `yyyy-MM-dd` text is read as the UTC midnight of its day, which west of
      UTC is still the day before; a timestamp is read by its UTC day. */
  function LocalDay(s: string, zone: UtcOffset): (r: Option<Date>)
    ensures r.Some? <==> ParseDay(s).Some?
    ensures r.Some? ==> Valid(r.value)
    ensures |s| == 10 && r.Some? ==> r.value == if zone < 0 then PrevDay(ParseDay(s).value) else ParseDay(s).value
  {
    match ParseDay(s)
    case None => None
    case Some(d) => if |s| == 10 && zone < 0 then Some(PrevDay(d)) else Some(d)
  }

  /** A `yyyy-MM-dd` day read with `new Date` falls on that day at or east of
      UTC, and on the day before west of UTC. */
  lemma LocalIsoDate(d: Date, zone: UtcOffset)
    requires Valid(d) && 0 <= d.year < 10000
    ensures LocalDay(IsoDate(d), zone) == Some(if zone < 0 then PrevDay(d) else d)
    ensures LocalDay(IsoDate(d), zone) == Some(d) <==> zone >= 0
  {
    ParseDayIsoDate(d);
  }

  /** The `RangeError` message of `format` on an Invalid Date. */
  const InvalidTimeValue := "Invalid time value"

  /** A `dd/MM/yyyy` text starts with the two digits of the day. */
  lemma DayMonthYearStart(d: Date)
    requires Valid(d)
    ensures DayMonthYear(d)[..2] == Padded(d.day, 2)
  {
    PaddedLength(d.day, 2);
  }

  /** Two valid days with the same `dd/MM/yyyy` text have the same day of the month. */
  lemma DayMonthYearDay(a: Date, b: Date)
    requires Valid(a) && Valid(b) && DayMonthYear(a) == DayMonthYear(b)
    ensures a.day == b.day
  {
    DayMonthYearStart(a);
    DayMonthYearStart(b);
    PaddedValue(a.day, 2);
    PaddedValue(b.day, 2);
  }

  /** A day and the day before it are labelled differently. */
  lemma PrevDayLabel(d: Date)
    requires Valid(d)
    ensures DayMonthYear(PrevDay(d)) != DayMonthYear(d)
  {
    if DayMonthYear(PrevDay(d)) == DayMonthYear(d) {
      DayMonthYearDay(PrevDay(d), d);
    }
  }
}

=== FILE: debt_payment_form.dfy ===
/** The debt payment form: its schema, its defaults, the effect that fills it
    once from a recommendation left in local storage, and the payment it submits. */
module DebtPaymentForm {
  import opened Wrappers
  import opened Numerals
  import opened Json
  import opened FormState
  import opened Browser
  import opened RecommendationCard

  // ----- Schema -----

  /** The form after coercion: the amount (`None` is `NaN`), the payment
      method as text, and the description as the form holds it; `None` is
      `undefined` for the two optional fields. */
  datatype PaymentInput = PaymentInput(amount: Option<real>, paymentMethodId: Option<string>, description: Option<FieldValue>)

  const AmountMessage := "El monto del pago debe ser mayor que 0"

  /** The amount: a number (zod's default message otherwise, and nothing
      more is checked), at least 0.01, and then, checked even after the
      minimum failed, above 0. */
  function AmountIssues(amount: Option<real>): (r: seq<Issue>)
    ensures |r| <= 2
  {
    match amount
    case None => [Issue("amount", "Expected number, received nan")]
    case Some(a) =>
      (if a < 0.01 then [Issue("amount", AmountMessage)] else [])
      + (if a <= 0.0 then [Issue("amount", AmountMessage)] else [])
  }

  /** `debtPaymentFormSchema`: the payment method is coerced to text and never
      fails; the description must be text when present. */
  function PaymentIssues(p: PaymentInput): seq<Issue> {
    AmountIssues(p.amount)
    + (match p.description
       case Some(v) => if v.FText? then [] else [Issue("description", "Expected string, received " + TypeName(v))]
       case None => [])
  }

  /** What the form accepts: an amount of at least 0.01 and a text description, if any. */
  predicate PaymentAccepted(p: PaymentInput) {
    p.amount.Some? && p.amount.value >= 0.01
    && (p.description.Some? ==> p.description.value.FText?)
  }

  lemma PaymentIssuesExactly(p: PaymentInput)
    ensures PaymentIssues(p) == [] <==> PaymentAccepted(p)
  {
  }

  /** The refinement repeats the minimum's message: an amount of 0 or less
      gets it twice, one between 0 and 0.01 once. */
  lemma AmountMessageCount(a: real)
    ensures a <= 0.0 ==> AmountIssues(Some(a)) == [Issue("amount", AmountMessage), Issue("amount", AmountMessage)]
    ensures 0.0 < a < 0.01 ==> AmountIssues(Some(a)) == [Issue("amount", AmountMessage)]
  {
  }

  // ----- Defaults -----

  /** `debt?.pending_amount || 0`. */
  function DefaultAmount(pending: Option<real>): real {
    if pending.Some? then pending.value else 0.0
  }

  /** The default values: the pending amount, no payment method, no description. */
  function PaymentDefaults(pending: Option<real>): (f: Form)
    ensures f.Keys == {"amount", "payment_method_id", "description"}
  {
    map["amount" := FNumber(DefaultAmount(pending)), "payment_method_id" := FText(""), "description" := FText("")]
  }

  /** A debt with a pending amount of at least 0.01 can be paid off as the
      form opens; a debt with no pending amount cannot be paid as it opens. */
  lemma DefaultsPayable(pending: Option<real>)
    ensures var p := PaymentInput(Some(DefaultAmount(pending)), Some(""), Some(FText("")));
            PaymentIssues(p) == [] <==> pending.Some? && pending.value >= 0.01
  {
    PaymentIssuesExactly(PaymentInput(Some(DefaultAmount(pending)), Some(""), Some(FText(""))));
  }

  // ----- Prefill -----

  /** `String(v)` for a JSON value. */
  function StringOf(v: Value): string {
    match v
    case JStr(s) => s
    case JNum(n) => IntText(n)
    case JBool(b) => if b then "true" else "false"
    case JNull => "null"
  }

  /** The writes of the effect: each value when truthy, the payment method as text. */
  function PaymentPrefill(form: Form, d: Object): Form {
    var f := SetTruthy(form, d, "amount", "amount");
    var f := if Truthy(Get(d, "payment_method_id"))
             then f["payment_method_id" := FText(StringOf(Get(d, "payment_method_id").value))] else f;
    SetTruthy(f, d, "description", "description")
  }

  /** A numeric payment method left by a recommendation is submitted as that
      same number. */
  lemma PaymentMethodRoundTrip(form: Form, d: Object, n: int)
    requires Get(d, "payment_method_id") == Some(JNum(n)) && n != 0
    ensures var f := PaymentPrefill(form, d);
            "payment_method_id" in f && f["payment_method_id"].FText?
            && IntNumber(f["payment_method_id"].text) == Some(n)
  {
    var f1 := SetTruthy(form, d, "amount", "amount");
    var f2 := f1["payment_method_id" := FText(IntText(n))];
    SetTruthyKeeps(f2, d, "description", "description", "payment_method_id");
    IntNumberText(n);
  }

  // ----- Submit -----

  /** The payment method sent: `undefined`, or `Number(text)` (`None` is `NaN`). */
  datatype MethodRef = NoMethod | MethodNumber(number: Option<int>)

  datatype Payment = Payment(amount: real, paymentMethod: MethodRef, description: Option<string>)

  datatype PayRequest = PayRequest(debtId: int, userId: Option<int>, payment: Payment)

  const DebtsRoute := "/management/debts"

  /** `payment_method_id ? Number(payment_method_id) : undefined`. */
  function MethodOf(text: Option<string>): (m: MethodRef)
    ensures m == NoMethod <==> text.None? || text.value == []
  {
    if text.Some? && text.value != [] then MethodNumber(IntNumber(text.value)) else NoMethod
  }

  class DebtPaymentHook {
    const debtId: int
    const browser: Browser
    var form: Form
    /** `initialDataProcessedRef.current`. */
    var processed: bool

    constructor(debtId: int, pending: Option<real>, browser: Browser)
      ensures this.debtId == debtId && this.browser == browser
      ensures form == PaymentDefaults(pending) && !processed
    {
      this.debtId := debtId;
      this.browser := browser;
      form := PaymentDefaults(pending);
      processed := false;
    }

    /** The prefill effect. Only values stored by a recommendation are used;
        the key is removed and the flag set only once they parse, so a text
        that does not parse stays and the effect may run again. */
    method PrefillEffect()
      modifies this, browser
      ensures browser.routes == old(browser.routes) && browser.backs == old(browser.backs)
      ensures var stored := old(browser.GetItem(ActionKey));
              var parsed := if stored.Some? && stored.value != [] then Parse(stored.value) else None;
              if old(processed) || parsed.None?
              then form == old(form) && processed == old(processed) && browser.storage == old(browser.storage)
              else form == PaymentPrefill(old(form), parsed.value) && processed
                   && browser.storage == old(browser.storage) - {ActionKey}
    {
      if processed {
        return;
      }
      var stored := browser.GetItem(ActionKey);
      if stored.None? || stored.value == [] {
        return;
      }
      var parsed := Parse(stored.value);
      if parsed.None? {
        return;
      }
      var d := parsed.value;
      browser.RemoveItem(ActionKey);
      if Truthy(Get(d, "amount")) {
        form := form["amount" := Raw(Get(d, "amount").value)];
      }
      if Truthy(Get(d, "payment_method_id")) {
        form := form["payment_method_id" := FText(StringOf(Get(d, "payment_method_id").value))];
      }
      if Truthy(Get(d, "description")) {
        form := form["description" := Raw(Get(d, "description").value)];
      }
      processed := true;
    }

    /** `onSubmit` with values the schema accepted: the payment is sent for
        this debt and the session's user, and the page goes to the debt list
        only when the payment succeeded (`paid`). */
    method OnSubmit(p: PaymentInput, sessionUser: Option<string>, paid: bool) returns (r: PayRequest)
      requires PaymentAccepted(p)
      modifies browser
      ensures r.debtId == debtId
      ensures r.userId == (if sessionUser.None? then None else IntNumber(sessionUser.value))
      ensures r.payment.amount == p.amount.value && r.payment.paymentMethod == MethodOf(p.paymentMethodId)
      ensures r.payment.description == (if p.description.None? then None else Some(p.description.value.text))
      ensures browser.routes == old(browser.routes) + (if paid then [DebtsRoute] else [])
      ensures browser.storage == old(browser.storage) && browser.backs == old(browser.backs)
    {
      var description := if p.description.None? then None else Some(p.description.value.text);
      var payment := Payment(p.amount.value, MethodOf(p.paymentMethodId), description);
      var userId := if sessionUser.None? then None else IntNumber(sessionUser.value);
      r := PayRequest(debtId, userId, payment);
      if paid {
        browser.Push(DebtsRoute);
      }
    }
  }

  /** The hand-off from a recommendation to a debt payment: the values the
      card leaves are taken once, and the key is gone afterwards. */
  method RecommendationToPayment(r: Recommendation, action: QuickAction, debtId: int, pending: Option<real>)
    returns (storageAfter: map<string, string>, filled: Form)
    requires action.prefilledData.Some? && DistinctKeys(action.prefilledData.value)
    ensures ActionKey !in storageAfter
    ensures filled == PaymentPrefill(PaymentDefaults(pending), action.prefilledData.value)
  {
    var browser := new Browser(map[]);
    var card := new Card(r, browser);
    card.HandleQuickAction(action);
    ParseStringify(action.prefilledData.value);
    var hook := new DebtPaymentHook(debtId, pending, browser);
    hook.PrefillEffect();
    storageAfter := browser.storage;
    filled := hook.form;
  }
}

=== FILE: form_state.dfy ===
/** The values a form holds (`react-hook-form` state as a map from field name
    to value), the way values read from JSON are written into it, and the
    issues a schema reports. */
module FormState {
  import opened Wrappers
  import opened Calendar
  import opened DateText
  import opened Json

  /** A form value: text, a number, a flag, a date (`None` is an
      `Invalid Date`) or `null`. */
  datatype FieldValue = FText(text: string) | FNumber(number: real) | FBool(flag: bool)
                      | FDate(date: Option<Date>) | FNull

  type Form = map<string, FieldValue>

  /** A JSON value written into the form as it is. */
  function Raw(v: Value): (f: FieldValue)
    ensures v.JNull? <==> f.FNull?
  {
    match v
    case JStr(s) => FText(s)
    case JNum(n) => FNumber(n as real)
    case JBool(b) => FBool(b)
    case JNull => FNull
  }

  /** The largest distance from the epoch, in milliseconds, a `Date` holds. */
  const MaxTime := 8_640_000_000_000_000

  const DayMillis := 86_400_000

  /** The local day of the instant `ms` milliseconds after the epoch, in the
      zone `zone`; `None` (an `Invalid Date`) beyond the range a `Date` holds. */
  function InstantDay(ms: int, zone: UtcOffset): (d: Option<Date>)
    ensures d.Some? <==> -MaxTime <= ms <= MaxTime
    ensures d.Some? ==> Valid(d.value)
  {
    if -MaxTime <= ms <= MaxTime then Some(EpochDay((ms + zone * 60_000) / DayMillis)) else None
  }

  /** An instant one day later falls on the next local day. */
  lemma InstantDayNext(ms: int, zone: UtcOffset)
    requires -MaxTime <= ms && ms + DayMillis <= MaxTime
    ensures InstantDay(ms + DayMillis, zone) == Some(NextDay(InstantDay(ms, zone).value))
  {
    var k := (ms + zone * 60_000) / DayMillis;
    assert (ms + DayMillis + zone * 60_000) / DayMillis == k + 1;
    EpochDaySteps(k);
  }

  /** The first day of the epoch: an instant in the first 24 hours after its
      local midnight falls on 1 January 1970. */
  lemma EpochStart(ms: int, zone: UtcOffset)
    requires 0 <= ms + zone * 60_000 < DayMillis
    ensures InstantDay(ms, zone) == Some(Date(1970, 1, 1))
  {
  }

  /** `new Date(v)` in the zone `zone`. A text is read as a day (a bare
      `yyyy-MM-dd` falls on the day before west of UTC). Anything else is
      converted to a number of milliseconds since the epoch: a number is
      itself, `true` is 1, `false` and `null` are 0. */
  function DateOf(v: Value, zone: UtcOffset): (d: Option<Date>)
    ensures v.JStr? ==> (d.Some? <==> ParseDay(v.s).Some?)
    ensures v.JNum? ==> (d.Some? <==> -MaxTime <= v.n <= MaxTime)
    ensures v.JBool? || v.JNull? ==> d.Some?
    ensures d.Some? ==> Valid(d.value)
    ensures v.JStr? && d.Some? && |v.s| == 10 ==>
              d.value == if zone < 0 then PrevDay(ParseDay(v.s).value) else ParseDay(v.s).value
    ensures !v.JStr? ==> d == InstantDay(Millis(v), zone)
  {
    match v
    case JStr(s) => LocalDay(s, zone)
    case _ => InstantDay(Millis(v), zone)
  }

  /** `Number(v)` for a value that is not text. */
  function Millis(v: Value): int
    requires !v.JStr?
  {
    match v
    case JNum(n) => n
    case JBool(b) => if b then 1 else 0
    case JNull => 0
  }

  /** The name zod gives the type of a value that is not text. */
  function TypeName(v: FieldValue): string {
    match v
    case FText(_) => "string"
    case FNumber(_) => "number"
    case FBool(_) => "boolean"
    case FDate(_) => "date"
    case FNull => "null"
  }

  /** A problem a schema reports, on the field named by `path`. */
  datatype Issue = Issue(path: string, message: string)

  /** The fields a list of issues marks as wrong. */
  function Paths(issues: seq<Issue>): (r: set<string>)
    ensures forall i :: 0 <= i < |issues| ==> issues[i].path in r
    ensures forall p :: p in r ==> exists i :: 0 <= i < |issues| && issues[i].path == p
  {
    set i | 0 <= i < |issues| :: issues[i].path
  }

  /** `if (data[src]) setValue(dst, data[src])`. */
  function SetTruthy(form: Form, d: Object, src: string, dst: string): Form {
    if Truthy(Get(d, src)) then form[dst := Raw(Get(d, src).value)] else form
  }

  /** Field `k` of `after` is field `k` of `before`, or absent from both. */
  predicate Keeps(before: Form, after: Form, k: string) {
    (k in after <==> k in before) && (k in before ==> after[k] == before[k])
  }

  /** A write under another key, or of a falsy value, keeps field `k`. */
  lemma SetTruthyKeeps(form: Form, d: Object, src: string, dst: string, k: string)
    requires k != dst || !Truthy(Get(d, src))
    ensures Keeps(form, SetTruthy(form, d, src, dst), k)
  {
  }

  /** zod's own message for an Invalid Date: `invalid_type_error` only covers
      values that are not dates at all. */
  const InvalidDate := "Invalid date"

  /** `z.coerce.number({ invalid_type_error }).min(min, minMessage)` on a
      coerced value (`None` is `NaN`). */
  function MinIssues(path: string, v: Option<real>, min: real, typeMessage: string, minMessage: string): (r: seq<Issue>)
    ensures r == [] <==> v.Some? && v.value >= min
    ensures |r| <= 1
  {
    match v
    case None => [Issue(path, typeMessage)]
    case Some(x) => if x < min then [Issue(path, minMessage)] else []
  }

  /** `z.coerce.number({ invalid_type_error })` with no bound. */
  function TypeIssue(path: string, v: Option<real>, typeMessage: string): (r: seq<Issue>)
    ensures r == [] <==> v.Some?
  {
    if v.None? then [Issue(path, typeMessage)] else []
  }
}

=== FILE: goal_form.dfy ===
/** The goal form: its schema, and the effect that fills a new or edited goal
    once, from a recommendation left in local storage or from the values the
    page was opened with. */
module GoalForm {
  import opened Wrappers
  import opened Strings
  import opened Calendar
  import opened Numerals
  import opened DateText
  import opened Json
  import opened FormState
  import opened Browser
  import opened RecommendationCard

  // ----- Schema -----

  /** An optional coerced number: left out, or given (`None` is `NaN`). The
      field is `.optional()` before the coercion, so a missing value is never
      coerced; `Option<real>` alone cannot tell "left out" from `NaN`. */
  datatype OptionalNumber = Omitted | Given(number: Option<real>)

  /** The goal form after coercion: the name as the form holds it, a number
      field that is not a number is `None`, an end date that is not a date is
      `None`. */
  datatype GoalInput = GoalInput(
    name: FieldValue, currentAmount: Option<real>, targetAmount: Option<real>,
    endDate: Option<Date>, contributionFrequency: Option<real>, categoryId: Option<real>,
    contributionAmount: OptionalNumber)

  /** The moment the schema module was loaded: a day and the milliseconds
      since its midnight. The end-date minimum is this moment. */
  datatype Instant = Instant(day: Date, millis: nat)

  /** A picked end date (the midnight that starts its day) is not earlier than
      the moment the schema was loaded. */
  predicate NotBeforeLoad(end: Date, load: Instant) {
    Before(load.day, end) || (end == load.day && load.millis == 0)
  }

  const TargetNotAbove := "La cantidad objetivo debe ser mayor que la cantidad actual"

  /** A field whose type check failed stops the object-level refinement. */
  predicate TypeFailure(g: GoalInput) {
    !g.name.FText? || g.currentAmount.None? || g.targetAmount.None? || g.endDate.None?
    || g.contributionFrequency.None? || g.categoryId.None? || g.contributionAmount == Given(None)
  }

  /** The name's check: text (zod's type message otherwise), and not empty. */
  function NameIssues(name: FieldValue): (r: seq<Issue>)
    ensures r == [] <==> name.FText? && name.text != []
    ensures forall i :: 0 <= i < |r| ==> r[i].path == "name"
  {
    match name
    case FText(s) => if s == [] then [Issue("name", "El nombre es requerido")] else []
    case _ => [Issue("name", "Expected string, received " + TypeName(name))]
  }

  /** The field checks of `goalSchema`, in order. None of them carries the
      refinement's message. */
  function FieldIssues(g: GoalInput, load: Instant): (r: seq<Issue>)
    ensures Issue("target_amount", TargetNotAbove) !in r
  {
    NameIssues(g.name)
    + MinIssues("current_amount", g.currentAmount, 0.0,
                "La cantidad actual debe ser un número", "La cantidad actual debe ser mayor que 0")
    + MinIssues("target_amount", g.targetAmount, 0.0,
                "La cantidad objetivo debe ser un número", "La cantidad objetivo debe ser mayor que 0")
    + (match g.endDate
       case None => [Issue("end_date", InvalidDate)]
       case Some(d) =>
         if NotBeforeLoad(d, load) then [] else [Issue("end_date", "La fecha de fin debe ser mayor que la fecha actual")])
    + TypeIssue("contribution_frequency", g.contributionFrequency, "La frecuencia de contribución debe ser un número")
    + TypeIssue("category_id", g.categoryId, "La categoría debe ser un número")
    + (if g.contributionAmount == Given(None)
       then [Issue("contribution_amount", "La cantidad de contribución debe ser un número")] else [])
  }

  /** `goalSchema`: the field checks in order, then the refinement that the
      target exceeds the current amount, reported on `target_amount`. */
  function GoalIssues(g: GoalInput, load: Instant): seq<Issue> {
    FieldIssues(g, load)
    + (if !TypeFailure(g) && g.targetAmount.value <= g.currentAmount.value
       then [Issue("target_amount", TargetNotAbove)] else [])
  }

  /** What a goal the form accepts looks like, field by field. */
  predicate GoalAccepted(g: GoalInput, load: Instant) {
    g.name.FText? && g.name.text != []
    && g.currentAmount.Some? && g.currentAmount.value >= 0.0
    && g.targetAmount.Some? && g.targetAmount.value > g.currentAmount.value
    && g.endDate.Some? && NotBeforeLoad(g.endDate.value, load)
    && g.contributionFrequency.Some? && g.categoryId.Some?
    && g.contributionAmount != Given(None)
  }

  /** The schema reports nothing exactly for the goals described above; in
      particular an accepted goal's target exceeds its current amount. */
  lemma GoalIssuesExactly(g: GoalInput, load: Instant)
    ensures GoalIssues(g, load) == [] <==> GoalAccepted(g, load)
    ensures GoalIssues(g, load) == [] ==> g.targetAmount.value > g.currentAmount.value >= 0.0
  {
    if GoalIssues(g, load) == [] {
      assert !TypeFailure(g);
    }
  }

  /** A name that is not text gets zod's type message, and the refinement
      on the target does not run. */
  lemma NonTextName(g: GoalInput, load: Instant)
    requires !g.name.FText?
    ensures Issue("name", "Expected string, received " + TypeName(g.name)) in GoalIssues(g, load)
    ensures Issue("target_amount", TargetNotAbove) !in GoalIssues(g, load)
  {
    TargetIssue(g, load);
    assert GoalIssues(g, load)[0] == FieldIssues(g, load)[0] == NameIssues(g.name)[0];
  }

  /** The "target above current" issue appears, on `target_amount`, exactly
      when every field has the right type and the target does not exceed the
      current amount, whatever other checks fail. */
  lemma TargetIssue(g: GoalInput, load: Instant)
    ensures Issue("target_amount", TargetNotAbove) in GoalIssues(g, load)
            <==> !TypeFailure(g) && g.targetAmount.value <= g.currentAmount.value
  {
    var issues := GoalIssues(g, load);
    var fields := FieldIssues(g, load);
    if Issue("target_amount", TargetNotAbove) in issues {
      var k :| 0 <= k < |issues| && issues[k] == Issue("target_amount", TargetNotAbove);
      if k < |fields| {
        assert false;
      }
    }
  }

  // ----- Prefill -----

  datatype Category = Category(id: int, name: string)

  /** The letter an accented Latin letter decomposes to (NFD) once its mark
      is removed. */
  function BaseLetter(c: char): (b: char)
    ensures !(c in "ÁÀÂÄÃÉÈÊËÍÌÎÏÓÒÔÖÕÚÙÛÜÑÇáàâäãéèêëíìîïóòôöõúùûüñç") ==> b == c
  {
    if c in "ÁÀÂÄÃ" then 'A' else if c in "ÉÈÊË" then 'E' else if c in "ÍÌÎÏ" then 'I'
    else if c in "ÓÒÔÖÕ" then 'O' else if c in "ÚÙÛÜ" then 'U'
    else if c == 'Ñ' then 'N' else if c == 'Ç' then 'C'
    else if c in "áàâäã" then 'a' else if c in "éèêë" then 'e' else if c in "íìîï" then 'i'
    else if c in "óòôöõ" then 'o' else if c in "úùûü" then 'u'
    else if c == 'ñ' then 'n' else if c == 'ç' then 'c'
    else c
  }

  /** `normalizeString`: accents removed, then lower case. */
  function Normalize(s: string): (r: string)
    ensures |r| == |s|
    ensures forall i :: 0 <= i < |s| ==> r[i] == LowerChar(BaseLetter(s[i]))
  {
    if s == [] then [] else [LowerChar(BaseLetter(s[0]))] + Normalize(s[1..])
  }

  /** `categories.find(...)`: the first category whose normalised name is the
      normalised text. */
  function FindCategory(categories: seq<Category>, text: string): (r: Option<Category>)
    ensures r.None? <==> forall i :: 0 <= i < |categories| ==> Normalize(categories[i].name) != Normalize(text)
    ensures r.Some? ==> exists i :: 0 <= i < |categories| && categories[i] == r.value
                          && Normalize(r.value.name) == Normalize(text)
                          && forall j :: 0 <= j < i ==> Normalize(categories[j].name) != Normalize(text)
  {
    if categories == [] then None
    else if Normalize(categories[0].name) == Normalize(text) then Some(categories[0])
    else
      var r := FindCategory(categories[1..], text);
      if r.Some? then
        assert forall j :: 1 <= j < |categories| ==> categories[j] == categories[1..][j - 1];
        r
      else r
  }

  /** The category-name step: `None` when the effect throws, which happens
      for a truthy category that is not text (it has no `normalize`). */
  function CategoryStep(form: Form, d: Object, categories: Option<seq<Category>>): Option<Form> {
    var cat := Get(d, "category");
    if Truthy(cat) && categories.Some? && |categories.value| > 0 then
      if !cat.value.JStr? then None
      else
        match FindCategory(categories.value, cat.value.s)
        case Some(c) => Some(form["category_id" := FNumber(c.id as real)])
        case None => Some(form)
    else Some(form)
  }

  /** The writes before the category lookup. */
  function PrefillHead(form: Form, d: Object, zone: UtcOffset): Form {
    var f := SetTruthy(form, d, "name", "name");
    var f := SetTruthy(f, d, "current_amount", "current_amount");
    var f := SetTruthy(f, d, "target_amount", "target_amount");
    if Truthy(Get(d, "end_date")) then f["end_date" := FDate(DateOf(Get(d, "end_date").value, zone))] else f
  }

  /** The writes after the category lookup. */
  function PrefillTail(form: Form, d: Object): Form {
    var f := SetTruthy(form, d, "contribution_frecuency", "contribution_frequency");
    var f := SetTruthy(f, d, "category_id", "category_id");
    SetTruthy(f, d, "contribution_amount", "contribution_amount")
  }

  /** The writes of the effect, in order, and whether it ran to its end. */
  function GoalPrefill(form: Form, d: Object, categories: Option<seq<Category>>, zone: UtcOffset): (Form, bool) {
    var head := PrefillHead(form, d, zone);
    match CategoryStep(head, d, categories)
    case None => (head, false)
    case Some(f) => (PrefillTail(f, d), true)
  }

  /** An explicit `category_id` in the data wins over the category matched by name. */
  lemma ExplicitCategoryWins(form: Form, d: Object, categories: Option<seq<Category>>, zone: UtcOffset)
    requires Truthy(Get(d, "category_id")) && GoalPrefill(form, d, categories, zone).1
    ensures GoalPrefill(form, d, categories, zone).0["category_id"] == Raw(Get(d, "category_id").value)
  {
  }

  /** The fields the effect can write besides those of its head and tail. */
  lemma CategoryStepKeeps(form: Form, d: Object, categories: Option<seq<Category>>, k: string)
    requires k != "category_id" && CategoryStep(form, d, categories).Some?
    ensures Keeps(form, CategoryStep(form, d, categories).value, k)
  {
  }

  /** Field `k` is kept when none of the truthy sources of the effect writes it. */
  lemma {:induction false} PrefillKeeps(form: Form, d: Object, categories: Option<seq<Category>>, zone: UtcOffset, k: string)
    requires k !in {"name", "current_amount", "target_amount", "end_date", "category_id", "contribution_amount"}
    requires k != "contribution_frequency" || !Truthy(Get(d, "contribution_frecuency"))
    ensures Keeps(form, GoalPrefill(form, d, categories, zone).0, k)
  {
    var f1 := SetTruthy(form, d, "name", "name");
    var f2 := SetTruthy(f1, d, "current_amount", "current_amount");
    var f3 := SetTruthy(f2, d, "target_amount", "target_amount");
    var head := PrefillHead(form, d, zone);
    SetTruthyKeeps(form, d, "name", "name", k);
    SetTruthyKeeps(f1, d, "current_amount", "current_amount", k);
    SetTruthyKeeps(f2, d, "target_amount", "target_amount", k);
    assert Keeps(form, head, k);
    var step := CategoryStep(head, d, categories);
    if step.Some? {
      var m := step.value;
      CategoryStepKeeps(head, d, categories, k);
      var t1 := SetTruthy(m, d, "contribution_frecuency", "contribution_frequency");
      var t2 := SetTruthy(t1, d, "category_id", "category_id");
      SetTruthyKeeps(m, d, "contribution_frecuency", "contribution_frequency", k);
      SetTruthyKeeps(t1, d, "category_id", "category_id", k);
      SetTruthyKeeps(t2, d, "contribution_amount", "contribution_amount", k);
      assert PrefillTail(m, d) == SetTruthy(t2, d, "contribution_amount", "contribution_amount");
    }
  }

  /** A falsy value is not applied: a current amount of 0 in the data leaves
      the form's current amount as it was. */
  lemma ZeroCurrentIgnored(form: Form, d: Object, categories: Option<seq<Category>>, zone: UtcOffset)
    requires Get(d, "current_amount") == Some(JNum(0))
    ensures Keeps(form, GoalPrefill(form, d, categories, zone).0, "current_amount")
  {
    var f1 := SetTruthy(form, d, "name", "name");
    var f2 := SetTruthy(f1, d, "current_amount", "current_amount");
    var f3 := SetTruthy(f2, d, "target_amount", "target_amount");
    var k := "current_amount";
    SetTruthyKeeps(form, d, "name", "name", k);
    SetTruthyKeeps(f1, d, "current_amount", "current_amount", k);
    SetTruthyKeeps(f2, d, "target_amount", "target_amount", k);
    var head := PrefillHead(form, d, zone);
    assert Keeps(form, head, k);
    var step := CategoryStep(head, d, categories);
    if step.Some? {
      var m := step.value;
      CategoryStepKeeps(head, d, categories, k);
      var t1 := SetTruthy(m, d, "contribution_frecuency", "contribution_frequency");
      var t2 := SetTruthy(t1, d, "category_id", "category_id");
      SetTruthyKeeps(m, d, "contribution_frecuency", "contribution_frequency", k);
      SetTruthyKeeps(t1, d, "category_id", "category_id", k);
      SetTruthyKeeps(t2, d, "contribution_amount", "contribution_amount", k);
    }
  }

  /** The frequency is read from the key `contribution_frecuency`; a value
      under `contribution_frequency` itself never reaches the form. */
  lemma FrequencyKey(form: Form, d: Object, categories: Option<seq<Category>>, zone: UtcOffset)
    requires !Truthy(Get(d, "contribution_frecuency"))
    ensures Keeps(form, GoalPrefill(form, d, categories, zone).0, "contribution_frequency")
  {
    PrefillKeeps(form, d, categories, zone, "contribution_frequency");
  }

  /** The backend, reading the timestamp by its UTC day, reads back the day
      picked as the end date at or west of UTC, and the day before east of UTC. */
  lemma EndDateSent(g: GoalInput, zone: UtcOffset)
    requires g.endDate.Some? && Valid(g.endDate.value) && g.endDate.value.year < 10000 && 0 <= PrevDay(g.endDate.value).year
    ensures ParseDay(GoalBody(g, IsoTimestamp(g.endDate.value, zone)).endDate)
              == Some(if zone <= 0 then g.endDate.value else PrevDay(g.endDate.value))
    ensures ParseDay(GoalBody(g, IsoTimestamp(g.endDate.value, zone)).endDate) == g.endDate <==> zone <= 0
  {
    ParseDayTimestamp(g.endDate.value, zone);
  }

  /** The recommendation values the effect takes: only when creating, only
      when the stored text is there and parses. */
  function Taken(storage: map<string, string>, editing: bool): (r: Option<Object>)
    ensures r.Some? ==> ActionKey in storage && !editing && Parse(storage[ActionKey]) == r
  {
    if ActionKey in storage && storage[ActionKey] != [] && !editing then Parse(storage[ActionKey]) else None
  }

  /** What is sent on submit: the values with the end date as an ISO timestamp. */
  datatype GoalBody = GoalBody(input: GoalInput, endDate: string)

  datatype GoalRequest = UpdateGoal(id: int, body: GoalBody) | CreateGoal(body: GoalBody, userId: Option<int>)

  class GoalFormHook {
    /** The id of the goal being edited; `None` when a new goal is created. */
    const goalId: Option<int>
    /** The form's default values, which `reset` restores. */
    const defaults: Form
    const browser: Browser
    var form: Form
    /** `initialDataProcessedRef.current`. */
    var processed: bool

    constructor(goalId: Option<int>, defaults: Form, browser: Browser)
      ensures this.goalId == goalId && this.defaults == defaults && this.browser == browser
      ensures form == defaults && !processed
    {
      this.goalId := goalId;
      this.defaults := defaults;
      form := defaults;
      this.browser := browser;
      processed := false;
    }

    predicate Editing()
      reads this
    {
      goalId.Some?
    }

    /** `onSubmit` with values the schema accepted: an edited goal is updated
        under its id, a new one is created for the session's user (`None` is
        `NaN`, when there is no user or the id is not a number). */
    method OnSubmit(g: GoalInput, sessionUser: Option<string>, zone: UtcOffset) returns (r: GoalRequest)
      requires g.endDate.Some? && Valid(g.endDate.value)
      ensures r.body == GoalBody(g, IsoTimestamp(g.endDate.value, zone))
      ensures r.UpdateGoal? <==> goalId.Some?
      ensures r.UpdateGoal? ==> r.id == goalId.value
      ensures r.CreateGoal? ==> r.userId == (if sessionUser.None? then None else IntNumber(sessionUser.value))
    {
      var body := GoalBody(g, IsoTimestamp(g.endDate.value, zone));
      if goalId.Some? {
        r := UpdateGoal(goalId.value, body);
      } else {
        var id := if sessionUser.None? then None else IntNumber(sessionUser.value);
        r := CreateGoal(body, id);
      }
    }

    /** `onCancel`: the form goes back to its defaults and the router goes back. */
    method OnCancel()
      modifies this, browser
      ensures form == defaults && processed == old(processed)
      ensures browser.backs == old(browser.backs) + 1
      ensures browser.routes == old(browser.routes) && browser.storage == old(browser.storage)
    {
      form := defaults;
      browser.Back();
    }

    /** The prefill effect. Once it has applied data it does nothing more; the
        stored recommendation is removed only after it parses, and replaces
        the page's values only when a new goal is being created. */
    method PrefillEffect(formData: Option<Object>, categories: Option<seq<Category>>, zone: UtcOffset)
      modifies this, browser
      ensures browser.routes == old(browser.routes)
      ensures old(processed) ==> processed && form == old(form) && browser.storage == old(browser.storage)
      ensures !old(processed) ==>
                var taken := Taken(old(browser.storage), Editing());
                var data := if taken.Some? then taken else formData;
                browser.storage == (if taken.Some? then old(browser.storage) - {ActionKey} else old(browser.storage))
                && (data.None? ==> form == old(form) && !processed)
                && (data.Some? ==> (form, processed) == GoalPrefill(old(form), data.value, categories, zone))
    {
      if processed {
        return;
      }
      var stored := browser.GetItem(ActionKey);
      var data := formData;
      if stored.Some? && stored.value != [] && goalId.None? {
        var parsed := Parse(stored.value);
        if parsed.Some? {
          data := parsed;
          browser.RemoveItem(ActionKey);
        }
      }
      if data.None? {
        return;
      }
      var d := data.value;
      ApplyHead(d, zone);
      var ok := ApplyCategory(d, categories);
      if !ok {
        return;
      }
      ApplyTail(d);
      processed := true;
    }

    /** The category lookup; `false` when it throws on a category that is not text. */
    method ApplyCategory(d: Object, categories: Option<seq<Category>>) returns (ok: bool)
      modifies this
      ensures ok <==> CategoryStep(old(form), d, categories).Some?
      ensures ok ==> form == CategoryStep(old(form), d, categories).value
      ensures !ok ==> form == old(form)
      ensures processed == old(processed)
    {
      var cat := Get(d, "category");
      if Truthy(cat) && categories.Some? && |categories.value| > 0 {
        if !cat.value.JStr? {
          return false;
        }
        var found := FindCategory(categories.value, cat.value.s);
        if found.Some? {
          form := form["category_id" := FNumber(found.value.id as real)];
        }
      }
      return true;
    }

    /** The writes before the category lookup. */
    method ApplyHead(d: Object, zone: UtcOffset)
      modifies this
      ensures form == PrefillHead(old(form), d, zone) && processed == old(processed)
    {
      if Truthy(Get(d, "name")) {
        form := form["name" := Raw(Get(d, "name").value)];
      }
      if Truthy(Get(d, "current_amount")) {
        form := form["current_amount" := Raw(Get(d, "current_amount").value)];
      }
      if Truthy(Get(d, "target_amount")) {
        form := form["target_amount" := Raw(Get(d, "target_amount").value)];
      }
      if Truthy(Get(d, "end_date")) {
        form := form["end_date" := FDate(DateOf(Get(d, "end_date").value, zone))];
      }
    }

    /** The writes after the category lookup. */
    method ApplyTail(d: Object)
      modifies this
      ensures form == PrefillTail(old(form), d) && processed == old(processed)
    {
      if Truthy(Get(d, "contribution_frecuency")) {
        form := form["contribution_frequency" := Raw(Get(d, "contribution_frecuency").value)];
      }
      if Truthy(Get(d, "category_id")) {
        form := form["category_id" := Raw(Get(d, "category_id").value)];
      }
      if Truthy(Get(d, "contribution_amount")) {
        form := form["contribution_amount" := Raw(Get(d, "contribution_amount").value)];
      }
    }
  }

  /** The hand-off from a recommendation to a new goal: the card leaves the
      values, the form's effect takes them once (removing the key), and a
      second run of the effect changes nothing. */
  method RecommendationToNewGoal(r: Recommendation, action: QuickAction, form: Form, zone: UtcOffset)
    returns (storageAfter: map<string, string>, filled: Form, again: Form)
    requires action.prefilledData.Some? && DistinctKeys(action.prefilledData.value)
    ensures ActionKey !in storageAfter
    ensures filled == GoalPrefill(form, action.prefilledData.value, None, zone).0
    ensures again == filled
  {
    var browser := new Browser(map[]);
    var card := new Card(r, browser);
    card.HandleQuickAction(action);
    ParseStringify(action.prefilledData.value);
    var hook := new GoalFormHook(None, form, browser);
    hook.PrefillEffect(None, None, zone);
    storageAfter := browser.storage;
    filled := hook.form;
    hook.PrefillEffect(None, None, zone);
    again := hook.form;
  }
}

=== FILE: json.dfy ===
/** `JSON.stringify` and `JSON.parse` for the flat objects the application
    passes through local storage and URLs: an object maps keys to strings,
    integers, booleans or null, and keeps its keys in insertion order. */
module Json {
  import opened Strings
  import opened Wrappers
  import opened Numerals

  datatype Value = JStr(s: string) | JNum(n: int) | JBool(b: bool) | JNull

  datatype Field = Field(key: string, value: Value)

  /** A JavaScript object: its own properties in insertion order. */
  type Object = seq<Field>

  predicate DistinctKeys(o: Object) {
    forall i, j :: 0 <= i < j < |o| ==> o[i].key != o[j].key
  }

  predicate HasKey(o: Object, k: string) {
    exists i :: 0 <= i < |o| && o[i].key == k
  }

  /** The position of the first property named `k`. */
  function IndexOf(o: Object, k: string): (i: nat)
    requires HasKey(o, k)
    ensures i < |o| && o[i].key == k
    ensures forall j :: 0 <= j < i ==> o[j].key != k
  {
    if o[0].key == k then 0
    else
      assert HasKey(o[1..], k) by {
        var i :| 0 <= i < |o| && o[i].key == k;
        assert o[1..][i - 1].key == k;
      }
      1 + IndexOf(o[1..], k)
  }

  /** `o[k]`: `None` when the property is absent (`undefined`). */
  function Get(o: Object, k: string): (r: Option<Value>)
    ensures r.Some? <==> HasKey(o, k)
  {
    if HasKey(o, k) then Some(o[IndexOf(o, k)].value) else None
  }

  lemma GetAt(o: Object, i: nat)
    requires DistinctKeys(o) && i < |o|
    ensures Get(o, o[i].key) == Some(o[i].value)
  {
    assert HasKey(o, o[i].key);
  }

  /** `o[k] = v`: an existing property keeps its position, a new one goes last. */
  function Put(o: Object, k: string, v: Value): (r: Object)
    ensures !HasKey(o, k) ==> r == o + [Field(k, v)]
  {
    if HasKey(o, k) then o[IndexOf(o, k) := Field(k, v)] else o + [Field(k, v)]
  }

  lemma PutProperties(o: Object, k: string, v: Value)
    ensures Get(Put(o, k, v), k) == Some(v)
    ensures forall k' :: k' != k ==> Get(Put(o, k, v), k') == Get(o, k')
    ensures DistinctKeys(o) ==> DistinctKeys(Put(o, k, v))
  {
    var r := Put(o, k, v);
    if HasKey(o, k) {
      var i := IndexOf(o, k);
      assert forall j :: 0 <= j < |o| ==> r[j].key == o[j].key;
      assert HasKey(r, k);
      forall k' ensures Get(r, k') == Get(o, k') || k' == k {
        if HasKey(o, k') {
          assert r[IndexOf(o, k')].key == k';
          assert HasKey(r, k');
          var a, b := IndexOf(o, k'), IndexOf(r, k');
          assert o[b].key == k';
          assert a == b;
        }
      }
    } else {
      assert r[|o|].key == k;
      assert HasKey(r, k);
      forall k' | k' != k ensures Get(r, k') == Get(o, k') {
        if HasKey(o, k') {
          var a := IndexOf(o, k');
          assert r[a].key == k';
          var b := IndexOf(r, k');
          assert a == b;
        }
      }
    }
  }

  // ----- Encoding -----

  function EscapeChar(c: char): string {
    if c == '"' || c == '\\' then ['\\', c] else [c]
  }

  function Escape(s: string): string {
    if s == [] then [] else EscapeChar(s[0]) + Escape(s[1..])
  }

  function Quote(s: string): string {
    "\"" + Escape(s) + "\""
  }

  function Encode(v: Value): (t: string)
    ensures 0 < |t|
  {
    match v
    case JStr(s) => Quote(s)
    case JNum(n) => IntText(n)
    case JBool(b) => if b then "true" else "false"
    case JNull => "null"
  }

  function EncodeMember(f: Field): string {
    Quote(f.key) + ":" + Encode(f.value)
  }

  function EncodeMembers(o: Object): string
    requires 0 < |o|
  {
    if |o| == 1 then EncodeMember(o[0]) else EncodeMember(o[0]) + "," + EncodeMembers(o[1..])
  }

  /** `JSON.stringify(o)`. */
  function Stringify(o: Object): (t: string)
    ensures 2 <= |t| && t[0] == '{' && t[|t| - 1] == '}'
  {
    if o == [] then "{}" else "{" + EncodeMembers(o) + "}"
  }

  // ----- Parsing -----

  /** The characters of a string literal after its opening quote, up to the
      closing quote, and the text after it. */
  function ParseStringBody(s: string): (r: Option<(string, string)>)
    ensures r.Some? ==> |r.value.1| < |s|
  {
    if s == [] then None
    else if s[0] == '"' then Some(([], s[1..]))
    else if s[0] == '\\' then
      if |s| >= 2 && (s[1] == '"' || s[1] == '\\') then
        match ParseStringBody(s[2..])
        case Some((t, rest)) => Some(([s[1]] + t, rest))
        case None => None
      else None
    else
      match ParseStringBody(s[1..])
      case Some((t, rest)) => Some(([s[0]] + t, rest))
      case None => None
  }

  /** The number of leading decimal digits. */
  function DigitRun(s: string): (k: nat)
    ensures k <= |s| && AllDigits(s[..k])
    ensures k < |s| ==> !IsDigit(s[k])
  {
    if s == [] || !IsDigit(s[0]) then 0
    else
      var k := 1 + DigitRun(s[1..]);
      assert s[..k] == [s[0]] + s[1..][..k - 1];
      k
  }

  function ParseNumber(s: string): (r: Option<(int, string)>)
    ensures r.Some? ==> |r.value.1| < |s|
  {
    if s != [] && s[0] == '-' then
      var k := DigitRun(s[1..]);
      if k == 0 then None else Some((-(DigitsValue(s[1..][..k]) as int), s[1..][k..]))
    else
      var k := DigitRun(s);
      if k == 0 then None else Some((DigitsValue(s[..k]), s[k..]))
  }

  function ParseValue(s: string): (r: Option<(Value, string)>)
    ensures r.Some? ==> |r.value.1| < |s|
  {
    if s == [] then None
    else if s[0] == '"' then
      match ParseStringBody(s[1..])
      case Some((t, rest)) => Some((JStr(t), rest))
      case None => None
    else if StartsWith(s, "true") then Some((JBool(true), s[4..]))
    else if StartsWith(s, "false") then Some((JBool(false), s[5..]))
    else if StartsWith(s, "null") then Some((JNull, s[4..]))
    else
      match ParseNumber(s)
      case Some((n, rest)) => Some((JNum(n), rest))
      case None => None
  }

  /** `"key":value` pairs separated by commas up to the closing brace, assigned
      one by one into `acc` (a repeated key keeps its first position and takes
      its last value). */
  function ParseMembers(s: string, acc: Object): (r: Option<(Object, string)>)
    ensures r.Some? && DistinctKeys(acc) ==> DistinctKeys(r.value.0)
    decreases |s|
  {
    if s == [] || s[0] != '"' then None
    else
      match ParseStringBody(s[1..])
      case None => None
      case Some((k, r1)) =>
        if r1 == [] || r1[0] != ':' then None
        else
          match ParseValue(r1[1..])
          case None => None
          case Some((v, r2)) =>
            PutProperties(acc, k, v);
            if r2 == [] then None
            else if r2[0] == ',' then ParseMembers(r2[1..], Put(acc, k, v))
            else if r2[0] == '}' then Some((Put(acc, k, v), r2[1..]))
            else None
  }

  /** `JSON.parse(s)` for a flat object written without white space between
      its tokens, as `JSON.stringify` writes it. `None` stands for the
      `SyntaxError` it throws, and also for texts this model does not read:
      white space between tokens, nested values, fractions or exponents. */
  function Parse(s: string): (r: Option<Object>)
    ensures r.Some? ==> DistinctKeys(r.value)
  {
    if |s| >= 2 && s[0] == '{' then
      if s[1] == '}' then (if |s| == 2 then Some([]) else None)
      else
        match ParseMembers(s[1..], [])
        case Some((o, rest)) => if rest == [] then Some(o) else None
        case None => None
    else None
  }

  // ----- Round trip -----

  lemma {:induction false} StringRoundTrip(x: string, rest: string)
    ensures ParseStringBody(Escape(x) + "\"" + rest) == Some((x, rest))
  {
    if x == [] {
      assert Escape(x) + "\"" + rest == "\"" + rest;
    } else {
      var c := x[0];
      var tail := Escape(x[1..]) + "\"" + rest;
      assert Escape(x) + "\"" + rest == EscapeChar(c) + tail;
      StringRoundTrip(x[1..], rest);
      if c == '"' || c == '\\' {
        assert (EscapeChar(c) + tail)[2..] == tail;
      } else {
        assert (EscapeChar(c) + tail)[1..] == tail;
      }
      assert [c] + x[1..] == x;
    }
  }

  lemma {:induction false} DigitRunOfDigits(t: string, rest: string)
    requires AllDigits(t)
    requires rest == [] || !IsDigit(rest[0])
    ensures DigitRun(t + rest) == |t|
  {
    if t != [] {
      assert (t + rest)[1..] == t[1..] + rest;
      DigitRunOfDigits(t[1..], rest);
    } else {
      assert t + rest == rest;
    }
  }

  lemma DigitsRoundTrip(n: nat, rest: string)
    requires rest == [] || !IsDigit(rest[0])
    ensures var u := NatText(n) + rest;
            DigitRun(u) == |NatText(n)| && DigitsValue(u[..|NatText(n)|]) == n
            && u[|NatText(n)|..] == rest
  {
    var t := NatText(n);
    DigitRunOfDigits(t, rest);
    assert (t + rest)[..|t|] == t;
    NatTextValue(n);
  }

  lemma NegativeRoundTrip(m: nat, rest: string)
    requires 0 < m
    requires rest == [] || !IsDigit(rest[0])
    ensures ParseNumber("-" + NatText(m) + rest) == Some((-(m as int), rest))
  {
    var t := NatText(m);
    var u := t + rest;
    var s := "-" + t + rest;
    assert s[1..] == u;
    DigitsRoundTrip(m, rest);
  }

  lemma NonNegativeRoundTrip(n: nat, rest: string)
    requires rest == [] || !IsDigit(rest[0])
    ensures ParseNumber(NatText(n) + rest) == Some((n, rest))
  {
    var t := NatText(n);
    var s := t + rest;
    DigitsRoundTrip(n, rest);
    assert s[0] == t[0];
  }

  lemma NumberRoundTrip(n: int, rest: string)
    requires rest == [] || !IsDigit(rest[0])
    ensures ParseNumber(IntText(n) + rest) == Some((n, rest))
  {
    if n < 0 {
      NegativeRoundTrip(-n, rest);
    } else {
      NonNegativeRoundTrip(n, rest);
    }
  }

  /** Neither literal starts a number. */
  lemma NumberIsNoLiteral(n: int, rest: string)
    ensures var s := IntText(n) + rest;
            !StartsWith(s, "true") && !StartsWith(s, "false") && !StartsWith(s, "null")
  {
    var t := IntText(n);
    var s := t + rest;
    assert s[0] == t[0];
    assert t[0] == '-' || IsDigit(t[0]);
    assert s[0] != 't' && s[0] != 'f' && s[0] != 'n';
  }

  lemma StrValueRoundTrip(x: string, rest: string)
    ensures ParseValue(Encode(JStr(x)) + rest) == Some((JStr(x), rest))
  {
    var s := Encode(JStr(x)) + rest;
    assert s[0] == '"';
    assert s[1..] == Escape(x) + "\"" + rest;
    StringRoundTrip(x, rest);
  }

  lemma NumValueRoundTrip(n: int, rest: string)
    requires rest != [] && (rest[0] == ',' || rest[0] == '}')
    ensures ParseValue(Encode(JNum(n)) + rest) == Some((JNum(n), rest))
  {
    var s := IntText(n) + rest;
    assert s[0] == IntText(n)[0];
    NumberIsNoLiteral(n, rest);
    NumberRoundTrip(n, rest);
  }

  lemma ValueRoundTrip(v: Value, rest: string)
    requires rest != [] && (rest[0] == ',' || rest[0] == '}')
    ensures ParseValue(Encode(v) + rest) == Some((v, rest))
  {
    var s := Encode(v) + rest;
    match v
    case JStr(x) =>
      StrValueRoundTrip(x, rest);
    case JNum(n) =>
      NumValueRoundTrip(n, rest);
    case JBool(b) =>
      if b { assert s[..4] == "true"; assert s[4..] == rest; }
      else { assert s[..5] == "false"; assert s[5..] == rest; assert s[..4] != "true"; }
    case JNull =>
      assert s[..4] == "null" && s[4..] == rest;
      assert s[..4] != "true";
      assert s[0] != 'f';
  }

  /** One unfolding of `ParseMembers` once its key and value have been read. */
  lemma ParseMembersStep(s: string, acc: Object, k: string, r1: string, v: Value, r2: string)
    requires s != [] && s[0] == '"' && ParseStringBody(s[1..]) == Some((k, r1))
    requires r1 != [] && r1[0] == ':' && ParseValue(r1[1..]) == Some((v, r2))
    requires r2 != [] && (r2[0] == ',' || r2[0] == '}')
    ensures ParseMembers(s, acc) == if r2[0] == ',' then ParseMembers(r2[1..], Put(acc, k, v))
                                    else Some((Put(acc, k, v), r2[1..]))
  {
  }

  /** Reading one encoded member followed by `,` or `}`. */
  lemma MemberStep(f: Field, acc: Object, tail: string)
    requires !HasKey(acc, f.key)
    requires tail != [] && (tail[0] == ',' || tail[0] == '}')
    ensures ParseMembers(EncodeMember(f) + tail, acc)
            == if tail[0] == ',' then ParseMembers(tail[1..], acc + [f])
               else Some((acc + [f], tail[1..]))
  {
    var e := Escape(f.key);
    var val := Encode(f.value);
    var r1 := ":" + val + tail;
    var s := EncodeMember(f) + tail;
    assert s != [] && s[0] == '"' && ParseStringBody(s[1..]) == Some((f.key, r1)) by {
      assert s == "\"" + (e + "\"" + r1) by {
        assert EncodeMember(f) == "\"" + e + "\"" + ":" + val;
      }
      assert s[1..] == e + "\"" + r1;
      StringRoundTrip(f.key, r1);
    }
    assert r1 != [] && r1[0] == ':' && ParseValue(r1[1..]) == Some((f.value, tail)) by {
      assert r1[1..] == val + tail;
      ValueRoundTrip(f.value, tail);
    }
    ParseMembersStep(s, acc, f.key, r1, f.value, tail);
    assert Put(acc, f.key, f.value) == acc + [f];
  }

  lemma FirstKeyFresh(acc: Object, o: Object)
    requires 0 < |o| && DistinctKeys(acc + o)
    ensures !HasKey(acc, o[0].key) && DistinctKeys((acc + [o[0]]) + o[1..])
  {
    assert acc + o == (acc + [o[0]]) + o[1..];
    forall i | 0 <= i < |acc| ensures acc[i].key != o[0].key {
      assert (acc + o)[i] == acc[i] && (acc + o)[|acc|] == o[0];
    }
  }

  lemma LastMember(f: Field, acc: Object, rest: string)
    requires !HasKey(acc, f.key)
    ensures ParseMembers(EncodeMembers([f]) + "}" + rest, acc) == Some((acc + [f], rest))
  {
    var tail := "}" + rest;
    assert EncodeMembers([f]) + "}" + rest == EncodeMember(f) + tail;
    MemberStep(f, acc, tail);
    assert tail[1..] == rest;
  }

  lemma ConsMember(o: Object, acc: Object, rest: string)
    requires 1 < |o| && !HasKey(acc, o[0].key)
    ensures ParseMembers(EncodeMembers(o) + "}" + rest, acc)
            == ParseMembers(EncodeMembers(o[1..]) + "}" + rest, acc + [o[0]])
  {
    var tail := "," + (EncodeMembers(o[1..]) + "}" + rest);
    assert EncodeMembers(o) + "}" + rest == EncodeMember(o[0]) + tail;
    MemberStep(o[0], acc, tail);
    assert tail[1..] == EncodeMembers(o[1..]) + "}" + rest;
  }

  lemma {:induction false} MembersRoundTrip(o: Object, acc: Object, rest: string)
    requires 0 < |o|
    requires DistinctKeys(acc + o)
    ensures ParseMembers(EncodeMembers(o) + "}" + rest, acc) == Some((acc + o, rest))
  {
    FirstKeyFresh(acc, o);
    if |o| == 1 {
      LastMember(o[0], acc, rest);
      assert o == [o[0]];
    } else {
      var acc', o' := acc + [o[0]], o[1..];
      assert acc + o == acc' + o';
      ConsMember(o, acc, rest);
      MembersRoundTrip(o', acc', rest);
    }
  }

  lemma FirstMemberQuote(o: Object)
    requires 0 < |o|
    ensures EncodeMembers(o)[0] == '"'
  {
    assert EncodeMember(o[0])[0] == '"';
  }

  /** What `JSON.stringify` writes, `JSON.parse` reads back unchanged. */
  lemma ParseStringify(o: Object)
    requires DistinctKeys(o)
    ensures Parse(Stringify(o)) == Some(o)
  {
    if o != [] {
      var body := EncodeMembers(o);
      var s := Stringify(o);
      assert s == "{" + (body + "}" + []);
      assert s[1..] == body + "}" + [];
      assert [] + o == o;
      MembersRoundTrip(o, [], []);
      assert ParseMembers(s[1..], []) == Some((o, []));
      assert s[1] == body[0] by {
        assert |body| > 0;
      }
      FirstMemberQuote(o);
    }
  }

  /** JavaScript truthiness of a property read: `undefined`, `""`, `0`, `false`
      and `null` are falsy. */
  predicate Truthy(v: Option<Value>) {
    match v
    case None => false
    case Some(JStr(s)) => s != []
    case Some(JNum(n)) => n != 0
    case Some(JBool(b)) => b
    case Some(JNull) => false
  }
}

=== FILE: menu_list.dfy ===
/** The side menu of the management area: the eight modules, which of them
    is active for the current path, and the report module hidden from the
    basic plan. */
module MenuList {
  import opened Wrappers
  import opened Strings
  import opened Premium
  import opened Ranking

  datatype Menu = Menu(href: string, caption: string, active: bool, requiresPremium: bool)

  datatype Group = Group(groupLabel: string, menus: seq<Menu>)

  const Hrefs: seq<string> := [
    "/management", "/management/goals", "/management/budgets", "/management/debts",
    "/management/payment-methods", "/management/transactions", "/management/reports/create",
    "/management/profile"]

  const Captions: seq<string> := [
    "Dashboard", "Metas", "Presupuestos", "Deudas", "Métodos de Pago", "Transacciones",
    "Reportes", "Mi Perfil"]

  /** The index of the report module, the only one that requires premium. */
  const ReportsIndex := 6

  /** A menu entry is active on an exact match for the dashboard and on a
      prefix match for every other module. */
  predicate ActiveAt(pathname: string, i: nat)
    requires i < |Hrefs|
  {
    if i == 0 then pathname == Hrefs[0] else StartsWith(pathname, Hrefs[i])
  }

  /** The "Módulos" group with all eight modules. */
  function AllMenus(pathname: string): (g: Group)
    ensures g.groupLabel == "Módulos" && |g.menus| == 8
    ensures forall i :: 0 <= i < 8 ==>
              g.menus[i].href == Hrefs[i] && g.menus[i].caption == Captions[i]
              && (g.menus[i].active <==> ActiveAt(pathname, i))
              && (g.menus[i].requiresPremium <==> i == ReportsIndex)
  {
    Group("Módulos", seq(8, i requires 0 <= i < 8 => Menu(Hrefs[i], Captions[i], ActiveAt(pathname, i), i == ReportsIndex)))
  }

  /** `menus.filter(menu => !menu.requiresPremium)`: the other menus, in order. */
  function FreeMenus(menus: seq<Menu>): (r: seq<Menu>)
    ensures forall i :: 0 <= i < |r| ==> !r[i].requiresPremium
    ensures SubsequenceOf(r, menus)
  {
    if menus == [] then []
    else if menus[0].requiresPremium then FreeMenus(menus[1..])
    else [menus[0]] + FreeMenus(menus[1..])
  }

  /** The filter keeps exactly the menus that do not require premium. */
  lemma {:induction false} FreeMenusMembers(menus: seq<Menu>, m: Menu)
    ensures m in FreeMenus(menus) <==> m in menus && !m.requiresPremium
  {
    if menus != [] {
      FreeMenusMembers(menus[1..], m);
      assert menus == [menus[0]] + menus[1..];
    }
  }

  /** `getAllMenuList`: the group as it is, or without the premium modules
      for a lite plan. */
  function MenuList(pathname: string, sub: Option<Subscription>): (groups: seq<Group>)
    ensures |groups| == 1 && groups[0].groupLabel == "Módulos"
    ensures !HasLitePlan(sub) ==> groups == [AllMenus(pathname)]
    ensures HasLitePlan(sub) ==> groups[0].menus == FreeMenus(AllMenus(pathname).menus)
  {
    var all := AllMenus(pathname);
    if HasLitePlan(sub) then [Group(all.groupLabel, FreeMenus(all.menus))] else [all]
  }

  /** A lite plan loses exactly the report module; the seven others stay in order. */
  lemma LitePlanMenus(pathname: string, sub: Option<Subscription>)
    requires HasLitePlan(sub)
    ensures var menus := MenuList(pathname, sub)[0].menus;
            menus == AllMenus(pathname).menus[..ReportsIndex] + AllMenus(pathname).menus[ReportsIndex + 1..]
            && |menus| == 7
            && forall m :: m in menus ==> m.caption != "Reportes"
  {
    var all := AllMenus(pathname).menus;
    FreeAllBut(all, ReportsIndex);
    var menus := all[..ReportsIndex] + all[ReportsIndex + 1..];
    forall m | m in menus
      ensures m.caption != "Reportes"
    {
      var j :| 0 <= j < |menus| && menus[j] == m;
      var i := if j < ReportsIndex then j else j + 1;
      assert m == all[i] && i != ReportsIndex;
      OtherCaptions(i);
    }
  }

  /** Only the report module is captioned "Reportes". */
  lemma OtherCaptions(i: nat)
    requires i < 8 && i != ReportsIndex
    ensures Captions[i] != "Reportes"
  {
    assert Captions[i][0] != 'R' || |Captions[i]| != 8;
  }

  /** Filtering a list in which only the menu at `k` requires premium leaves it out. */
  lemma {:induction false} FreeAllBut(menus: seq<Menu>, k: nat)
    requires k < |menus|
    requires forall i :: 0 <= i < |menus| ==> (menus[i].requiresPremium <==> i == k)
    ensures FreeMenus(menus) == menus[..k] + menus[k + 1..]
  {
    var tail := menus[1..];
    if k == 0 {
      assert menus[0].requiresPremium;
      assert forall i :: 0 <= i < |tail| ==> !tail[i].requiresPremium by {
        forall i | 0 <= i < |tail|
          ensures !tail[i].requiresPremium
        {
          assert tail[i] == menus[i + 1];
        }
      }
      NoPremium(tail);
    } else {
      assert !menus[0].requiresPremium;
      assert forall i :: 0 <= i < |tail| ==> (tail[i].requiresPremium <==> i == k - 1) by {
        forall i | 0 <= i < |tail|
          ensures tail[i].requiresPremium <==> i == k - 1
        {
          assert tail[i] == menus[i + 1];
        }
      }
      FreeAllBut(tail, k - 1);
      calc {
        FreeMenus(menus);
        [menus[0]] + FreeMenus(tail);
        [menus[0]] + (tail[..k - 1] + tail[k..]);
        { assert tail[..k - 1] == menus[1..k]; assert tail[k..] == menus[k + 1..]; }
        [menus[0]] + (menus[1..k] + menus[k + 1..]);
        ([menus[0]] + menus[1..k]) + menus[k + 1..];
        { assert menus[..k] == [menus[0]] + menus[1..k]; }
        menus[..k] + menus[k + 1..];
      }
    }
  }

  /** Filtering keeps a list with no premium menu unchanged. */
  lemma {:induction false} NoPremium(menus: seq<Menu>)
    requires forall i :: 0 <= i < |menus| ==> !menus[i].requiresPremium
    ensures FreeMenus(menus) == menus
  {
    if menus != [] {
      NoPremium(menus[1..]);
    }
  }

  /** On the dashboard itself only the dashboard entry is active. */
  lemma DashboardOnlyActive()
    ensures forall i :: 0 <= i < 8 ==> (AllMenus("/management").menus[i].active <==> i == 0)
  {
    var g := AllMenus("/management");
    forall i | 1 <= i < 8
      ensures !g.menus[i].active
    {
      assert |Hrefs[i]| > |"/management"|;
    }
  }

  /** A page under a module's path marks that module active, and never the dashboard. */
  lemma ModulePageActive(i: nat, rest: string)
    requires 1 <= i < 8
    ensures var g := AllMenus(Hrefs[i] + rest);
            g.menus[i].active && !g.menus[0].active
  {
    var p := Hrefs[i] + rest;
    assert p[..|Hrefs[i]|] == Hrefs[i];
    assert |Hrefs[i]| > |Hrefs[0]|;
    assert p[..|Hrefs[0]|] == Hrefs[0];
    assert p != Hrefs[0] by {
      assert |p| >= |Hrefs[i]|;
    }
  }
}

=== FILE: numerals.dfy ===
/** Decimal text of numbers: the digits JavaScript prints for an integer
    (`String(n)`), zero padding as in `date-fns` patterns, `Number(text)` for
    plain decimal integers, and `toFixed(1)` on exact decimal values. */
module Numerals {
  import opened Strings
  import opened Wrappers

  function DigitChar(d: nat): (c: char)
    requires d < 10
    ensures IsDigit(c)
  {
    ('0' as int + d) as char
  }

  function DigitValue(c: char): (d: nat)
    requires IsDigit(c)
    ensures d < 10 && DigitChar(d) == c
  {
    c as int - '0' as int
  }

  predicate AllDigits(s: string) {
    forall i :: 0 <= i < |s| ==> IsDigit(s[i])
  }

  /** The value of a run of decimal digits; the most significant digit comes first. */
  function DigitsValue(s: string): (n: nat)
    requires AllDigits(s)
  {
    if s == [] then 0 else DigitsValue(s[..|s| - 1]) * 10 + DigitValue(s[|s| - 1])
  }

  /** `String(n)` for a natural number: no leading zeros. */
  function NatText(n: nat): (s: string)
    ensures 0 < |s| && AllDigits(s)
    ensures |s| == 1 <==> n < 10
    ensures s[0] == '0' ==> n == 0
  {
    if n < 10 then [DigitChar(n)] else NatText(n / 10) + [DigitChar(n % 10)]
  }

  lemma {:induction false} NatTextValue(n: nat)
    ensures DigitsValue(NatText(n)) == n
  {
    if n >= 10 {
      var s := NatText(n);
      assert s[..|s| - 1] == NatText(n / 10);
      NatTextValue(n / 10);
    }
  }

  /** `String(n)` for an integer. */
  function IntText(n: int): (s: string)
    ensures 0 < |s|
  {
    if n < 0 then "-" + NatText(-n) else NatText(n)
  }

  function Zeros(k: nat): (s: string)
    ensures |s| == k && AllDigits(s)
    ensures forall i :: 0 <= i < k ==> s[i] == '0'
  {
    if k == 0 then [] else Zeros(k - 1) + ['0']
  }

  /** `n` written with at least `width` digits, zero padded on the left. */
  function Padded(n: nat, width: nat): (s: string)
    ensures AllDigits(s) && width <= |s|
  {
    var t := NatText(n);
    if |t| < width then Zeros(width - |t|) + t else t
  }

  function Pow10(k: nat): (p: nat)
    ensures p >= 1
  {
    if k == 0 then 1 else 10 * Pow10(k - 1)
  }

  lemma {:induction false} LeadingZerosValue(k: nat, t: string)
    requires AllDigits(t)
    ensures AllDigits(Zeros(k) + t) && DigitsValue(Zeros(k) + t) == DigitsValue(t)
  {
    if t == [] {
      assert Zeros(k) + t == Zeros(k);
      ZerosValue(k);
    } else {
      var u := Zeros(k) + t;
      assert u[..|u| - 1] == Zeros(k) + t[..|t| - 1];
      LeadingZerosValue(k, t[..|t| - 1]);
    }
  }

  lemma {:induction false} ZerosValue(k: nat)
    ensures DigitsValue(Zeros(k)) == 0
  {
    if k > 0 {
      assert Zeros(k)[..k - 1] == Zeros(k - 1);
      ZerosValue(k - 1);
    }
  }

  lemma {:induction false} NatTextLength(n: nat, width: nat)
    requires 0 < width && n < Pow10(width)
    ensures |NatText(n)| <= width
  {
    if n >= 10 {
      NatTextLength(n / 10, width - 1);
    }
  }

  lemma PaddedLength(n: nat, width: nat)
    requires 0 < width && n < Pow10(width)
    ensures |Padded(n, width)| == width
  {
    NatTextLength(n, width);
  }

  lemma {:induction false} PaddedValue(n: nat, width: nat)
    ensures DigitsValue(Padded(n, width)) == n
  {
    var t := NatText(n);
    NatTextValue(n);
    assert DigitsValue(t) == n;
    if |t| < width {
      var z := Zeros(width - |t|);
      LeadingZerosValue(width - |t|, t);
      assert DigitsValue(z + t) == n;
    }
  }

  /** `Number(s)` for text made of decimal digits only; `None` stands for `NaN`
      (the text is empty or holds any other character). */
  function ParseNat(s: string): (r: Option<nat>)
    ensures r.Some? <==> s != [] && AllDigits(s)
  {
    if s != [] && AllDigits(s) then Some(DigitsValue(s)) else None
  }

  /** `Number(s)` for an integer text: digits with an optional leading minus
      sign, the empty text being 0; `None` is `NaN`. */
  function IntNumber(s: string): (r: Option<int>)
    ensures s == [] ==> r == Some(0)
    ensures r.Some? && r.value < 0 ==> s[0] == '-'
  {
    if s == [] then Some(0)
    else if s[0] == '-' then
      match ParseNat(s[1..])
      case Some(n) => Some(-(n as int))
      case None => None
    else ParseNat(s)
  }

  /** `Number(String(n))` is `n`. */
  lemma IntNumberText(n: int)
    ensures IntNumber(IntText(n)) == Some(n)
  {
    var t := IntText(n);
    if n < 0 {
      assert t == "-" + NatText(-n);
      assert t[0] == '-' && t[1..] == NatText(-n);
      ParseNatText(-n);
    } else {
      assert t == NatText(n);
      ParseNatText(n);
      assert t[0] != '-' by {
        assert IsDigit(t[0]);
      }
    }
  }

  lemma ParseNatText(n: nat)
    ensures ParseNat(NatText(n)) == Some(n)
  {
    NatTextValue(n);
  }

  /** `x.toFixed(1)` read on the exact decimal value of `x`: rounded to one
      decimal place, halves away from zero. */
  function Fixed1(x: real): (s: string)
    ensures 0 < |s|
  {
    var tenths := (if x < 0.0 then -x else x) * 10.0 + 0.5;
    var n: nat := tenths.Floor;
    (if x < 0.0 then "-" else "") + NatText(n / 10) + "." + [DigitChar(n % 10)]
  }
}

=== FILE: period_selector.dfy ===
/** The period selector: five calendar presets computed from today's date, a
    custom range picked on two calendars, and the `onChange` events it emits. */
module PeriodSelector {
  import opened Calendar
  import opened DateText
  import opened Wrappers

  /** The period kinds; `Unlisted` holds any other text a period can arrive with
      from a URL, which the selector itself never produces. */
  datatype PeriodType =
    | CurrentMonth | LastMonth | LastThreeMonths | LastSixMonths | CurrentYear | Custom
    | Unlisted(code: string)
  {
    predicate IsPreset() { !Custom? && !Unlisted? }
  }

  /** The text a period kind is written as. */
  function PeriodCode(t: PeriodType): string {
    match t
    case CurrentMonth => "current-month"
    case LastMonth => "last-month"
    case LastThreeMonths => "last-3-months"
    case LastSixMonths => "last-6-months"
    case CurrentYear => "current-year"
    case Custom => "custom"
    case Unlisted(code) => code
  }

  /** Reads a period kind from its text; texts of no listed kind are kept as they are. */
  function ParsePeriodCode(s: string): (t: PeriodType)
    ensures PeriodCode(t) == s
  {
    if s == "current-month" then CurrentMonth
    else if s == "last-month" then LastMonth
    else if s == "last-3-months" then LastThreeMonths
    else if s == "last-6-months" then LastSixMonths
    else if s == "current-year" then CurrentYear
    else if s == "custom" then Custom
    else Unlisted(s)
  }

  /** Every listed kind is read back from its text. */
  lemma PeriodCodeRoundTrip(t: PeriodType)
    requires !t.Unlisted?
    ensures ParsePeriodCode(PeriodCode(t)) == t
  {
  }

  /** `PeriodRange`: the bounds, the kind of period and the text shown for it. */
  datatype PeriodRange = PeriodRange(startDate: Date, endDate: Date, kind: PeriodType, caption: string)

  /** The presets in the order of their declaration (the pill options' order). */
  const Presets: seq<PeriodType> := [CurrentMonth, LastMonth, LastThreeMonths, LastSixMonths, CurrentYear]

  function PresetLabel(t: PeriodType): string
    requires t.IsPreset()
  {
    match t
    case CurrentMonth => "Mes actual"
    case LastMonth => "Mes anterior"
    case LastThreeMonths => "Últimos 3 meses"
    case LastSixMonths => "Últimos 6 meses"
    case CurrentYear => "Año actual"
  }

  /** `PRESET_PERIODS[t].getValue()` evaluated on the day `now`. */
  function PresetRange(t: PeriodType, now: Date): (r: (Date, Date))
    requires t.IsPreset() && Valid(now)
    ensures Valid(r.0) && Valid(r.1) && r.0.day == 1
    ensures r.1.day == DaysInMonth(r.1.year, r.1.month)
    ensures LessEq(r.0, r.1)
  {
    match t
    case CurrentMonth => (StartOfMonth(now), EndOfMonth(now))
    case LastMonth =>
      var last := SubMonths(now, 1);
      (StartOfMonth(last), EndOfMonth(last))
    case LastThreeMonths =>
      var first := StartOfMonth(SubMonths(now, 2));
      EarlierMonthIsBefore(first, EndOfMonth(now));
      (first, EndOfMonth(now))
    case LastSixMonths =>
      var first := StartOfMonth(SubMonths(now, 5));
      EarlierMonthIsBefore(first, EndOfMonth(now));
      (first, EndOfMonth(now))
    case CurrentYear =>
      EarlierMonthIsBefore(StartOfYear(now), EndOfMonth(now));
      (StartOfYear(now), EndOfMonth(now))
  }

  /** The first and the last month (as month indexes) a preset covers: the
      reference the computed bounds are checked against. */
  function CoveredMonths(t: PeriodType, now: Date): (int, int)
    requires t.IsPreset()
  {
    var k := MonthIndex(now.year, now.month);
    match t
    case CurrentMonth => (k, k)
    case LastMonth => (k - 1, k - 1)
    case LastThreeMonths => (k - 2, k)
    case LastSixMonths => (k - 5, k)
    case CurrentYear => (MonthIndex(now.year, 1), k)
  }

  /** A day lies in a preset's range exactly when its month is one of the
      months the preset names: "last month" is the whole previous calendar month
      (December of the year before, in January), "last 3 months" are this month
      and the two before it, and "current year" stops at the end of this month. */
  lemma PresetDays(t: PeriodType, now: Date, d: Date)
    requires t.IsPreset() && Valid(now) && Valid(d)
    ensures var r := PresetRange(t, now);
            var m := CoveredMonths(t, now);
            InRange(d, r.0, r.1) <==> m.0 <= MonthIndex(d.year, d.month) <= m.1
  {
    var r := PresetRange(t, now);
    MonthSpan(r.0, r.1, d);
  }

  /** Every preset except "last month" contains today; "last month" ends before it. */
  lemma PresetContainsToday(t: PeriodType, now: Date)
    requires t.IsPreset() && Valid(now)
    ensures var r := PresetRange(t, now);
            t != LastMonth <==> InRange(now, r.0, r.1)
  {
    PresetDays(t, now, now);
  }

  /** The label the custom range is shown with: `"dd MMM - dd MMM yyyy"`. */
  function CustomLabel(start: Date, end: Date): string
    requires Valid(start) && Valid(end)
  {
    DayMonthShort(start) + " - " + DayMonthYearShort(end)
  }

  /** The pill variant's options: the presets in declaration order, then "custom". */
  function PillOptions(): (opts: seq<(PeriodType, string)>)
    ensures |opts| == 6 && opts[5] == (Custom, "Personalizado")
    ensures forall i :: 0 <= i < 5 ==> opts[i].0 == Presets[i] && opts[i].1 == PresetLabel(Presets[i])
  {
    seq(5, i requires 0 <= i < 5 => (Presets[i], PresetLabel(Presets[i]))) + [(Custom, "Personalizado")]
  }

  class Selector {
    var selectedType: PeriodType
    var customStart: Option<Date>
    var customEnd: Option<Date>
    /** The arguments of every `onChange` call so far. */
    var emitted: seq<PeriodRange>

    /** Picked days are calendar days. */
    predicate Valid()
      reads this
    {
      (customStart.Some? ==> Calendar.Valid(customStart.value))
      && (customEnd.Some? ==> Calendar.Valid(customEnd.value))
    }

    /** The selection starts at the shown period; its bounds seed the custom
        fields only when it is itself a custom period. */
    constructor(value: PeriodRange)
      requires Calendar.Valid(value.startDate) && Calendar.Valid(value.endDate)
      ensures Valid()
      ensures selectedType == value.kind && emitted == []
      ensures customStart == (if value.kind == Custom then Some(value.startDate) else None)
      ensures customEnd == (if value.kind == Custom then Some(value.endDate) else None)
    {
      selectedType := value.kind;
      customStart := if value.kind == Custom then Some(value.startDate) else None;
      customEnd := if value.kind == Custom then Some(value.endDate) else None;
      emitted := [];
    }

    /** `handlePresetChange`: records the choice; a preset is emitted with its
        fixed label, while "custom" emits nothing. */
    method HandlePresetChange(t: PeriodType, now: Date)
      requires Calendar.Valid(now) && !t.Unlisted?
      modifies this
      ensures selectedType == t
      ensures customStart == old(customStart) && customEnd == old(customEnd)
      ensures t == Custom ==> emitted == old(emitted)
      ensures t.IsPreset() ==>
        emitted == old(emitted) + [PeriodRange(PresetRange(t, now).0, PresetRange(t, now).1, t, PresetLabel(t))]
    {
      selectedType := t;
      if t == Custom {
        return;
      }
      var dates := PresetRange(t, now);
      emitted := emitted + [PeriodRange(dates.0, dates.1, t, PresetLabel(t))];
    }

    /** Picking a day on the start calendar. */
    method SelectStart(d: Date)
      requires Calendar.Valid(d) && Valid()
      modifies this
      ensures Valid() && customStart == Some(d)
      ensures selectedType == old(selectedType) && customEnd == old(customEnd) && emitted == old(emitted)
    {
      customStart := Some(d);
    }

    /** The end calendar greys out the days before the picked start. */
    predicate EndDayDisabled(d: Date)
      reads this
    {
      customStart.Some? && Before(d, customStart.value)
    }

    /** Picking a day on the end calendar (only enabled days can be picked). */
    method SelectEnd(d: Date)
      requires Calendar.Valid(d) && Valid() && !EndDayDisabled(d)
      modifies this
      ensures Valid() && customEnd == Some(d)
      ensures selectedType == old(selectedType) && customStart == old(customStart) && emitted == old(emitted)
    {
      customEnd := Some(d);
    }

    /** "Aplicar" is disabled until both days are picked. */
    predicate ApplyDisabled()
      reads this
    {
      customStart.None? || customEnd.None?
    }

    /** `handleCustomDateChange`: emits the picked range as a custom period when
        both days are set, and nothing otherwise. The order of the two days is
        not checked here. */
    method HandleCustomDateChange()
      requires Valid()
      modifies this
      ensures selectedType == old(selectedType) && customStart == old(customStart) && customEnd == old(customEnd)
      ensures ApplyDisabled() ==> emitted == old(emitted)
      ensures !ApplyDisabled() ==>
        emitted == old(emitted)
          + [PeriodRange(customStart.value, customEnd.value, Custom, CustomLabel(customStart.value, customEnd.value))]
    {
      if customStart.Some? && customEnd.Some? {
        var s, e := customStart.value, customEnd.value;
        emitted := emitted + [PeriodRange(s, e, Custom, CustomLabel(s, e))];
      }
    }
  }

  /** Picking the end first and a later start afterwards is not prevented, so the
      custom period applied can end before it starts. */
  method ReversedCustomRange() returns (p: PeriodRange)
    ensures p.kind == Custom && Before(p.endDate, p.startDate)
  {
    var s := new Selector(PeriodRange(Date(2024, 1, 1), Date(2024, 1, 31), CurrentMonth, "Mes actual"));
    s.SelectEnd(Date(2024, 3, 1));
    s.SelectStart(Date(2024, 3, 10));
    s.HandleCustomDateChange();
    p := s.emitted[|s.emitted| - 1];
  }
}

=== FILE: premium.dfy ===
/** Which plan the signed-in user is on: a plan whose name contains "lite"
    is the basic plan, and any other subscription gives premium access. */
module Premium {
  import opened Wrappers
  import opened Strings

  /** A subscription; `planName` is `None` when the plan or its name is missing. */
  datatype Subscription = Subscription(planName: Option<string>, active: bool)

  /** `subscription?.plan?.name?.toLowerCase().includes('lite')`, with a
      missing value read as false. */
  predicate HasLitePlan(sub: Option<Subscription>) {
    sub.Some? && sub.value.planName.Some? && Contains(ToLower(sub.value.planName.value), "lite")
  }

  /** `!hasLitePlan && !!subscription`. */
  predicate HasPremiumAccess(sub: Option<Subscription>) {
    !HasLitePlan(sub) && sub.Some?
  }

  /** `hasBasicPlan` is `hasLitePlan` under another name. */
  predicate HasBasicPlan(sub: Option<Subscription>) {
    HasLitePlan(sub)
  }

  /** The access flags a page receives. */
  datatype PremiumCheck = PremiumCheck(hasBasicPlan: bool, hasPremiumAccess: bool)

  /** `usePremiumCheck` once the subscription has loaded: a basic plan never
      has premium access, no subscription has neither, and every
      subscription has exactly one of the two. */
  function Check(sub: Option<Subscription>): (r: PremiumCheck)
    ensures !(r.hasBasicPlan && r.hasPremiumAccess)
    ensures sub.None? ==> !r.hasBasicPlan && !r.hasPremiumAccess
    ensures sub.Some? ==> r.hasBasicPlan != r.hasPremiumAccess
  {
    PremiumCheck(HasBasicPlan(sub), HasPremiumAccess(sub))
  }

  /** Whether a plan counts as lite ignores the case of its ASCII letters:
      "Plan LITE" is as basic as "plan lite". */
  lemma LiteIgnoresCase(a: string, b: string, active: bool)
    requires ToLower(a) == ToLower(b)
    ensures HasLitePlan(Some(Subscription(Some(a), active))) == HasLitePlan(Some(Subscription(Some(b), active)))
  {
  }

  /** A subscription without a plan name gives premium access. */
  lemma NamelessPlanIsPremium(active: bool)
    ensures HasPremiumAccess(Some(Subscription(None, active)))
  {
  }

  /** `toLowerCase` of a concatenation is the concatenation of the parts lowered. */
  lemma ToLowerConcat(a: string, b: string)
    ensures ToLower(a + b) == ToLower(a) + ToLower(b)
  {
    var l, r := ToLower(a + b), ToLower(a) + ToLower(b);
    assert |l| == |r|;
    forall i | 0 <= i < |l|
      ensures l[i] == r[i]
    {
      if i < |a| {
        assert (a + b)[i] == a[i];
      } else {
        assert (a + b)[i] == b[i - |a|];
      }
    }
  }

  /** A plan named with the word "lite" in any case ("Premium Lite", "LITE
      anual") is a basic plan without premium access. */
  lemma LiteWordIsBasic(pre: string, word: string, post: string, active: bool)
    requires ToLower(word) == "lite"
    ensures var sub := Some(Subscription(Some(pre + word + post), active));
            HasBasicPlan(sub) && !HasPremiumAccess(sub)
  {
    ToLowerConcat(pre, word);
    ToLowerConcat(pre + word, post);
    var t := ToLower(pre + word + post);
    assert t == ToLower(pre) + "lite" + ToLower(post);
    assert OccursAt(t, "lite", |pre|);
  }
}

=== FILE: profile_form.dfy ===
/** The profile form: name, username and e-mail, checked by the schema, and
    submitted only when something changed. */
module ProfileForm {
  import opened Strings
  import opened Wrappers
  import opened FormState

  datatype ProfileValues = ProfileValues(name: string, username: string, email: string)

  datatype UserProfile = UserProfile(id: int, name: string, username: string, email: string)

  const NoSpaces := "El nombre de usuario no puede contener espacios"

  /** `/^\S+$/`: at least one character and no white space. */
  predicate NoWhitespace(s: string) {
    s != [] && forall i :: 0 <= i < |s| ==> !IsJsWhitespace(s[i])
  }

  /** `profileFormSchema`; whether the e-mail has a valid form is given as
      `emailValid`. */
  function ProfileIssues(v: ProfileValues, emailValid: bool): seq<Issue> {
    (if |v.name| < 2 then [Issue("name", "El nombre debe tener al menos 2 caracteres")] else [])
    + (if |v.name| > 100 then [Issue("name", "El nombre no debe exceder 100 caracteres")] else [])
    + (if |v.username| < 3 then [Issue("username", "El nombre de usuario debe tener al menos 3 caracteres")] else [])
    + (if |v.username| > 50 then [Issue("username", "El nombre de usuario no debe exceder 50 caracteres")] else [])
    + (if !NoWhitespace(v.username) then [Issue("username", NoSpaces)] else [])
    + (if !emailValid then [Issue("email", "Formato de email inválido")] else [])
  }

  /** The form is accepted exactly for a name of 2 to 100 characters, a
      username of 3 to 50 characters without white space and a valid e-mail. */
  lemma ProfileIssuesExactly(v: ProfileValues, emailValid: bool)
    ensures ProfileIssues(v, emailValid) == []
            <==> 2 <= |v.name| <= 100 && 3 <= |v.username| <= 50 && NoWhitespace(v.username) && emailValid
  {
  }

  /** A username with a white-space character anywhere is rejected for it. */
  lemma SpaceInUsername(v: ProfileValues, emailValid: bool, i: nat)
    requires i < |v.username| && IsJsWhitespace(v.username[i])
    ensures Issue("username", NoSpaces) in ProfileIssues(v, emailValid)
  {
    assert !NoWhitespace(v.username);
  }

  /** The form opens with the user's current values. */
  function Defaults(user: UserProfile): (v: ProfileValues)
    ensures v.name == user.name && v.username == user.username && v.email == user.email
  {
    ProfileValues(user.name, user.username, user.email)
  }

  /** The save button is enabled only when no save is pending and the values
      differ from the defaults. */
  predicate SubmitEnabled(pending: bool, values: ProfileValues, defaults: ProfileValues) {
    !pending && values != defaults
  }

  /** The form as it opens cannot be submitted, and any edit while nothing is
      pending enables it. */
  lemma OpeningFormNotSubmittable(user: UserProfile, pending: bool, edited: ProfileValues)
    ensures !SubmitEnabled(pending, Defaults(user), Defaults(user))
    ensures edited != Defaults(user) && !pending ==> SubmitEnabled(pending, edited, Defaults(user))
  {
  }

  /** `handleSubmit(onSubmit)`: the schema runs first, and only values it
      accepts are sent, unchanged, for this user. */
  function UpdateRequest(user: UserProfile, v: ProfileValues, emailValid: bool): (r: Option<(int, ProfileValues)>)
    ensures r.Some? <==> 2 <= |v.name| <= 100 && 3 <= |v.username| <= 50 && NoWhitespace(v.username) && emailValid
    ensures r.Some? ==> r.value == (user.id, v)
  {
    ProfileIssuesExactly(v, emailValid);
    if ProfileIssues(v, emailValid) == [] then Some((user.id, v)) else None
  }
}

=== FILE: ranking.dfy ===
/** The list operations the dashboards chain together: `filter`, a sort by a
    numeric key in descending order (`sort((a, b) => key(b) - key(a))`),
    `slice`, and a sum with `reduce`. */
module Ranking {

  /** `a` is `b` with some elements left out, in the same order. */
  predicate SubsequenceOf<T(==)>(a: seq<T>, b: seq<T>)
    decreases |b|
  {
    a == [] || (b != [] && ((a[0] == b[0] && SubsequenceOf(a[1..], b[1..])) || SubsequenceOf(a, b[1..])))
  }

  /** `s.filter(p)`: the elements that pass, in their order, each as often as
      it occurs in `s`. */
  function Filter<T>(s: seq<T>, p: T -> bool): (r: seq<T>)
    ensures |r| <= |s|
    ensures forall i :: 0 <= i < |r| ==> p(r[i])
    ensures forall i :: 0 <= i < |r| ==> r[i] in s
    ensures forall i :: 0 <= i < |s| && p(s[i]) ==> s[i] in r
    ensures SubsequenceOf(r, s)
  {
    if s == [] then []
    else
      var rest := Filter(s[1..], p);
      assert s == [s[0]] + s[1..];
      if p(s[0]) then
        assert ([s[0]] + rest)[1..] == rest;
        [s[0]] + rest
      else rest
  }

  /** The filter keeps every element that passes as often as it occurs, and
      no other. */
  lemma {:induction false} FilterCounts<T(!new)>(s: seq<T>, p: T -> bool)
    ensures forall x :: multiset(Filter(s, p))[x] == if p(x) then multiset(s)[x] else 0
  {
    if s != [] {
      FilterCounts(s[1..], p);
      assert s == [s[0]] + s[1..];
    }
  }

  predicate SortedDesc<T>(s: seq<T>, key: T -> real) {
    forall i, j :: 0 <= i < j < |s| ==> key(s[i]) >= key(s[j])
  }

  /** Places `x` after every element whose key is at least its own, so that of
      two equal keys the one placed earlier stays first. */
  function Insert<T>(r: seq<T>, x: T, key: T -> real): (u: seq<T>)
    ensures |u| == |r| + 1
    ensures multiset(u) == multiset(r) + multiset{x}
  {
    if r == [] then [x]
    else if key(r[|r| - 1]) >= key(x) then r + [x]
    else
      var u := Insert(r[..|r| - 1], x, key) + [r[|r| - 1]];
      assert r == r[..|r| - 1] + [r[|r| - 1]];
      u
  }

  lemma {:induction false} InsertSorted<T>(r: seq<T>, x: T, key: T -> real)
    requires SortedDesc(r, key)
    ensures SortedDesc(Insert(r, x, key), key)
  {
    if r != [] && key(r[|r| - 1]) < key(x) {
      var init, last := r[..|r| - 1], r[|r| - 1];
      InsertSorted(init, x, key);
      var v := Insert(init, x, key);
      forall i | 0 <= i < |v|
        ensures key(v[i]) >= key(last)
      {
        assert v[i] in multiset(v);
        if v[i] != x {
          assert v[i] in multiset(init);
          var j :| 0 <= j < |init| && init[j] == v[i];
          assert r[j] == v[i];
        }
      }
    }
  }

  /** `[...s].sort((a, b) => key(b) - key(a))`, as an insertion sort. */
  function SortDesc<T>(s: seq<T>, key: T -> real): (r: seq<T>)
    ensures |r| == |s| && multiset(r) == multiset(s)
  {
    if s == [] then []
    else
      assert s == s[..|s| - 1] + [s[|s| - 1]];
      Insert(SortDesc(s[..|s| - 1], key), s[|s| - 1], key)
  }

  lemma {:induction false} SortDescSorted<T>(s: seq<T>, key: T -> real)
    ensures SortedDesc(SortDesc(s, key), key)
  {
    if s != [] {
      SortDescSorted(s[..|s| - 1], key);
      InsertSorted(SortDesc(s[..|s| - 1], key), s[|s| - 1], key);
    }
  }

  /** Sorting only moves elements: each one comes from the input. */
  lemma SortDescMembers<T>(s: seq<T>, key: T -> real)
    ensures forall i :: 0 <= i < |SortDesc(s, key)| ==> SortDesc(s, key)[i] in s
  {
    var r := SortDesc(s, key);
    forall i | 0 <= i < |r| ensures r[i] in s {
      assert r[i] in multiset(r);
    }
  }

  /** `s.slice(0, n)`: a negative `n` counts from the end. */
  function SliceTo<T>(s: seq<T>, n: int): (r: seq<T>)
    ensures |r| == if 0 <= n then (if n < |s| then n else |s|) else (if |s| + n < 0 then 0 else |s| + n)
    ensures r == s[..|r|]
  {
    if 0 <= n then (if n < |s| then s[..n] else s)
    else if |s| + n < 0 then [] else s[..|s| + n]
  }

  /** A slice from the start holds no element more often than the list. */
  lemma SliceToMultiset<T>(s: seq<T>, n: int)
    ensures multiset(SliceTo(s, n)) <= multiset(s)
  {
    var r := SliceTo(s, n);
    assert s == r + s[|r|..];
  }

  /** `s.slice(-n)` for a positive `n`: the last `n` elements. */
  function TakeLast<T>(s: seq<T>, n: nat): (r: seq<T>)
    requires 0 < n
    ensures |r| == if n < |s| then n else |s|
    ensures r == s[|s| - |r|..]
  {
    if n < |s| then s[|s| - n..] else s
  }

  /** Taking the first elements of a list sorted in descending order keeps the
      largest ones: nothing left out is larger than anything kept. */
  lemma TopOfSorted<T>(s: seq<T>, key: T -> real, n: int)
    requires SortedDesc(s, key)
    ensures var top := SliceTo(s, n);
            forall i, j :: 0 <= i < |top| <= j < |s| ==> key(top[i]) >= key(s[j])
  {
  }

  /** An element of a descending list that the first `n` leave out means all
      `n` places are taken, each by an element at least as large. */
  lemma LeftOutOfTop<T>(s: seq<T>, key: T -> real, n: nat, x: T)
    requires SortedDesc(s, key) && x in s && x !in SliceTo(s, n)
    ensures |SliceTo(s, n)| == n
    ensures forall j :: 0 <= j < n ==> key(SliceTo(s, n)[j]) >= key(x)
  {
    var top := SliceTo(s, n);
    var k :| 0 <= k < |s| && s[k] == x;
    assert k >= |top|;
    TopOfSorted(s, key, n);
  }

  /** `s.reduce((sum, e) => sum + key(e), 0)`. */
  function SumBy<T>(s: seq<T>, key: T -> real): real {
    if s == [] then 0.0 else SumBy(s[..|s| - 1], key) + key(s[|s| - 1])
  }

  lemma {:induction false} SumByAppend<T>(a: seq<T>, b: seq<T>, key: T -> real)
    ensures SumBy(a + b, key) == SumBy(a, key) + SumBy(b, key)
  {
    if b == [] {
      assert a + b == a;
    } else {
      assert (a + b)[..|a + b| - 1] == a + b[..|b| - 1];
      SumByAppend(a, b[..|b| - 1], key);
    }
  }

  lemma {:induction false} SumByInsert<T>(r: seq<T>, x: T, key: T -> real)
    ensures SumBy(Insert(r, x, key), key) == SumBy(r, key) + key(x)
  {
    if r != [] && key(r[|r| - 1]) < key(x) {
      SumByInsert(r[..|r| - 1], x, key);
      var u := Insert(r[..|r| - 1], x, key) + [r[|r| - 1]];
      assert u[..|u| - 1] == Insert(r[..|r| - 1], x, key);
    } else if r != [] {
      assert (r + [x])[..|r|] == r;
    }
  }

  /** Sorting does not change the total. */
  lemma {:induction false} SumBySort<T>(s: seq<T>, key: T -> real)
    ensures SumBy(SortDesc(s, key), key) == SumBy(s, key)
  {
    if s != [] {
      SumBySort(s[..|s| - 1], key);
      SumByInsert(SortDesc(s[..|s| - 1], key), s[|s| - 1], key);
    }
  }

  /** Every element of a list kept by `p` contributes nonnegatively. */
  lemma {:induction false} SumByNonNegative<T>(s: seq<T>, key: T -> real)
    requires forall i :: 0 <= i < |s| ==> key(s[i]) >= 0.0
    ensures SumBy(s, key) >= 0.0
  {
    if s != [] {
      SumByNonNegative(s[..|s| - 1], key);
    }
  }

  /** A prefix of a list of nonnegative values sums to no more than the list. */
  lemma PrefixSumBounded<T>(s: seq<T>, k: nat, key: T -> real)
    requires k <= |s|
    requires forall i :: 0 <= i < |s| ==> key(s[i]) >= 0.0
    ensures SumBy(s[..k], key) <= SumBy(s, key)
  {
    assert s == s[..k] + s[k..];
    SumByAppend(s[..k], s[k..], key);
    SumByNonNegative(s[k..], key);
  }
}

=== FILE: recommendation_card.dfy ===
/** A recommendation card: it marks a pending recommendation as viewed each
    time it is rendered, and its buttons act on the recommendation (leaving the prefilled
    values for the next form under `recommendationAction` in local storage)
    or dismiss it. */
module RecommendationCard {
  import opened Wrappers
  import opened Json
  import opened Browser

  datatype Priority = High | Medium | Low | UnknownPriority
  datatype Status = Pending | Viewed | Dismissed | Acted

  datatype QuickAction = QuickAction(caption: string, path: string, prefilledData: Option<Object>)

  datatype Recommendation = Recommendation(
    id: int, priority: Priority, title: string, description: string,
    actionable: bool, actions: Option<seq<QuickAction>>, status: Status)

  /** The calls the card makes to the recommendation service. */
  datatype Mutation = MarkViewed(id: int) | MarkActed(id: int) | MarkDismissed(id: int)

  /** The local-storage key the card writes and the goal and debt-payment forms read. */
  const ActionKey := "recommendationAction"

  /** `getPriorityColor`: the badge variant of a priority. */
  function PriorityColor(p: Priority): (v: string)
    ensures v == "destructive" <==> p == High
    ensures v == "secondary" <==> p == Low
    ensures v == "default" <==> p == Medium || p == UnknownPriority
  {
    match p
    case High => "destructive"
    case Medium => "default"
    case Low => "secondary"
    case UnknownPriority => "default"
  }

  datatype ActionButton = ActionButton(caption: string, variant: string, action: QuickAction)

  /** The action buttons: one per action, in order, when the recommendation is
      actionable and has an action list; only the first is emphasised. */
  function ActionButtons(r: Recommendation): (b: seq<ActionButton>)
    ensures !r.actionable || r.actions.None? ==> b == []
    ensures r.actionable && r.actions.Some? ==> |b| == |r.actions.value|
    ensures r.actionable && r.actions.Some? ==>
              forall i :: 0 <= i < |b| ==> b[i].action == r.actions.value[i]
                                           && b[i].caption == r.actions.value[i].caption
                                           && (b[i].variant == "default" <==> i == 0)
                                           && (b[i].variant == "outline" <==> i != 0)
  {
    if r.actionable && r.actions.Some? then
      var acts := r.actions.value;
      seq(|acts|, i requires 0 <= i < |acts| =>
        ActionButton(acts[i].caption, if i == 0 then "default" else "outline", acts[i]))
    else []
  }

  /** `n` copies of `x`. */
  function Repeat<T>(x: T, n: nat): (s: seq<T>)
    ensures |s| == n && forall i :: 0 <= i < n ==> s[i] == x
  {
    if n == 0 then [] else Repeat(x, n - 1) + [x]
  }

  class Card {
    /** The recommendation the card was last rendered with. */
    var recommendation: Recommendation
    const browser: Browser
    /** The service calls made so far, in order. */
    var calls: seq<Mutation>

    constructor(recommendation: Recommendation, browser: Browser)
      ensures this.recommendation == recommendation && this.browser == browser && calls == []
    {
      this.recommendation := recommendation;
      this.browser := browser;
      calls := [];
    }

    /** A render with the recommendation `r`, and the effect after it. The
        effect depends on `markViewed`, a new object on every render, so it
        runs after each one: a recommendation still pending is marked viewed
        again, one that is not is left alone. */
    method Render(r: Recommendation)
      modifies this
      ensures recommendation == r
      ensures r.status == Pending ==> calls == old(calls) + [MarkViewed(r.id)]
      ensures r.status != Pending ==> calls == old(calls)
    {
      recommendation := r;
      if r.status == Pending {
        calls := calls + [MarkViewed(r.id)];
      }
    }

    /** `handleQuickAction`: marks the recommendation acted, leaves the
        prefilled values as JSON in local storage when there are any, and
        goes to the action's page. */
    method HandleQuickAction(action: QuickAction)
      modifies this, browser
      ensures recommendation == old(recommendation)
      ensures calls == old(calls) + [MarkActed(recommendation.id)]
      ensures action.prefilledData.Some? ==>
                browser.storage == old(browser.storage)[ActionKey := Stringify(action.prefilledData.value)]
      ensures action.prefilledData.None? ==> browser.storage == old(browser.storage)
      ensures browser.routes == old(browser.routes) + [action.path]
    {
      calls := calls + [MarkActed(recommendation.id)];
      if action.prefilledData.Some? {
        browser.SetItem(ActionKey, Stringify(action.prefilledData.value));
      }
      browser.Push(action.path);
    }

    /** `handleDismiss`: only the dismiss call; storage and route stay. */
    method HandleDismiss()
      modifies this
      ensures recommendation == old(recommendation)
      ensures calls == old(calls) + [MarkDismissed(recommendation.id)]
    {
      calls := calls + [MarkDismissed(recommendation.id)];
    }
  }

  /** A card rendered `renders` times with a recommendation and then
      `later` times with it marked viewed (as the refetched list brings it),
      after which one of its actions is used: the recommendation is reported
      viewed once per render while it was pending, then acted, and the
      prefilled values read back unchanged from local storage. */
  method ShowThenAct(r: Recommendation, renders: nat, later: nat, action: QuickAction, browser: Browser)
    returns (calls: seq<Mutation>)
    requires 0 < renders
    requires action.prefilledData.Some? && DistinctKeys(action.prefilledData.value)
    modifies browser
    ensures calls == Repeat(MarkViewed(r.id), if r.status == Pending then renders else 0) + [MarkActed(r.id)]
    ensures ActionKey in browser.storage && Parse(browser.storage[ActionKey]) == action.prefilledData
  {
    var card := new Card(r, browser);
    var viewed := if r.status == Pending then r.(status := Viewed) else r;
    var i := 0;
    while i < renders + later
      invariant 0 <= i <= renders + later
      invariant card.browser == browser
      invariant card.calls == Repeat(MarkViewed(r.id), if r.status == Pending then (if i < renders then i else renders) else 0)
      invariant card.recommendation.id == r.id
    {
      card.Render(if i < renders then r else viewed);
      i := i + 1;
    }
    card.HandleQuickAction(action);
    calls := card.calls;
    ParseStringify(action.prefilledData.value);
  }
}

=== FILE: recovery_form.dfy ===
/** The password-recovery form: the new password and its confirmation. */
module RecoveryForm {
  import opened Strings
  import opened FormState
  import ChangePassword

  datatype RecoveryValues = RecoveryValues(password: string, passwordConfirmation: string)

  /** The characters `[@$!%*?&.]` matches. */
  predicate IsRecoverySymbol(c: char) {
    c == '@' || c == '$' || c == '!' || c == '%' || c == '*' || c == '?' || c == '&' || c == '.'
  }

  /** The characters `[A-Za-z\d@$!%*?&.]` matches. */
  predicate IsAllowed(c: char) {
    IsUpper(c) || IsLower(c) || IsDigit(c) || IsRecoverySymbol(c)
  }

  predicate HasRecoverySymbol(s: string) { exists i :: 0 <= i < |s| && IsRecoverySymbol(s[i]) }

  /** The anchored pattern: one of each of the four classes, at least eight
      characters, and nothing outside the allowed characters. */
  predicate MatchesPattern(p: string) {
    HasLower(p) && HasUpper(p) && HasDigit(p) && HasRecoverySymbol(p)
    && |p| >= 8 && forall i :: 0 <= i < |p| ==> IsAllowed(p[i])
  }

  const Mismatch := "Las contraseñas no coinciden"
  const TooShort := "La contraseña debe tener como mínimo 8 carácteres"
  const PatternMessage := "La contraseña debe contener al menos una letra mayúscula, una letra minúscula, un número y un símbolo especial"
  const ConfirmationRequired := "La contraseña de confirmación es requerida"

  /** The recovery schema: the length and the pattern are reported
      separately; the refinement always runs and reports on the confirmation. */
  function RecoveryIssues(v: RecoveryValues): seq<Issue> {
    (if |v.password| < 8 then [Issue("password", TooShort)] else [])
    + (if !MatchesPattern(v.password) then [Issue("password", PatternMessage)] else [])
    + (if v.passwordConfirmation == [] then [Issue("passwordConfirmation", ConfirmationRequired)] else [])
    + (if v.password != v.passwordConfirmation then [Issue("passwordConfirmation", Mismatch)] else [])
  }

  /** The form starts empty. */
  const Defaults := RecoveryValues("", "")

  /** The form is accepted exactly when the password matches the pattern and
      the confirmation repeats it. */
  lemma RecoveryIssuesExactly(v: RecoveryValues)
    ensures RecoveryIssues(v) == [] <==> MatchesPattern(v.password) && v.passwordConfirmation == v.password
  {
  }

  /** The empty starting form is not accepted. */
  lemma DefaultsRejected()
    ensures |RecoveryIssues(Defaults)| == 3
  {
  }

  /** A password shorter than eight characters fails both the length and
      the pattern check. */
  lemma ShortRejected(v: RecoveryValues)
    requires |v.password| < 8
    ensures |RecoveryIssues(v)| >= 2
  {
  }

  /** One character outside the allowed ones (a space, '#', an accented
      letter) is enough to reject the password. */
  lemma ForeignCharacterRejected(v: RecoveryValues, i: nat)
    requires i < |v.password| && !IsAllowed(v.password[i])
    ensures RecoveryIssues(v) != []
  {
    assert !MatchesPattern(v.password);
  }

  /** A password the recovery form accepts is also one the change-password
      form accepts (below 101 characters), and the strength meter shows it
      as "Fuerte": every recovery symbol is one of the meter's special characters. */
  lemma RecoveryPasswordIsStrong(p: string)
    requires MatchesPattern(p)
    ensures ChangePassword.Strength(p) == "Fuerte"
    ensures |p| <= 100 ==> ChangePassword.NewPasswordIssues(p) == []
  {
    var i :| 0 <= i < |p| && IsRecoverySymbol(p[i]);
    assert ChangePassword.IsSpecial(p[i]);
    assert ChangePassword.HasSpecial(p);
    ChangePassword.NewPasswordIssuesExactly(p);
  }
}

=== FILE: report_create_view.dfy ===
/** The "Crear Reporte" page: the period read from the query string, the
    preview request, the download of the previewed report and the way back to
    the form. */
module ReportCreateView {
  import opened Wrappers
  import opened Calendar
  import opened DateText
  import opened Reports
  import opened PeriodSelector
  import opened ReportPreviewData
  import opened ReportForm

  /** The period built from the query string. A date the browser cannot read is
      `None` (an `Invalid Date`). */
  datatype QueryPeriod = QueryPeriod(startDate: Option<Date>, endDate: Option<Date>, kind: PeriodType, caption: string)

  /** The request a download sends: the previewed type and filters, the chosen format. */
  datatype DownloadRequest = DownloadRequest(kind: ReportType, format: ReportFormat, filters: ReportFilters)

  /** What the page shows under its header. The form shows the period it
      was mounted with: its `useState` reads `initialPeriod` only then. */
  datatype Screen =
    | FormScreen(mountedWith: Option<QueryPeriod>)
    | PreviewScreen(data: Data, kind: ReportType, period: PeriodRange)

  /** `searchParams.get(key)` read as a truthy string. */
  function Param(params: map<string, string>, key: string): Option<string> {
    if key in params && params[key] != [] then Some(params[key]) else None
  }

  /** The query-string period: present only when both dates are, each read
      with `new Date` in the zone `zone`; the type is `"custom"` and the
      caption "Período personalizado" where they are missing. */
  function QueryPeriodOf(params: map<string, string>, zone: UtcOffset): (q: Option<QueryPeriod>)
    ensures q.Some? <==> Param(params, "startDate").Some? && Param(params, "endDate").Some?
    ensures q.Some? ==> q.value.startDate == LocalDay(params["startDate"], zone)
                        && q.value.endDate == LocalDay(params["endDate"], zone)
    ensures q.Some? ==> (q.value.startDate.Some? <==> ParseDay(params["startDate"]).Some?)
                        && (q.value.endDate.Some? <==> ParseDay(params["endDate"]).Some?)
    ensures q.Some? && Param(params, "type").None? ==> q.value.kind == Custom
    ensures q.Some? && Param(params, "type").Some? ==> PeriodCode(q.value.kind) == params["type"]
    ensures q.Some? && Param(params, "label").None? ==> q.value.caption == "Período personalizado"
    ensures q.Some? && Param(params, "label").Some? ==> q.value.caption == params["label"]
  {
    var start, end := Param(params, "startDate"), Param(params, "endDate");
    if start.None? || end.None? then None
    else
      var kind := if Param(params, "type").Some? then ParsePeriodCode(params["type"]) else Custom;
      var caption := if Param(params, "label").Some? then params["label"] else "Período personalizado";
      Some(QueryPeriod(LocalDay(start.value, zone), LocalDay(end.value, zone), kind, caption))
  }

  /** The query string that carries a period: its days as `yyyy-MM-dd`, its
      type code and its caption. */
  function PeriodQuery(p: PeriodRange): map<string, string>
    requires Valid(p.startDate) && Valid(p.endDate)
  {
    map["startDate" := IsoDate(p.startDate), "endDate" := IsoDate(p.endDate),
        "type" := PeriodCode(p.kind), "label" := p.caption]
  }

  /** The page reads each day of such a query string with `new Date`, and the
      type and caption as they were written. */
  lemma PeriodQueryRead(p: PeriodRange, zone: UtcOffset)
    requires Valid(p.startDate) && 0 <= p.startDate.year < 10000
    requires Valid(p.endDate) && 0 <= p.endDate.year < 10000
    requires !p.kind.Unlisted? && p.caption != []
    ensures QueryPeriodOf(PeriodQuery(p), zone)
              == Some(QueryPeriod(LocalDay(IsoDate(p.startDate), zone), LocalDay(IsoDate(p.endDate), zone), p.kind, p.caption))
  {
    var params := PeriodQuery(p);
    ParseDayIsoDate(p.startDate);
    ParseDayIsoDate(p.endDate);
    PeriodCodeRoundTrip(p.kind);
    assert PeriodCode(p.kind) != [] by {
      match p.kind
      case CurrentMonth =>
      case LastMonth =>
      case LastThreeMonths =>
      case LastSixMonths =>
      case CurrentYear =>
      case Custom =>
    }
    assert Param(params, "startDate") == Some(IsoDate(p.startDate));
    assert Param(params, "endDate") == Some(IsoDate(p.endDate));
    assert Param(params, "type") == Some(PeriodCode(p.kind));
    assert Param(params, "label") == Some(p.caption);
  }

  /** A period written into the query string reaches the page with that type
      and caption; its days arrive unchanged at or east of UTC, and each one
      day early west of UTC, where `new Date` puts the UTC midnight of a bare
      day on the local day before. */
  lemma QueryPeriodRoundTrip(p: PeriodRange, zone: UtcOffset)
    requires Valid(p.startDate) && 0 <= p.startDate.year < 10000
    requires Valid(p.endDate) && 0 <= p.endDate.year < 10000
    requires !p.kind.Unlisted? && p.caption != []
    ensures QueryPeriodOf(PeriodQuery(p), zone)
              == Some(QueryPeriod(Some(if zone < 0 then PrevDay(p.startDate) else p.startDate),
                                  Some(if zone < 0 then PrevDay(p.endDate) else p.endDate), p.kind, p.caption))
    ensures (QueryPeriodOf(PeriodQuery(p), zone) == Some(QueryPeriod(Some(p.startDate), Some(p.endDate), p.kind, p.caption)))
              <==> zone >= 0
  {
    PeriodQueryRead(p, zone);
    LocalIsoDate(p.startDate, zone);
    LocalIsoDate(p.endDate, zone);
  }

  class CreateView {
    const apiUrl: string
    const userId: Option<string>
    var showPreview: bool
    var previewData: Option<Data>
    var reportConfig: Option<PreviewConfig>
    var initialPeriod: Option<QueryPeriod>
    /** The `initialPeriod` the mounted form read when it was mounted. */
    var formMountedWith: Option<QueryPeriod>
    var downloads: seq<DownloadRequest>
    var tabs: seq<string>

    /** The preview is only ever shown with the data and the configuration it
        was built from (the page dereferences `reportConfig!`). */
    predicate Valid()
      reads this
    {
      showPreview ==> previewData.Some? && reportConfig.Some?
    }

    constructor(apiUrl: string, userId: Option<string>)
      ensures Valid() && this.apiUrl == apiUrl && this.userId == userId
      ensures !showPreview && previewData.None? && reportConfig.None? && initialPeriod.None?
      ensures formMountedWith.None?
      ensures downloads == [] && tabs == []
    {
      this.apiUrl := apiUrl;
      this.userId := userId;
      showPreview := false;
      previewData := None;
      reportConfig := None;
      initialPeriod := None;
      formMountedWith := None;
      downloads := [];
      tabs := [];
    }

    /** The query-string effect, run after the first render: sets the
        initial period only when both dates are given. A form already mounted
        keeps the period it started with. */
    method InitFromQuery(params: map<string, string>, zone: UtcOffset)
      requires Valid()
      modifies this
      ensures Valid()
      ensures initialPeriod == if QueryPeriodOf(params, zone).Some? then QueryPeriodOf(params, zone) else old(initialPeriod)
      ensures showPreview == old(showPreview) && previewData == old(previewData) && reportConfig == old(reportConfig)
      ensures formMountedWith == old(formMountedWith)
      ensures downloads == old(downloads) && tabs == old(tabs)
    {
      var q := QueryPeriodOf(params, zone);
      if q.Some? {
        initialPeriod := q;
      }
    }

    /** `handlePreview(config)`: stores the configuration first, then shows the
        preview only when the data comes back. */
    method HandlePreview(config: PreviewConfig, now: Date, zone: UtcOffset)
      requires Valid()
      modifies this
      ensures Valid()
      ensures reportConfig == Some(config)
      ensures MutationFn(userId, config.kind, config.filters, now, zone).Success? ==>
                showPreview && previewData == Some(MutationFn(userId, config.kind, config.filters, now, zone).value)
      ensures MutationFn(userId, config.kind, config.filters, now, zone).Failure? ==>
                showPreview == old(showPreview) && previewData == old(previewData)
      ensures initialPeriod == old(initialPeriod) && formMountedWith == old(formMountedWith)
      ensures downloads == old(downloads) && tabs == old(tabs)
    {
      reportConfig := Some(config);
      var result := MutationFn(userId, config.kind, config.filters, now, zone);
      if result.Success? {
        previewData := Some(result.value);
        showPreview := true;
      }
    }

    /** `handleDownload(format)`: nothing without a stored configuration; a tab
        opens only for a report the backend created (`generated`). */
    method HandleDownload(format: ReportFormat, generated: Option<string>)
      requires Valid()
      modifies this
      ensures Valid()
      ensures reportConfig.None? ==> downloads == old(downloads) && tabs == old(tabs)
      ensures reportConfig.Some? ==>
                downloads == old(downloads) + [DownloadRequest(reportConfig.value.kind, format, reportConfig.value.filters)]
                && tabs == old(tabs) + (if generated.Some? then [apiUrl + "/reports/" + generated.value] else [])
      ensures showPreview == old(showPreview) && previewData == old(previewData)
      ensures reportConfig == old(reportConfig) && initialPeriod == old(initialPeriod)
      ensures formMountedWith == old(formMountedWith)
    {
      if reportConfig.None? {
        return;
      }
      downloads := downloads + [DownloadRequest(reportConfig.value.kind, format, reportConfig.value.filters)];
      if generated.Some? {
        tabs := tabs + [apiUrl + "/reports/" + generated.value];
      }
    }

    /** `handleCancelPreview`. Leaving the preview mounts a new form, which
        reads the initial period as it now stands. */
    method HandleCancel()
      requires Valid()
      modifies this
      ensures Valid()
      ensures !showPreview && previewData.None? && reportConfig.None?
      ensures formMountedWith == if old(showPreview) then initialPeriod else old(formMountedWith)
      ensures initialPeriod == old(initialPeriod) && downloads == old(downloads) && tabs == old(tabs)
    {
      if showPreview {
        formMountedWith := initialPeriod;
      }
      showPreview := false;
      previewData := None;
      reportConfig := None;
    }

    /** The form while no preview is shown, the preview otherwise. */
    function CurrentScreen(): (s: Screen)
      requires Valid()
      reads this
      ensures s.FormScreen? <==> !showPreview
      ensures s.FormScreen? ==> s.mountedWith == formMountedWith
      ensures s.PreviewScreen? ==> Some(s.data) == previewData && s.kind == reportConfig.value.kind
                                   && s.period == reportConfig.value.period
    {
      if showPreview then PreviewScreen(previewData.value, reportConfig.value.kind, reportConfig.value.period)
      else FormScreen(formMountedWith)
    }

    /** The heading names the screen below it. */
    function Title(): (t: string)
      requires Valid()
      reads this
      ensures t == "Vista Previa del Reporte" <==> CurrentScreen().PreviewScreen?
      ensures t == "Generar Nuevo Reporte" <==> CurrentScreen().FormScreen?
    {
      if showPreview then "Vista Previa del Reporte" else "Generar Nuevo Reporte"
    }
  }

  /** A period in the query string does not reach the form the page first
      mounts, which starts on the current month; it reaches the form mounted
      when a successful preview is cancelled. */
  method QueryReachesOnlyRemountedForm(params: map<string, string>, config: PreviewConfig, now: Date, zone: UtcOffset)
    returns (first: Screen, afterCancel: Screen)
    requires QueryPeriodOf(params, zone).Some?
    requires config.kind == Comprehensive ==> BoundsReadable(config.filters)
    ensures first == FormScreen(None)
    ensures afterCancel == FormScreen(QueryPeriodOf(params, zone))
  {
    var view := new CreateView("https://api", Some("u1"));
    view.InitFromQuery(params, zone);
    first := view.CurrentScreen();
    view.HandlePreview(config, now, zone);
    view.HandleCancel();
    afterCancel := view.CurrentScreen();
  }

  /** A preview followed by a download asks for the previewed report in the
      chosen format, and a cancel returns to the form, after which a download
      does nothing. */
  method PreviewDownloadCancel(config: PreviewConfig, format: ReportFormat, now: Date, zone: UtcOffset)
    returns (previewed: bool, requested: seq<DownloadRequest>, afterCancel: seq<DownloadRequest>)
    ensures requested == [DownloadRequest(config.kind, format, config.filters)]
    ensures afterCancel == requested
    ensures previewed == MutationFn(Some("u1"), config.kind, config.filters, now, zone).Success?
  {
    var view := new CreateView("https://api", Some("u1"));
    view.HandlePreview(config, now, zone);
    previewed := view.showPreview;
    view.HandleDownload(format, None);
    requested := view.downloads;
    view.HandleCancel();
    assert view.CurrentScreen().FormScreen?;
    view.HandleDownload(format, None);
    afterCancel := view.downloads;
  }
}

=== FILE: report_form.dfy ===
/** The report form: the values `reportFormSchema` accepts and their defaults,
    the filter record `onSubmit` assembles key by key, the generate request and
    the tab it opens, the period the form starts on, the preview configuration
    it hands to its parent, and its select options and buttons. */
module ReportForm {
  import opened Wrappers
  import opened Calendar
  import opened Numerals
  import opened DateText
  import opened Reports
  import opened PeriodSelector
  import opened ReportPreviewData

  /** The values the schema lets through; `z.coerce.date()` has already turned
      the two dates into days. */
  datatype FormValues = FormValues(
    kind: ReportType, format: ReportFormat, startDate: Option<Date>, endDate: Option<Date>,
    categoryId: Option<string>, goalId: Option<string>)

  /** A date the schema accepted is a real day. */
  predicate DatesValid(v: FormValues) {
    (v.startDate.Some? ==> Valid(v.startDate.value)) && (v.endDate.Some? ==> Valid(v.endDate.value))
  }

  /** `defaultValues`. */
  const Defaults: FormValues := FormValues(GoalsByStatus, Pdf, None, None, Some(""), Some(""))

  /** A string that JavaScript finds truthy. */
  predicate Present(s: Option<string>) {
    s.Some? && s.value != []
  }

  /** `{ type, format, filters }` as sent to the generate mutation. */
  datatype ReportRequest = ReportRequest(kind: ReportType, format: ReportFormat, filters: map<string, string>)

  /** What the filter record holds for a user and the submitted values: always
      the user (empty without one), each date as the ISO timestamp of its local
      midnight in the zone `zone` only when set,
      the category only when non-empty, the goal only when non-empty and not
      `"none"`, and nothing else. */
  predicate FiltersOf(userId: Option<string>, values: FormValues, filters: map<string, string>, zone: UtcOffset)
    requires DatesValid(values)
  {
    && filters.Keys <= {"userId", "startDate", "endDate", "categoryId", "goalId"}
    && "userId" in filters && filters["userId"] == (if Present(userId) then userId.value else "")
    && ("startDate" in filters <==> values.startDate.Some?)
    && ("startDate" in filters ==> filters["startDate"] == IsoTimestamp(values.startDate.value, zone))
    && ("endDate" in filters <==> values.endDate.Some?)
    && ("endDate" in filters ==> filters["endDate"] == IsoTimestamp(values.endDate.value, zone))
    && ("categoryId" in filters <==> Present(values.categoryId))
    && ("categoryId" in filters ==> filters["categoryId"] == values.categoryId.value)
    && ("goalId" in filters <==> Present(values.goalId) && values.goalId.value != "none")
    && ("goalId" in filters ==> filters["goalId"] == values.goalId.value)
  }

  /** The description above fixes the record completely. */
  lemma FiltersOfUnique(userId: Option<string>, values: FormValues, f: map<string, string>, g: map<string, string>, zone: UtcOffset)
    requires DatesValid(values)
    requires FiltersOf(userId, values, f, zone) && FiltersOf(userId, values, g, zone)
    ensures f == g
  {
    forall k | k in f ensures k in g && f[k] == g[k] {
      assert k in {"userId", "startDate", "endDate", "categoryId", "goalId"};
    }
    forall k | k in g ensures k in f {
      assert k in {"userId", "startDate", "endDate", "categoryId", "goalId"};
    }
  }

  /** Submitting the defaults sends nothing but the user. */
  lemma DefaultsSendOnlyUser(userId: Option<string>, f: map<string, string>, zone: UtcOffset)
    requires FiltersOf(userId, Defaults, f, zone)
    ensures f.Keys == {"userId"}
  {
  }

  /** A picked day whose timestamp has a four-digit UTC day. */
  predicate Writable(d: Option<Date>) {
    d.Some? && Valid(d.value) && d.value.year < 10000 && 0 <= PrevDay(d.value).year
  }

  /** The filter record of `onSubmit`, built one key at a time, in the
      browser's zone `zone`. The backend, reading each timestamp by its UTC
      day, gets the day picked in the form at or west of UTC, and the day
      before east of UTC. */
  method BuildFilters(userId: Option<string>, values: FormValues, zone: UtcOffset) returns (filters: map<string, string>)
    requires DatesValid(values)
    ensures FiltersOf(userId, values, filters, zone)
    ensures Writable(values.startDate) ==>
              ParseDay(filters["startDate"]) == Some(if zone <= 0 then values.startDate.value else PrevDay(values.startDate.value))
              && (ParseDay(filters["startDate"]) == values.startDate <==> zone <= 0)
    ensures Writable(values.endDate) ==>
              ParseDay(filters["endDate"]) == Some(if zone <= 0 then values.endDate.value else PrevDay(values.endDate.value))
              && (ParseDay(filters["endDate"]) == values.endDate <==> zone <= 0)
  {
    filters := map["userId" := if Present(userId) then userId.value else ""];
    if values.startDate.Some? {
      filters := filters["startDate" := IsoTimestamp(values.startDate.value, zone)];
      if Writable(values.startDate) {
        ParseDayTimestamp(values.startDate.value, zone);
      }
    }
    if values.endDate.Some? {
      filters := filters["endDate" := IsoTimestamp(values.endDate.value, zone)];
      if Writable(values.endDate) {
        ParseDayTimestamp(values.endDate.value, zone);
      }
    }
    if Present(values.categoryId) {
      filters := filters["categoryId" := values.categoryId.value];
    }
    if Present(values.goalId) && values.goalId.value != "none" {
      filters := filters["goalId" := values.goalId.value];
    }
  }

  /** `useReportForm`: the requests handed to the generate mutation and the
      tabs `window.open` was asked for, in order. */
  class ReportFormHook {
    const apiUrl: string
    const userId: Option<string>
    var submitted: seq<ReportRequest>
    var tabs: seq<string>

    constructor(apiUrl: string, userId: Option<string>)
      ensures this.apiUrl == apiUrl && this.userId == userId
      ensures submitted == [] && tabs == []
    {
      this.apiUrl := apiUrl;
      this.userId := userId;
      submitted := [];
      tabs := [];
    }

    /** `onSubmit(values)`. `generated` is the id of the report the backend
        created, or `None` when the mutation fails; only a success opens a tab. */
    method OnSubmit(values: FormValues, generated: Option<string>, zone: UtcOffset) returns (request: ReportRequest)
      requires DatesValid(values)
      modifies this
      ensures request.kind == values.kind && request.format == values.format
      ensures FiltersOf(userId, values, request.filters, zone)
      ensures submitted == old(submitted) + [request]
      ensures tabs == old(tabs) + (if generated.Some? then [apiUrl + "/reports/" + generated.value] else [])
    {
      var filters := BuildFilters(userId, values, zone);
      request := ReportRequest(values.kind, values.format, filters);
      submitted := submitted + [request];
      if generated.Some? {
        tabs := tabs + [apiUrl + "/reports/" + generated.value];
      }
    }
  }

  /** `initialPeriod || { …current month… }`. */
  function InitialPeriod(given: Option<PeriodRange>, now: Date): (r: PeriodRange)
    requires Valid(now)
    ensures given.Some? ==> r == given.value
    ensures given.None? ==> r.kind == CurrentMonth && Valid(r.startDate) && Valid(r.endDate)
  {
    if given.Some? then given.value
    else PeriodRange(StartOfMonth(now), EndOfMonth(now), CurrentMonth, "Mes actual")
  }

  /** Without a period from its parent the form starts on exactly what the
      selector's "Mes actual" preset gives. */
  lemma InitialPeriodIsCurrentMonth(now: Date)
    requires Valid(now)
    ensures var r := InitialPeriod(None, now);
            (r.startDate, r.endDate) == PresetRange(CurrentMonth, now)
            && r.caption == PresetLabel(CurrentMonth)
            && InRange(now, r.startDate, r.endDate)
  {
    PresetContainsToday(CurrentMonth, now);
  }

  /** The form's selected period: set on creation, then replaced by whatever
      the period selector emits. */
  class ReportFormView {
    var selectedPeriod: PeriodRange

    constructor(given: Option<PeriodRange>, now: Date)
      requires Valid(now)
      ensures selectedPeriod == InitialPeriod(given, now)
    {
      selectedPeriod := InitialPeriod(given, now);
    }

    /** `setSelectedPeriod`, the selector's `onChange`. */
    method SetSelectedPeriod(p: PeriodRange)
      modifies this
      ensures selectedPeriod == p
    {
      selectedPeriod := p;
    }
  }

  /** What "Vista Previa" hands to `onPreview`. */
  datatype PreviewConfig = PreviewConfig(kind: ReportType, filters: ReportFilters, period: PeriodRange)

  /** The preview configuration: the form's type, the period's days as
      `yyyy-MM-dd`, the category as it stands (even `""`), no user (the form has
      no `userId` field), and the period itself. */
  function PreviewConfigOf(values: FormValues, period: PeriodRange): (c: PreviewConfig)
    requires Valid(period.startDate) && Valid(period.endDate)
    ensures c.kind == values.kind && c.period == period
    ensures c.filters.categoryId == values.categoryId && c.filters.userId.None?
    ensures c.filters.startDate.Some? && c.filters.endDate.Some?
  {
    PreviewConfig(values.kind,
                  ReportFilters(Some(IsoDate(period.startDate)), Some(IsoDate(period.endDate)),
                                values.categoryId, None),
                  period)
  }

  /** The configuration's dates name the period's own days. The preview reads
      them with `new Date`, which gives those days at or east of UTC and the
      day before each west of UTC; either way every date is readable, so for a
      signed-in user every preview request has its data. */
  lemma PreviewConfigReadable(values: FormValues, period: PeriodRange, userId: Option<string>, now: Date, zone: UtcOffset)
    requires Valid(period.startDate) && 0 <= period.startDate.year < 10000
    requires Valid(period.endDate) && 0 <= period.endDate.year < 10000
    ensures var c := PreviewConfigOf(values, period);
            ParseDay(c.filters.startDate.value) == Some(period.startDate)
            && ParseDay(c.filters.endDate.value) == Some(period.endDate)
    ensures var c := PreviewConfigOf(values, period);
            LocalDay(c.filters.startDate.value, zone) == Some(if zone < 0 then PrevDay(period.startDate) else period.startDate)
            && LocalDay(c.filters.endDate.value, zone) == Some(if zone < 0 then PrevDay(period.endDate) else period.endDate)
    ensures var c := PreviewConfigOf(values, period);
            (LocalDay(c.filters.startDate.value, zone) == Some(period.startDate)) <==> zone >= 0
    ensures Present(userId) ==> MutationFn(userId, values.kind, PreviewConfigOf(values, period).filters, now, zone).Success?
  {
    var c := PreviewConfigOf(values, period);
    assert c.filters == ReportFilters(Some(IsoDate(period.startDate)), Some(IsoDate(period.endDate)), values.categoryId, None);
    ParseDayIsoDate(period.startDate);
    ParseDayIsoDate(period.endDate);
    LocalIsoDate(period.startDate, zone);
    LocalIsoDate(period.endDate, zone);
    FormDatesReadable(period.startDate, period.endDate, None, values.categoryId, now, zone);
  }

  /** `Object.entries(REPORT_TYPE_LABELS).map(([value, label]) => ({ value, label }))`. */
  function TypeOptions(): (opts: seq<(string, string)>)
    ensures |opts| == |AllTypes|
    ensures forall i :: 0 <= i < |opts| ==> opts[i] == (TypeCode(AllTypes[i]), TypeLabel(AllTypes[i]))
  {
    seq(|AllTypes|, i requires 0 <= i < |AllTypes| => (TypeCode(AllTypes[i]), TypeLabel(AllTypes[i])))
  }

  /** The same for `REPORT_FORMAT_LABELS`. */
  function FormatOptions(): (opts: seq<(string, string)>)
    ensures |opts| == |AllFormats|
    ensures forall i :: 0 <= i < |opts| ==> opts[i] == (FormatCode(AllFormats[i]), FormatLabel(AllFormats[i]))
  {
    seq(|AllFormats|, i requires 0 <= i < |AllFormats| => (FormatCode(AllFormats[i]), FormatLabel(AllFormats[i])))
  }

  /** Each type and each format is offered by exactly one option. */
  lemma OneOptionEach(t: ReportType, f: ReportFormat)
    ensures exists i :: 0 <= i < |TypeOptions()| && TypeOptions()[i].0 == TypeCode(t)
    ensures forall i, j :: 0 <= i < j < |TypeOptions()| ==> TypeOptions()[i].0 != TypeOptions()[j].0
    ensures exists i :: 0 <= i < |FormatOptions()| && FormatOptions()[i].0 == FormatCode(f)
    ensures forall i, j :: 0 <= i < j < |FormatOptions()| ==> FormatOptions()[i].0 != FormatOptions()[j].0
  {
    Enumerations();
    assert t in AllTypes && f in AllFormats;
    var i :| 0 <= i < |AllTypes| && AllTypes[i] == t;
    assert TypeOptions()[i].0 == TypeCode(t);
    var k :| 0 <= k < |AllFormats| && AllFormats[k] == f;
    assert FormatOptions()[k].0 == FormatCode(f);
    forall i, j | 0 <= i < j < |AllTypes| ensures TypeOptions()[i].0 != TypeOptions()[j].0 {
      LabelsDistinct(AllTypes[i], AllTypes[j], f, f);
    }
    forall i, j | 0 <= i < j < |AllFormats| ensures FormatOptions()[i].0 != FormatOptions()[j].0 {
      LabelsDistinct(t, t, AllFormats[i], AllFormats[j]);
    }
  }

  datatype Category = Category(id: int, name: string)

  /** The category select: one option per category, its id as text. */
  function CategoryOptions(categories: seq<Category>): (opts: seq<(string, string)>)
    ensures |opts| == |categories|
    ensures forall i :: 0 <= i < |opts| ==> opts[i] == (IntText(categories[i].id), categories[i].name)
  {
    seq(|categories|, i requires 0 <= i < |categories| => (IntText(categories[i].id), categories[i].name))
  }

  /** The two buttons: `preview` is absent when the parent gives no `onPreview`,
      and otherwise says whether it is disabled. */
  datatype Buttons = Buttons(preview: Option<bool>, submitDisabled: bool, submitCaption: string)

  /** The buttons for `pending`, the `isPending` of the form's own
      `useGenerateReport()` instance. Submitting goes through the separate
      instance inside `useReportForm`, so that request never sets `pending`. */
  function FormButtons(hasOnPreview: bool, pending: bool): (b: Buttons)
    ensures b.preview.Some? <==> hasOnPreview
    ensures b.preview.Some? ==> b.preview.value == pending
    ensures b.submitDisabled == pending
    ensures b.submitCaption == if pending then "Generando..." else "Generar Reporte"
  {
    Buttons(if hasOnPreview then Some(pending) else None, pending,
            if pending then "Generando..." else "Generar Reporte")
  }
}

=== FILE: report_preview.dfy ===
/** The report preview: the chart series drawn from a payload, the summary
    metrics and their display, the detail table with its status labels, the
    charts each report type shows, and the page as a whole. */
module ReportPreview {
  import opened Wrappers
  import opened Numerals
  import opened Calendar
  import opened DateText
  import opened Ranking
  import opened Reports
  import opened PeriodSelector
  import opened ReportPreviewData

  /** `data?.key` when it is an array. */
  function ListField(data: Option<Data>, key: string): (r: Option<seq<Data>>)
    ensures r.Some? <==> Field(data, key).Some? && Field(data, key).value.DList?
  {
    var v := Field(data, key);
    if v.Some? && v.value.DList? then Some(v.value.items) else None
  }

  // ----- Chart series -----

  datatype PieEntry = PieEntry(name: Option<Data>, value: Option<Data>, percentage: Option<Data>)
  datatype TrendPoint = TrendPoint(month: Option<Data>, value: Option<Data>)
  datatype MonthlyPoint = MonthlyPoint(month: Option<Data>, income: Option<Data>, expenses: Option<Data>)

  const Zero: Option<Data> := Some(DNum(0.0))

  /** `prepareCategoryData`: one slice per top category, in order, or nothing
      when the payload has no list of categories. */
  function PrepareCategoryData(data: Option<Data>): (r: seq<PieEntry>)
    ensures ListField(data, "topCategories").None? ==> r == []
    ensures ListField(data, "topCategories").Some? ==>
              var cs := ListField(data, "topCategories").value;
              |r| == |cs| && forall i :: 0 <= i < |r| ==>
                r[i].name == Field(Some(cs[i]), "categoryName") && r[i].value == Field(Some(cs[i]), "totalAmount")
                && r[i].percentage == Field(Some(cs[i]), "percentage")
  {
    match ListField(data, "topCategories")
    case None => []
    case Some(cs) =>
      seq(|cs|, i requires 0 <= i < |cs| =>
        PieEntry(Field(Some(cs[i]), "categoryName"), Field(Some(cs[i]), "totalAmount"), Field(Some(cs[i]), "percentage")))
  }

  /** `prepareTrendData`: one point per monthly trend, its total as the value. */
  function PrepareTrendData(data: Option<Data>): (r: seq<TrendPoint>)
    ensures ListField(data, "monthlyTrends").None? ==> r == []
    ensures ListField(data, "monthlyTrends").Some? ==>
              var ts := ListField(data, "monthlyTrends").value;
              |r| == |ts| && forall i :: 0 <= i < |r| ==>
                r[i] == TrendPoint(Field(Some(ts[i]), "month"), Field(Some(ts[i]), "totalAmount"))
  {
    match ListField(data, "monthlyTrends")
    case None => []
    case Some(ts) =>
      seq(|ts|, i requires 0 <= i < |ts| => TrendPoint(Field(Some(ts[i]), "month"), Field(Some(ts[i]), "totalAmount")))
  }

  /** One bar of `prepareMonthlyData` as written: a trend's total counts as
      income only in an income report and as expense only in an expense report. */
  function MonthlyPointAsWritten(trend: Data, t: ReportType): MonthlyPoint {
    MonthlyPoint(Field(Some(trend), "month"),
                 if t == Income then Field(Some(trend), "totalAmount") else Zero,
                 if t == Expense then Field(Some(trend), "totalAmount") else Zero)
  }

  /** `prepareMonthlyData` as written. */
  function PrepareMonthlyDataAsWritten(data: Option<Data>, t: ReportType): (r: seq<MonthlyPoint>)
    ensures ListField(data, "monthlyTrends").None? ==> r == []
    ensures ListField(data, "monthlyTrends").Some? ==>
              |r| == |ListField(data, "monthlyTrends").value|
    ensures t != Income && t != Expense ==>
              forall i :: 0 <= i < |r| ==> r[i].income == Zero && r[i].expenses == Zero
  {
    match ListField(data, "monthlyTrends")
    case None => []
    case Some(ts) => seq(|ts|, i requires 0 <= i < |ts| => MonthlyPointAsWritten(ts[i], t))
  }

  /** One bar as evidently intended: a trend that carries its own `income` and
      `expenses` (the comprehensive report's rows) is drawn from them; any other
      trend as before. */
  function MonthlyPointOf(trend: Data, t: ReportType): (p: MonthlyPoint)
    ensures Field(Some(trend), "income").Some? ==> p.income == Field(Some(trend), "income")
    ensures Field(Some(trend), "expenses").Some? ==> p.expenses == Field(Some(trend), "expenses")
    ensures Field(Some(trend), "income").None? && Field(Some(trend), "expenses").None? ==>
              p == MonthlyPointAsWritten(trend, t)
  {
    var written := MonthlyPointAsWritten(trend, t);
    MonthlyPoint(written.month,
                 if Field(Some(trend), "income").Some? then Field(Some(trend), "income") else written.income,
                 if Field(Some(trend), "expenses").Some? then Field(Some(trend), "expenses") else written.expenses)
  }

  /** The income/expense series as evidently intended. */
  function PrepareMonthlyData(data: Option<Data>, t: ReportType): (r: seq<MonthlyPoint>)
    ensures ListField(data, "monthlyTrends").None? ==> r == []
    ensures ListField(data, "monthlyTrends").Some? ==>
              var ts := ListField(data, "monthlyTrends").value;
              |r| == |ts| && forall i :: 0 <= i < |r| ==> r[i] == MonthlyPointOf(ts[i], t)
  {
    match ListField(data, "monthlyTrends")
    case None => []
    case Some(ts) => seq(|ts|, i requires 0 <= i < |ts| => MonthlyPointOf(ts[i], t))
  }

  /** On trends that carry only a total (income and expense reports) the two
      series are the same. */
  lemma MonthlyDataAgreesOnTotals(data: Option<Data>, t: ReportType)
    requires ListField(data, "monthlyTrends").Some?
    requires var ts := ListField(data, "monthlyTrends").value;
             forall i :: 0 <= i < |ts| ==> Field(Some(ts[i]), "income").None? && Field(Some(ts[i]), "expenses").None?
    ensures PrepareMonthlyData(data, t) == PrepareMonthlyDataAsWritten(data, t)
  {
  }

  /** The comprehensive payload's monthly rows (as placed by its builder). */
  lemma ComprehensiveTrendRows(filters: ReportFilters, now: Date, zone: UtcOffset)
    requires BoundsReadable(filters)
    ensures ListField(Some(ComprehensiveData(filters, now, zone).value), "monthlyTrends") == Some(ComprehensiveTrends.items)
  {
    var others := OtherSections(now);
    assert "monthlyTrends" in others && others["monthlyTrends"] == ComprehensiveTrends;
    var caption := BoundLabel(filters.startDate, "Inicio", zone).value + " - " + BoundLabel(filters.endDate, "Fin", zone).value;
    var d := ComprehensiveObject(PeriodSection(filters, now, zone, caption), PayloadSummary(), others);
    assert ComprehensiveData(filters, now, zone) == Success(d);
    assert d.fields["monthlyTrends"] == ComprehensiveTrends;
  }

  /** As written, the comprehensive report's "Resumen Financiero" chart gets two
      bars of zero, although its rows hold incomes of 3000 and 500 and expenses
      of 1200 and 1300.5. */
  lemma ComprehensiveChartBlank(filters: ReportFilters, now: Date, zone: UtcOffset)
    requires BoundsReadable(filters)
    ensures var r := PrepareMonthlyDataAsWritten(Some(ComprehensiveData(filters, now, zone).value), Comprehensive);
            |r| == 2 && forall i :: 0 <= i < 2 ==> r[i].income == Zero && r[i].expenses == Zero
  {
    ComprehensiveTrendRows(filters, now, zone);
  }

  /** The comprehensive payload's monthly rows carry nonzero incomes and expenses. */
  lemma ComprehensiveRowAmounts()
    ensures var ts := ComprehensiveTrends.items;
            |ts| == 2
            && Field(Some(ts[0]), "income") == Some(DNum(3000.0)) && Field(Some(ts[0]), "expenses") == Some(DNum(1200.0))
            && Field(Some(ts[1]), "income") == Some(DNum(500.0)) && Field(Some(ts[1]), "expenses") == Some(DNum(1300.5))
  {
  }

  /** The series the preview draws for the comprehensive report carries each
      month's own income and expenses. */
  lemma ComprehensiveChartFilled(filters: ReportFilters, now: Date, zone: UtcOffset)
    requires BoundsReadable(filters)
    ensures var r := PrepareMonthlyData(Some(ComprehensiveData(filters, now, zone).value), Comprehensive);
            |r| == 2
            && r[0].income == Some(DNum(3000.0)) && r[0].expenses == Some(DNum(1200.0))
            && r[1].income == Some(DNum(500.0)) && r[1].expenses == Some(DNum(1300.5))
  {
    ComprehensiveTrendRows(filters, now, zone);
    ComprehensiveRowAmounts();
  }

  /** The budget payload has no monthly trends, so its chart is empty either way. */
  lemma BudgetChartEmpty()
    ensures PrepareMonthlyData(Some(BudgetData()), Budget) == []
    ensures PrepareMonthlyDataAsWritten(Some(BudgetData()), Budget) == []
  {
  }

  // ----- Summary metrics -----

  /** A metric's value: a field of the payload, or a text built from one. */
  datatype MetricValue = Raw(v: Option<Data>) | Text(s: string)

  datatype Metric = Metric(caption: string, value: MetricValue)

  /** The `TypeError` thrown by `x.toFixed` on a value that is not a number. */
  const NotAFunction := "toFixed is not a function"

  /** The `TypeError` thrown by `x.toFixed` on a missing value. */
  const ReadOfUndefined := "Cannot read properties of undefined (reading 'toFixed')"

  /** `` `${x?.toFixed(1)}%` ``: a missing value reads "undefined%", and a
      value that is not a number throws. */
  function PercentText(v: Option<Data>): (s: Result<string>)
    ensures v.None? ==> s == Success("undefined%")
    ensures s.Failure? <==> v.Some? && !v.value.DNum?
    ensures s.Success? ==> |s.value| > 1 && s.value[|s.value| - 1] == '%'
  {
    match v
    case None => Success("undefined%")
    case Some(DNum(n)) => Success(Fixed1(n) + "%")
    case Some(_) => Failure(NotAFunction)
  }

  /** `` `${x.toFixed(1)}%` ``, without the optional chaining: a missing
      value throws too, and a number reads as in `PercentText`. */
  function FixedPercent(v: Option<Data>): (s: Result<string>)
    ensures s.Success? <==> v.Some? && v.value.DNum?
    ensures s.Success? ==> s == PercentText(v)
  {
    match v
    case None => Failure(ReadOfUndefined)
    case Some(DNum(n)) => Success(Fixed1(n) + "%")
    case Some(_) => Failure(NotAFunction)
  }

  /** A metric list whose last metric is a percentage text: the render throws
      with that text's error. */
  function WithPercent(first: seq<Metric>, caption: string, pct: Result<string>): (m: Result<seq<Metric>>)
    ensures m.Failure? <==> pct.Failure?
    ensures m.Success? ==> m.value == first + [Metric(caption, Text(pct.value))]
  {
    if pct.Failure? then Failure(pct.error) else Success(first + [Metric(caption, Text(pct.value))])
  }

  /** The field a type's percentage metric is read from, if it has one. */
  function PercentField(t: ReportType, d: Option<Data>): Option<Option<Data>> {
    if t in {Expense, Income, Budget, Debt} then None
    else if t == Comprehensive then Some(Field(Field(d, "financialSummary"), "savingsRate"))
    else Some(Field(d, "overallProgress"))
  }

  /** The metrics of each report type: three for expense and income reports,
      four for the others, the goal metrics for every goal or savings type.
      The render throws exactly when the percentage metric's value is there
      but is not a number. */
  function MetricsFor(t: ReportType, d: Option<Data>): (m: Result<seq<Metric>>)
    ensures m.Failure? <==> PercentField(t, d).Some? && PercentText(PercentField(t, d).value).Failure?
    ensures m.Success? ==> |m.value| == if t == Expense || t == Income then 3 else 4
    ensures m.Success? && PercentField(t, d).Some? ==>
              m.value[3].value == Text(PercentText(PercentField(t, d).value).value)
    ensures m.Success? && t == Comprehensive ==> m.value[3].caption == "Tasa de Ahorro"
  {
    match t
    case Expense =>
      Success([Metric("Total Gastos", Raw(Field(d, "totalExpenses"))), Metric("Transacciones", Raw(Field(d, "totalTransactions"))),
       Metric("Promedio", Raw(Field(d, "averageExpense")))])
    case Income =>
      Success([Metric("Total Ingresos", Raw(Field(d, "totalIncome"))), Metric("Transacciones", Raw(Field(d, "totalTransactions"))),
       Metric("Promedio", Raw(Field(d, "averageIncome")))])
    case Budget =>
      Success([Metric("Total Presupuestos", Raw(Field(d, "totalBudgets"))), Metric("Monto Total", Raw(Field(d, "totalBudgetAmount"))),
       Metric("Gastado", Raw(Field(d, "totalSpent"))), Metric("Sobre Presupuesto", Raw(Field(d, "overBudgetCount")))])
    case Debt =>
      Success([Metric("Total Deudas", Raw(Field(d, "totalDebts"))), Metric("Monto Original", Raw(Field(d, "totalOriginalAmount"))),
       Metric("Pendiente", Raw(Field(d, "totalPendingAmount"))), Metric("Vencidas", Raw(Field(d, "overdueCount")))])
    case Comprehensive =>
      var s := Field(d, "financialSummary");
      WithPercent([Metric("Ingresos", Raw(Field(s, "totalIncome"))), Metric("Gastos", Raw(Field(s, "totalExpenses"))),
                   Metric("Balance", Raw(Field(s, "netBalance")))],
                  "Tasa de Ahorro", PercentText(Field(s, "savingsRate")))
    case _ =>
      WithPercent([Metric("Total Metas", Raw(Field(d, "totalGoals"))), Metric("Completadas", Raw(Field(d, "completedGoals"))),
                   Metric("En Progreso", Raw(Field(d, "inProgressGoals")))],
                  "Progreso General", PercentText(Field(d, "overallProgress")))
  }

  /** `renderSummaryMetrics`: nothing without data; otherwise the type's
      metrics, pushed in order, or the error building them throws. */
  method SummaryMetrics(data: Option<Data>, t: ReportType) returns (metrics: Result<Option<seq<Metric>>>)
    ensures !Truthy(data) ==> metrics == Success(None)
    ensures Truthy(data) ==> (metrics.Failure? <==> MetricsFor(t, data).Failure?)
    ensures Truthy(data) && metrics.Success? ==> metrics.value == Some(MetricsFor(t, data).value)
  {
    if !Truthy(data) {
      return Success(None);
    }
    var built := MetricsFor(t, data);
    if built.Failure? {
      return Failure(built.error);
    }
    var m: seq<Metric> := [];
    var all := built.value;
    var i := 0;
    while i < |all|
      invariant 0 <= i <= |all|
      invariant m == all[..i]
    {
      m := m + [all[i]];
      i := i + 1;
    }
    assert all[..|all|] == all;
    metrics := Success(Some(m));
  }

  /** How a metric is displayed. */
  datatype Display = Currency(amount: real) | Shown(value: MetricValue) | NotAvailable

  /** A number as euros; anything else as it is, or "N/A" when falsy. */
  function MetricDisplay(v: MetricValue): (d: Display)
    ensures d.Currency? <==> v.Raw? && v.v.Some? && v.v.value.DNum?
    ensures d == NotAvailable <==> v.Raw? && !Truthy(v.v)
                                   && !(v.v.Some? && v.v.value.DNum?)
    ensures v.Text? ==> d == Shown(v)
  {
    match v
    case Raw(x) =>
      if x.Some? && x.value.DNum? then Currency(x.value.n)
      else if Truthy(x) then Shown(v)
      else NotAvailable
    case Text(_) => Shown(v)
  }

  /** The metrics render, and none of them reads "N/A". */
  predicate AllAvailable(m: Result<seq<Metric>>) {
    m.Success? && forall i :: 0 <= i < |m.value| ==> MetricDisplay(m.value[i].value) != NotAvailable
  }

  /** The five goal and savings types share one set of metrics. */
  lemma GoalTypesShareMetrics(t: ReportType, d: Option<Data>)
    requires t in {GoalsByStatus, GoalsByCategory, ContributionsByGoal, SavingsComparison, SavingsSummary}
    ensures MetricsFor(t, d) == MetricsFor(GoalsByStatus, d)
  {
  }

  /** Every metric of an expense preview finds its figure in the payload. */
  lemma ExpenseMetricsAvailable()
    ensures AllAvailable(MetricsFor(Expense, Some(ExpenseData())))
  {
  }

  /** Every metric of an income preview finds its figure in the payload. */
  lemma IncomeMetricsAvailable()
    ensures AllAvailable(MetricsFor(Income, Some(IncomeData())))
  {
  }

  /** Every metric of a budget preview finds its figure in the payload. */
  lemma BudgetMetricsAvailable()
    ensures AllAvailable(MetricsFor(Budget, Some(BudgetData())))
  {
  }

  /** Every metric of a debt preview finds its figure in the payload. */
  lemma DebtMetricsAvailable()
    ensures AllAvailable(MetricsFor(Debt, Some(DebtData())))
  {
  }

  /** The goal metrics find their figures in the savings-summary payload. */
  lemma SavingsSummaryMetricsAvailable(now: Date)
    ensures AllAvailable(MetricsFor(SavingsSummary, Some(GoalsData(SavingsSummary, now))))
  {
    var d := Some(GoalsData(SavingsSummary, now));
    assert Field(d, "totalGoals") == Some(DNum(6.0));
    assert Field(d, "completedGoals") == Some(DNum(2.0));
    assert Field(d, "inProgressGoals") == Some(DNum(3.0));
    assert Field(d, "overallProgress") == Some(DNum(65.0));
  }

  /** The goal metrics read `totalGoals`, `completedGoals` and `inProgressGoals`,
      which the goals-by-status payload names `total`, `completed` and
      `inProgress`: that preview shows "N/A" three times and "undefined%". */
  lemma GoalsByStatusMetricsMissing(now: Date)
    ensures var m := MetricsFor(GoalsByStatus, Some(GoalsData(GoalsByStatus, now)));
            m.Success?
            && MetricDisplay(m.value[0].value) == NotAvailable && MetricDisplay(m.value[1].value) == NotAvailable
            && MetricDisplay(m.value[2].value) == NotAvailable && m.value[3].value == Text("undefined%")
  {
  }

  // ----- Detail table -----

  /** A table cell; amounts are formatted as euros when displayed. */
  datatype Cell = Value(v: Option<Data>) | Money(v: Option<Data>) | Percent(s: string) | Status(s: string)

  datatype Table = Table(headers: seq<string>, rows: seq<seq<Cell>>)

  function BudgetStatusLabel(status: Option<Data>): (s: string)
    ensures s == "Sobre Presupuesto" <==> status == Some(DStr("over"))
    ensures s == "En el Límite" <==> status == Some(DStr("at_limit"))
    ensures s == "Bajo Presupuesto" <==> status != Some(DStr("over")) && status != Some(DStr("at_limit"))
  {
    if status == Some(DStr("over")) then "Sobre Presupuesto"
    else if status == Some(DStr("at_limit")) then "En el Límite"
    else "Bajo Presupuesto"
  }

  function DebtStatusLabel(status: Option<Data>): (s: string)
    ensures s == "Vencida" <==> status == Some(DStr("overdue"))
    ensures s == "Pagada" <==> status == Some(DStr("paid"))
    ensures s == "Activa" <==> status != Some(DStr("overdue")) && status != Some(DStr("paid"))
  {
    if status == Some(DStr("overdue")) then "Vencida"
    else if status == Some(DStr("paid")) then "Pagada"
    else "Activa"
  }

  /** A category row; its percentage must be a number, or the render throws. */
  function CategoryCells(c: Data): Result<seq<Cell>> {
    var pct := FixedPercent(Field(Some(c), "percentage"));
    if pct.Failure? then Failure(pct.error)
    else
      Success([Value(Field(Some(c), "categoryName")), Money(Field(Some(c), "totalAmount")),
               Value(Field(Some(c), "transactionCount")), Percent(pct.value)])
  }

  /** A budget row; its utilization must be a number, or the render throws. */
  function BudgetCells(b: Data): Result<seq<Cell>> {
    var use := FixedPercent(Field(Some(b), "utilization"));
    if use.Failure? then Failure(use.error)
    else
      Success([Value(Field(Some(b), "categoryName")), Money(Field(Some(b), "limitAmount")),
               Money(Field(Some(b), "currentAmount")), Percent(use.value),
               Status(BudgetStatusLabel(Field(Some(b), "status")))])
  }

  function DebtCells(d: Data): Result<seq<Cell>> {
    Success([Value(Field(Some(d), "description")), Money(Field(Some(d), "originalAmount")),
             Money(Field(Some(d), "pendingAmount")), Money(Field(Some(d), "paidAmount")),
             Status(DebtStatusLabel(Field(Some(d), "status")))])
  }

  const CategoryHeaders: seq<string> := ["Categoría", "Monto", "Transacciones", "Porcentaje"]
  const BudgetHeaders: seq<string> := ["Categoría", "Límite", "Gastado", "Utilización", "Estado"]
  const DebtHeaders: seq<string> := ["Descripción", "Monto Original", "Pendiente", "Pagado", "Estado"]

  /** `list.map(cells)`: the rows in order, or the first row's error. */
  function MapRows(list: seq<Data>, cells: Data -> Result<seq<Cell>>): (r: Result<seq<seq<Cell>>>)
    ensures r.Success? <==> forall i :: 0 <= i < |list| ==> cells(list[i]).Success?
    ensures r.Success? ==> |r.value| == |list| && forall i :: 0 <= i < |list| ==> r.value[i] == cells(list[i]).value
  {
    if list == [] then Success([])
    else
      var head := cells(list[0]);
      if head.Failure? then Failure(head.error)
      else
        var rest := MapRows(list[1..], cells);
        assert forall i :: 1 <= i < |list| ==> list[i] == list[1..][i - 1];
        if rest.Failure? then Failure(rest.error) else Success([head.value] + rest.value)
  }

  /** `list.slice(0, 10).map(cells)`: at most ten rows, and the render throws
      when one of them does. */
  function Rows(list: seq<Data>, cells: Data -> Result<seq<Cell>>): (r: Result<seq<seq<Cell>>>)
    ensures var n := if |list| < 10 then |list| else 10;
            r.Success? <==> forall i :: 0 <= i < n ==> cells(list[i]).Success?
    ensures r.Success? ==> |r.value| == (if |list| < 10 then |list| else 10)
                           && forall i :: 0 <= i < |r.value| ==> r.value[i] == cells(list[i]).value
  {
    MapRows(SliceTo(list, 10), cells)
  }

  /** The list a type's table is drawn from, its headers and its row cells. */
  function TableSource(t: ReportType, d: Option<Data>): Option<(seq<string>, seq<Data>, Data -> Result<seq<Cell>>)> {
    match t
    case Expense => if ListField(d, "topCategories").Some? then Some((CategoryHeaders, ListField(d, "topCategories").value, CategoryCells)) else None
    case Income => if ListField(d, "topCategories").Some? then Some((CategoryHeaders, ListField(d, "topCategories").value, CategoryCells)) else None
    case Budget => if ListField(d, "budgets").Some? then Some((BudgetHeaders, ListField(d, "budgets").value, BudgetCells)) else None
    case Debt => if ListField(d, "debts").Some? then Some((DebtHeaders, ListField(d, "debts").value, DebtCells)) else None
    case _ => None
  }

  /** The field a type's table is drawn from, if the type has a table. */
  function TableKey(t: ReportType): Option<string> {
    match t
    case Expense => Some("topCategories")
    case Income => Some("topCategories")
    case Budget => Some("budgets")
    case Debt => Some("debts")
    case _ => None
  }

  /** `v.slice(0, 10).map(...)` on a value the guard let through: it throws
      on a truthy value that is not an array, a non-empty string having
      `slice` but no `map`, any other value having no `slice`. */
  function NotAList(key: string, v: Option<Data>): (e: Option<string>)
    ensures e.Some? <==> Truthy(v) && !v.value.DList?
  {
    if !Truthy(v) || v.value.DList? then None
    else if v.value.DStr? then Some("reportData." + key + ".slice(...).map is not a function")
    else Some("reportData." + key + ".slice is not a function")
  }

  /** The type's list field is truthy but not an array. */
  predicate ListBroken(t: ReportType, d: Option<Data>) {
    TableKey(t).Some? && NotAList(TableKey(t).value, Field(d, TableKey(t).value)).Some?
  }

  /** The detail table: none for other types or without rows, at most ten
      rows; the render throws when the list is not an array or when one of
      its first ten rows throws. */
  function TableFor(t: ReportType, d: Option<Data>): (r: Result<Option<Table>>)
    ensures t !in {Expense, Income, Budget, Debt} ==> r == Success(None)
    ensures r.Failure? <==> ListBroken(t, d)
                            || (TableSource(t, d).Some? && Rows(TableSource(t, d).value.1, TableSource(t, d).value.2).Failure?)
    ensures r == Success(None) <==> !ListBroken(t, d) && (TableSource(t, d).None? || TableSource(t, d).value.1 == [])
    ensures r.Success? && r.value.Some? ==>
              0 < |r.value.value.rows| <= 10
              && r.value.value.headers == TableSource(t, d).value.0
              && r.value.value.rows == Rows(TableSource(t, d).value.1, TableSource(t, d).value.2).value
  {
    if ListBroken(t, d) then Failure(NotAList(TableKey(t).value, Field(d, TableKey(t).value)).value)
    else
    match TableSource(t, d)
    case None => Success(None)
    case Some(src) =>
      var rows := Rows(src.1, src.2);
      if rows.Failure? then Failure(rows.error)
      else if rows.value == [] then Success(None)
      else Success(Some(Table(src.0, rows.value)))
  }

  /** `renderDetailTable`: headers and rows reassigned in the type's branch,
      nothing when no row results. */
  method DetailTable(data: Option<Data>, t: ReportType) returns (table: Result<Option<Table>>)
    ensures table == if Truthy(data) then TableFor(t, data) else Success(None)
  {
    if !Truthy(data) {
      return Success(None);
    }
    var headers: seq<string> := [];
    var rows: seq<seq<Cell>> := [];
    var key := TableKey(t);
    if key.Some? {
      var broken := NotAList(key.value, Field(data, key.value));
      if broken.Some? {
        return Failure(broken.value);
      }
    }
    var src := TableSource(t, data);
    if src.Some? {
      headers := src.value.0;
      var built := Rows(src.value.1, src.value.2);
      if built.Failure? {
        return Failure(built.error);
      }
      rows := built.value;
    }
    if rows == [] {
      return Success(None);
    }
    table := Success(Some(Table(headers, rows)));
  }

  /** The mock budgets read "Bajo Presupuesto" and "Sobre Presupuesto". */
  lemma BudgetTableStatuses()
    ensures var r := TableFor(Budget, Some(BudgetData()));
            r.Success? && r.value.Some? && |r.value.value.rows| == 2
            && r.value.value.rows[0][4] == Status("Bajo Presupuesto") && r.value.value.rows[1][4] == Status("Sobre Presupuesto")
  {
    var b0 := BudgetRow("1", "Alimentación", 800.0, 750.0, 93.75, "under");
    var b1 := BudgetRow("2", "Transporte", 300.0, 320.0, 106.67, "over");
    assert ListField(Some(BudgetData()), "budgets") == Some([b0, b1]);
    assert TableSource(Budget, Some(BudgetData())) == Some((BudgetHeaders, [b0, b1], BudgetCells));
    assert BudgetCells(b0) == Success(BudgetCells(b0).value) && BudgetCells(b0).value[4] == Status("Bajo Presupuesto") by {
      RowField(b0.fields, "utilization", DNum(93.75));
      RowField(b0.fields, "status", DStr("under"));
    }
    assert BudgetCells(b1) == Success(BudgetCells(b1).value) && BudgetCells(b1).value[4] == Status("Sobre Presupuesto") by {
      RowField(b1.fields, "utilization", DNum(106.67));
      RowField(b1.fields, "status", DStr("over"));
    }
  }

  /** A row reads each of its fields. */
  lemma RowField(fields: map<string, Data>, key: string, v: Data)
    requires key in fields && fields[key] == v
    ensures Field(Some(DObj(fields)), key) == Some(v)
  {
  }

  /** The mock debts read "Activa" and "Vencida". */
  lemma DebtTableStatuses()
    ensures var r := TableFor(Debt, Some(DebtData()));
            r.Success? && r.value.Some? && |r.value.value.rows| == 2
            && r.value.value.rows[0][4] == Status("Activa") && r.value.value.rows[1][4] == Status("Vencida")
  {
    var d0 := DebtRow("1", "Préstamo personal", 3000.0, 1500.0, 15.0, Date(2024, 3, 15), "active");
    var d1 := WithDaysOverdue(DebtRow("2", "Tarjeta de crédito", 2000.0, 1000.0, 10.0, Date(2024, 1, 15), "overdue"), 15.0);
    assert ListField(Some(DebtData()), "debts") == Some([d0, d1]);
    assert TableSource(Debt, Some(DebtData())) == Some((DebtHeaders, [d0, d1], DebtCells));
    assert DebtCells(d0).value[4] == Status("Activa");
    assert DebtCells(d1).value[4] == Status("Vencida");
  }

  /** A category row without a percentage makes the expense preview throw,
      whatever the rest of the payload holds. */
  lemma MissingPercentageThrows(row: map<string, Data>, rest: seq<Data>, period: PeriodRange)
    requires "percentage" !in row
    ensures var data := Some(DObj(map["topCategories" := DList([DObj(row)] + rest)]));
            PreviewView(data, Expense, period, false) == ThrownView(ReadOfUndefined)
  {
    var list := [DObj(row)] + rest;
    var data := Some(DObj(map["topCategories" := DList(list)]));
    assert ListField(data, "topCategories") == Some(list);
    assert CategoryCells(list[0]) == Failure(ReadOfUndefined);
    assert SliceTo(list, 10)[0] == list[0];
  }

  /** A truthy category list that is not an array makes the expense preview
      throw. */
  lemma NonArrayListThrows(v: Data, period: PeriodRange)
    requires Truthy(Some(v)) && !v.DList?
    ensures PreviewView(Some(DObj(map["topCategories" := v])), Expense, period, false).ThrownView?
  {
    var data := Some(DObj(map["topCategories" := v]));
    assert Field(data, "topCategories") == Some(v);
    assert ListBroken(Expense, data);
  }

  // ----- The page -----

  datatype Chart =
    | CategoryPie(entries: seq<PieEntry>)
    | TrendLine(trend: seq<TrendPoint>)
    | IncomeExpense(bars: seq<MonthlyPoint>)

  /** The charts of each report type, in page order. */
  function Charts(t: ReportType, d: Option<Data>): (r: seq<Chart>)
    ensures r == [] <==> t !in {Expense, Income, Budget, Comprehensive}
    ensures t == Expense || t == Income ==> |r| == 2 && r[0].CategoryPie? && r[1].TrendLine?
    ensures t == Budget ==> |r| == 1 && r[0].IncomeExpense?
    ensures t == Comprehensive ==> |r| == 2 && r[0].IncomeExpense? && r[1].CategoryPie?
    ensures forall i :: 0 <= i < |r| && r[i].IncomeExpense? ==> r[i].bars == PrepareMonthlyDataAsWritten(d, t)
    ensures forall i :: 0 <= i < |r| && r[i].CategoryPie? ==> r[i].entries == PrepareCategoryData(d)
    ensures forall i :: 0 <= i < |r| && r[i].TrendLine? ==> r[i].trend == PrepareTrendData(d)
  {
    match t
    case Expense => [CategoryPie(PrepareCategoryData(d)), TrendLine(PrepareTrendData(d))]
    case Income => [CategoryPie(PrepareCategoryData(d)), TrendLine(PrepareTrendData(d))]
    case Budget => [IncomeExpense(PrepareMonthlyDataAsWritten(d, t))]
    case Comprehensive => [IncomeExpense(PrepareMonthlyDataAsWritten(d, t)), CategoryPie(PrepareCategoryData(d))]
    case _ => []
  }

  /** A download button: its format, its caption and whether it is disabled. */
  datatype DownloadButton = DownloadButton(format: ReportFormat, caption: string, disabled: bool)

  datatype View =
    | LoadingView
    | NoDataView
    | ThrownView(error: string)
    | ContentView(description: string, metrics: seq<Metric>, charts: seq<Chart>, table: Option<Table>,
                  downloads: seq<DownloadButton>)

  /** The preview page: the spinner while loading, the empty message without
      data, the error when rendering the metrics or the table throws, and
      otherwise the report. */
  function PreviewView(data: Option<Data>, t: ReportType, period: PeriodRange, isLoading: bool): (v: View)
    ensures isLoading <==> v == LoadingView
    ensures v == NoDataView <==> !isLoading && !Truthy(data)
    ensures v.ThrownView? <==> !isLoading && Truthy(data) && (MetricsFor(t, data).Failure? || TableFor(t, data).Failure?)
    ensures v.ContentView? ==> v.description == TypeLabel(t) + " - " + period.caption
    ensures v.ContentView? ==> v.metrics == MetricsFor(t, data).value && v.charts == Charts(t, data)
                               && v.table == TableFor(t, data).value
    ensures v.ContentView? ==> |v.downloads| == 3
                               && v.downloads[0].format == Pdf && v.downloads[1].format == Excel
                               && v.downloads[2].format == Csv
                               && forall i :: 0 <= i < 3 ==> !v.downloads[i].disabled
  {
    if isLoading then LoadingView
    else if !Truthy(data) then NoDataView
    else if MetricsFor(t, data).Failure? then ThrownView(MetricsFor(t, data).error)
    else if TableFor(t, data).Failure? then ThrownView(TableFor(t, data).error)
    else
      ContentView(TypeLabel(t) + " - " + period.caption, MetricsFor(t, data).value, Charts(t, data), TableFor(t, data).value,
                  [DownloadButton(Pdf, "Descargar PDF", isLoading), DownloadButton(Excel, "Descargar Excel", isLoading),
                   DownloadButton(Csv, "Descargar CSV", isLoading)])
  }
}

=== FILE: report_preview_data.dfy ===
/** The data behind a report preview: a mock payload per report type, the
    comprehensive payload composed from the others, and the dispatch that picks
    one or rejects a request without a signed-in user. */
module ReportPreviewData {
  import opened Wrappers
  import opened Calendar
  import opened DateText
  import opened Reports

  /** A JavaScript value inside a payload. `DDate(None)` is an `Invalid Date`. */
  datatype Data =
    | DNum(n: real)
    | DStr(s: string)
    | DDate(date: Option<Date>)
    | DList(items: seq<Data>)
    | DObj(fields: map<string, Data>)

  /** `v.key` on a value that may itself be absent; `None` is `undefined`. */
  function Field(v: Option<Data>, key: string): (r: Option<Data>)
    ensures r.Some? <==> v.Some? && v.value.DObj? && key in v.value.fields
  {
    if v.Some? && v.value.DObj? && key in v.value.fields then Some(v.value.fields[key]) else None
  }

  /** JavaScript truthiness: `undefined`, `0` and `""` are falsy; dates, arrays
      and objects are truthy. */
  predicate Truthy(v: Option<Data>) {
    match v
    case None => false
    case Some(DNum(n)) => n != 0.0
    case Some(DStr(s)) => s != []
    case Some(_) => true
  }

  /** `(v || 0)` read as a number. */
  function NumOrZero(v: Option<Data>): real {
    if v.Some? && v.value.DNum? then v.value.n else 0.0
  }

  /** `Math.round(x * 100) / 100`: rounds to cents, halves upwards. */
  function RoundCents(x: real): (r: real)
    ensures x - 0.005 < r <= x + 0.005
  {
    ((x * 100.0 + 0.5).Floor as real) / 100.0
  }

  // ----- The mock payloads -----

  function CategoryRow(id: string, name: string, amount: real, count: real, pct: real): Data {
    DObj(map["categoryId" := DStr(id), "categoryName" := DStr(name), "totalAmount" := DNum(amount),
             "transactionCount" := DNum(count), "percentage" := DNum(pct)])
  }

  function TrendRow(month: string, amount: real, count: real): Data {
    DObj(map["month" := DStr(month), "totalAmount" := DNum(amount), "transactionCount" := DNum(count)])
  }

  const ExpenseTotal: real := 2500.5
  const IncomeTotal: real := 3500.0

  function ExpenseData(): Data {
    DObj(map[
      "totalExpenses" := DNum(ExpenseTotal), "totalTransactions" := DNum(45.0), "averageExpense" := DNum(55.57),
      "topCategories" := DList([CategoryRow("1", "Alimentación", 800.0, 15.0, 32.0),
                                CategoryRow("2", "Transporte", 400.5, 8.0, 16.0),
                                CategoryRow("3", "Entretenimiento", 300.0, 5.0, 12.0)]),
      "monthlyTrends" := DList([TrendRow("2024-01", 1200.0, 20.0), TrendRow("2024-02", 1300.5, 25.0)]),
      "transactions" := DList([])])
  }

  function IncomeData(): Data {
    DObj(map[
      "totalIncome" := DNum(IncomeTotal), "totalTransactions" := DNum(8.0), "averageIncome" := DNum(437.5),
      "topCategories" := DList([CategoryRow("1", "Salario", 3000.0, 1.0, 85.7),
                                CategoryRow("2", "Freelance", 500.0, 7.0, 14.3)]),
      "monthlyTrends" := DList([TrendRow("2024-01", 3000.0, 1.0), TrendRow("2024-02", 500.0, 7.0)]),
      "transactions" := DList([])])
  }

  function BudgetRow(id: string, name: string, limit: real, current: real, use: real, status: string): Data {
    DObj(map["id" := DStr(id), "categoryName" := DStr(name), "limitAmount" := DNum(limit),
             "currentAmount" := DNum(current), "utilization" := DNum(use), "status" := DStr(status),
             "month" := DStr("2024-01")])
  }

  function BudgetBreakdownRow(id: string, name: string, total: real, spent: real, use: real): Data {
    DObj(map["categoryId" := DStr(id), "categoryName" := DStr(name), "totalBudget" := DNum(total),
             "totalSpent" := DNum(spent), "utilization" := DNum(use), "budgetCount" := DNum(1.0)])
  }

  function BudgetData(): Data {
    DObj(map[
      "totalBudgets" := DNum(5.0), "totalBudgetAmount" := DNum(2000.0), "totalSpent" := DNum(1500.75),
      "averageUtilization" := DNum(75.0), "overBudgetCount" := DNum(1.0),
      "budgets" := DList([BudgetRow("1", "Alimentación", 800.0, 750.0, 93.75, "under"),
                          BudgetRow("2", "Transporte", 300.0, 320.0, 106.67, "over")]),
      "categoryBreakdown" := DList([BudgetBreakdownRow("1", "Alimentación", 800.0, 750.0, 93.75),
                                    BudgetBreakdownRow("2", "Transporte", 300.0, 320.0, 106.67)])])
  }

  function DebtRow(id: string, text: string, original: real, pending: real, rate: real, due: Date, status: string): Data {
    DObj(map["id" := DStr(id), "description" := DStr(text), "originalAmount" := DNum(original),
             "pendingAmount" := DNum(pending), "paidAmount" := DNum(original - pending),
             "interestRate" := DNum(rate), "dueDate" := DDate(Some(due)), "status" := DStr(status)])
  }

  /** A debt row that also says how many days it is overdue. */
  function WithDaysOverdue(row: Data, days: real): Data {
    if row.DObj? then DObj(row.fields["daysOverdue" := DNum(days)]) else row
  }

  function DebtData(): Data {
    DObj(map[
      "totalDebts" := DNum(3.0), "totalOriginalAmount" := DNum(5000.0), "totalPendingAmount" := DNum(2500.0),
      "totalPaidAmount" := DNum(2500.0), "averageInterestRate" := DNum(12.5), "overdueCount" := DNum(1.0),
      "debts" := DList([DebtRow("1", "Préstamo personal", 3000.0, 1500.0, 15.0, Date(2024, 3, 15), "active"),
                        WithDaysOverdue(DebtRow("2", "Tarjeta de crédito", 2000.0, 1000.0, 10.0, Date(2024, 1, 15), "overdue"), 15.0)]),
      "paymentTrends" := DList([])])
  }

  /** `getMockGoalsData(filters, type)`; `now` is the moment `new Date()` reads. */
  function GoalsData(t: ReportType, now: Date): (d: Data)
    ensures t != GoalsByStatus && t != GoalsByCategory && t != SavingsSummary ==> d == DObj(map[])
  {
    match t
    case GoalsByStatus =>
      DObj(map["completed" := DNum(2.0), "expired" := DNum(1.0), "inProgress" := DNum(3.0),
               "total" := DNum(6.0), "goals" := DList([])])
    case GoalsByCategory => DObj(map["categories" := DList([])])
    case SavingsSummary =>
      DObj(map["totalGoals" := DNum(6.0), "totalTargetAmount" := DNum(10000.0),
               "totalCurrentAmount" := DNum(6500.0), "overallProgress" := DNum(65.0),
               "completedGoals" := DNum(2.0), "expiredGoals" := DNum(1.0), "inProgressGoals" := DNum(3.0),
               "averageContribution" := DNum(500.0), "lastContributionDate" := DDate(Some(now)),
               "categoryBreakdown" := DList([])])
    case _ => DObj(map[])
  }

  // ----- The comprehensive payload -----

  /** `totalIncome > 0 ? (netBalance / totalIncome) * 100 : 0`. */
  function SavingsRate(income: real, expenses: real): (r: real)
    ensures income <= 0.0 ==> r == 0.0
    ensures income > 0.0 && expenses <= income ==> r >= 0.0
    ensures income > 0.0 && expenses > income ==> r < 0.0
  {
    if income > 0.0 then (income - expenses) / income * 100.0 else 0.0
  }

  /** A bound that is absent, empty, or a date `new Date` can read. */
  predicate BoundReadable(filter: Option<string>) {
    filter.None? || filter.value == [] || ParseDay(filter.value).Some?
  }

  /** One side of the period label: the filter's local day in the zone `zone`
      as `dd/MM/yyyy`, or the fallback word when the filter is absent or empty;
      `format` throws on a date it cannot read. */
  function BoundLabel(filter: Option<string>, fallback: string, zone: UtcOffset): (r: Result<string>)
    ensures (filter.None? || filter.value == []) ==> r == Success(fallback)
    ensures r.Success? <==> BoundReadable(filter)
  {
    if filter.None? || filter.value == [] then Success(fallback)
    else
      match LocalDay(filter.value, zone)
      case None => Failure(InvalidTimeValue)
      case Some(d) => Success(DayMonthYear(d))
  }

  /** Both bounds of the filters can be labelled, so the comprehensive payload is built. */
  predicate BoundsReadable(filters: ReportFilters) {
    BoundReadable(filters.startDate) && BoundReadable(filters.endDate)
  }

  /** The local day of `new Date(filter || new Date())`. */
  function BoundDate(filter: Option<string>, now: Date, zone: UtcOffset): (r: Option<Date>)
    ensures r.None? <==> !BoundReadable(filter)
  {
    if filter.None? || filter.value == [] then Some(now) else LocalDay(filter.value, zone)
  }

  function Breakdown(id: string, name: string, expenses: real, limit: real, use: real): Data {
    DObj(map["categoryId" := DStr(id), "categoryName" := DStr(name), "income" := DNum(0.0),
             "expenses" := DNum(expenses), "netAmount" := DNum(-expenses),
             "budgetLimit" := DNum(limit), "budgetUtilization" := DNum(use)])
  }

  function MonthRow(month: string, income: real, expenses: real, goals: real, debts: real): Data {
    DObj(map["month" := DStr(month), "income" := DNum(income), "expenses" := DNum(expenses),
             "balance" := DNum(income - expenses), "goalContributions" := DNum(goals),
             "debtPayments" := DNum(debts)])
  }

  /** `financialSummary`: the balance and the savings rate rounded to cents. */
  function FinancialSummary(income: real, expenses: real): Data {
    DObj(map["totalIncome" := DNum(income), "totalExpenses" := DNum(expenses),
             "netBalance" := DNum(income - expenses),
             "savingsRate" := DNum(RoundCents(SavingsRate(income, expenses)))])
  }

  /** The `goals` section, each figure `|| 0`, the progress rounded to cents. */
  function GoalsSection(goals: Option<Data>): Data {
    DObj(map[
      "totalGoals" := DNum(NumOrZero(Field(goals, "totalGoals"))),
      "completedGoals" := DNum(NumOrZero(Field(goals, "completedGoals"))),
      "inProgressGoals" := DNum(NumOrZero(Field(goals, "inProgressGoals"))),
      "totalTargetAmount" := DNum(NumOrZero(Field(goals, "totalTargetAmount"))),
      "totalCurrentAmount" := DNum(NumOrZero(Field(goals, "totalCurrentAmount"))),
      "overallProgress" := DNum(RoundCents(NumOrZero(Field(goals, "overallProgress"))))])
  }

  /** The `budgets` section, each figure `|| 0`. */
  function BudgetsSection(budgets: Option<Data>): Data {
    DObj(map[
      "totalBudgets" := DNum(NumOrZero(Field(budgets, "totalBudgets"))),
      "totalBudgetAmount" := DNum(NumOrZero(Field(budgets, "totalBudgetAmount"))),
      "totalSpent" := DNum(NumOrZero(Field(budgets, "totalSpent"))),
      "overBudgetCount" := DNum(NumOrZero(Field(budgets, "overBudgetCount")))])
  }

  const DebtsSection: Data :=
    DObj(map["totalDebts" := DNum(3.0), "totalPendingAmount" := DNum(2500.0),
             "totalPaidAmount" := DNum(2500.0), "overdueCount" := DNum(1.0)])

  const ComprehensiveBreakdown: Data :=
    DList([Breakdown("1", "Alimentación", 800.0, 800.0, 93.75),
           Breakdown("2", "Transporte", 400.5, 300.0, 106.67)])

  const ComprehensiveTrends: Data :=
    DList([MonthRow("2024-01", 3000.0, 1200.0, 500.0, 200.0),
           MonthRow("2024-02", 500.0, 1300.5, 300.0, 150.0)])

  /** The `period` section. */
  function PeriodSection(filters: ReportFilters, now: Date, zone: UtcOffset, caption: string): Data {
    DObj(map["startDate" := DDate(BoundDate(filters.startDate, now, zone)),
             "endDate" := DDate(BoundDate(filters.endDate, now, zone)),
             "label" := DStr(caption)])
  }

  /** `getMockComprehensiveData(filters)`. */
  function ComprehensiveData(filters: ReportFilters, now: Date, zone: UtcOffset): (r: Result<Data>)
    ensures r.Success? <==> BoundsReadable(filters)
  {
    var startLabel := BoundLabel(filters.startDate, "Inicio", zone);
    var endLabel := BoundLabel(filters.endDate, "Fin", zone);
    if startLabel.Failure? then Failure(startLabel.error)
    else if endLabel.Failure? then Failure(endLabel.error)
    else
      Success(ComprehensiveObject(PeriodSection(filters, now, zone, startLabel.value + " - " + endLabel.value),
                                  PayloadSummary(), OtherSections(now)))
  }

  /** The comprehensive payload's sections other than `period` and `financialSummary`. */
  function OtherSections(now: Date): map<string, Data> {
    map[
      "goals" := GoalsSection(Some(GoalsData(SavingsSummary, now))),
      "budgets" := BudgetsSection(Some(BudgetData())),
      "debts" := DebtsSection,
      "categoryBreakdown" := ComprehensiveBreakdown,
      "monthlyTrends" := ComprehensiveTrends]
  }

  /** The summary built from the income and expense payloads' totals. */
  function PayloadSummary(): Data {
    FinancialSummary(NumOrZero(Field(Some(IncomeData()), "totalIncome")),
                     NumOrZero(Field(Some(ExpenseData()), "totalExpenses")))
  }

  /** The comprehensive payload: the `period` and `financialSummary` sections
      over the other sections. */
  function ComprehensiveObject(period: Data, summary: Data, others: map<string, Data>): (d: Data)
    ensures d.DObj? && "period" in d.fields && d.fields["period"] == period
    ensures "financialSummary" in d.fields && d.fields["financialSummary"] == summary
    ensures forall k :: k in others && k != "period" && k != "financialSummary" ==> k in d.fields && d.fields[k] == others[k]
  {
    DObj(others["financialSummary" := summary]["period" := period])
  }

  /** The totals the comprehensive summary reads from the income and expense payloads. */
  lemma PayloadTotals()
    ensures NumOrZero(Field(Some(IncomeData()), "totalIncome")) == IncomeTotal
    ensures NumOrZero(Field(Some(ExpenseData()), "totalExpenses")) == ExpenseTotal
  {
  }

  /** The comprehensive summary's balance is the income payload's total less the
      expense payload's total, and its savings rate is that balance as a share of
      the income, rounded to cents. */
  lemma ComprehensiveSummary(filters: ReportFilters, now: Date, zone: UtcOffset)
    requires BoundsReadable(filters)
    ensures var s := Field(Some(ComprehensiveData(filters, now, zone).value), "financialSummary");
            Field(s, "netBalance") == Some(DNum(IncomeTotal - ExpenseTotal))
            && Field(s, "savingsRate") == Some(DNum(RoundCents(SavingsRate(IncomeTotal, ExpenseTotal))))
  {
    assert Field(Some(ComprehensiveData(filters, now, zone).value), "financialSummary") == Some(PayloadSummary());
    PayloadTotals();
    SummaryFields(IncomeTotal, ExpenseTotal);
  }

  /** The balance and savings-rate fields of a `financialSummary`. */
  lemma SummaryFields(income: real, expenses: real)
    ensures var s := Some(FinancialSummary(income, expenses));
            Field(s, "netBalance") == Some(DNum(income - expenses))
            && Field(s, "savingsRate") == Some(DNum(RoundCents(SavingsRate(income, expenses))))
  {
  }

  /** The period label joins the two bounds' labels. */
  lemma ComprehensiveLabel(filters: ReportFilters, now: Date, zone: UtcOffset)
    requires BoundsReadable(filters)
    ensures var p := Field(Some(ComprehensiveData(filters, now, zone).value), "period");
            Field(p, "label")
              == Some(DStr(BoundLabel(filters.startDate, "Inicio", zone).value + " - " + BoundLabel(filters.endDate, "Fin", zone).value))
  {
    var caption := BoundLabel(filters.startDate, "Inicio", zone).value + " - " + BoundLabel(filters.endDate, "Fin", zone).value;
    assert ComprehensiveData(filters, now, zone).value.fields["period"] == PeriodSection(filters, now, zone, caption);
  }

  /** Without bounds the payload is built around the label "Inicio - Fin". */
  lemma OpenPeriodData(filters: ReportFilters, now: Date, zone: UtcOffset)
    requires filters.startDate.None? && filters.endDate.None?
    ensures ComprehensiveData(filters, now, zone) == Success(ComprehensiveObject(PeriodSection(filters, now, zone, "Inicio - Fin"), PayloadSummary(), OtherSections(now)))
  {
    assert "Inicio" + " - " + "Fin" == "Inicio - Fin";
  }

  /** Without bounds the period reads "Inicio - Fin" and both its dates are today. */
  lemma OpenPeriodLabel(categoryId: Option<string>, userId: Option<string>, now: Date, zone: UtcOffset)
    ensures var filters := ReportFilters(None, None, categoryId, userId);
            var p := Field(Some(ComprehensiveData(filters, now, zone).value), "period");
            Field(p, "label") == Some(DStr("Inicio - Fin"))
            && Field(p, "startDate") == Some(DDate(Some(now))) && Field(p, "endDate") == Some(DDate(Some(now)))
  {
    var filters := ReportFilters(None, None, categoryId, userId);
    var section := PeriodSection(filters, now, zone, "Inicio - Fin");
    OpenPeriodData(filters, now, zone);
    assert Field(Some(ComprehensiveData(filters, now, zone).value), "period") == Some(section);
    PeriodFields(filters, now, zone, "Inicio - Fin");
  }

  /** The three fields of a `period` section. */
  lemma PeriodFields(filters: ReportFilters, now: Date, zone: UtcOffset, caption: string)
    ensures var p := Some(PeriodSection(filters, now, zone, caption));
            Field(p, "label") == Some(DStr(caption))
            && Field(p, "startDate") == Some(DDate(BoundDate(filters.startDate, now, zone)))
            && Field(p, "endDate") == Some(DDate(BoundDate(filters.endDate, now, zone)))
  {
  }

  /** The days the report form sends (`yyyy-MM-dd`) are always readable. They
      are labelled as the days sent in a zone at or east of UTC, and as the
      days before west of UTC. */
  lemma FormDatesReadable(start: Date, end: Date, userId: Option<string>, categoryId: Option<string>, now: Date, zone: UtcOffset)
    requires Valid(start) && 0 <= start.year < 10000 && Valid(end) && 0 <= end.year < 10000
    ensures var filters := ReportFilters(Some(IsoDate(start)), Some(IsoDate(end)), categoryId, userId);
            BoundLabel(filters.startDate, "Inicio", zone) == Success(DayMonthYear(if zone < 0 then PrevDay(start) else start))
            && BoundLabel(filters.endDate, "Fin", zone) == Success(DayMonthYear(if zone < 0 then PrevDay(end) else end))
            && ComprehensiveData(filters, now, zone).Success?
    ensures var filters := ReportFilters(Some(IsoDate(start)), Some(IsoDate(end)), categoryId, userId);
            BoundLabel(filters.startDate, "Inicio", zone) == Success(DayMonthYear(start)) <==> zone >= 0
  {
    DayLabel(start, "Inicio", zone);
    DayLabel(end, "Fin", zone);
    PrevDayLabel(start);
  }

  /** A `yyyy-MM-dd` bound is labelled with its local day. */
  lemma DayLabel(d: Date, fallback: string, zone: UtcOffset)
    requires Valid(d) && 0 <= d.year < 10000
    ensures BoundLabel(Some(IsoDate(d)), fallback, zone) == Success(DayMonthYear(if zone < 0 then PrevDay(d) else d))
  {
    ParseDayIsoDate(d);
  }

  const NotAuthenticated: string := "Usuario no autenticado"

  /** `mutationFn({ type, filters })`: no user is an error; otherwise every
      report type has its payload. */
  function MutationFn(userId: Option<string>, t: ReportType, filters: ReportFilters, now: Date, zone: UtcOffset): (r: Result<Data>)
    ensures (userId.None? || userId.value == []) <==> r == Failure(NotAuthenticated)
    ensures r.Failure? && userId.Some? && userId.value != [] ==>
              t == Comprehensive && ComprehensiveData(filters, now, zone).Failure?
  {
    if userId.None? || userId.value == [] then Failure(NotAuthenticated)
    else
      match t
      case Expense => Success(ExpenseData())
      case Income => Success(IncomeData())
      case Budget => Success(BudgetData())
      case Debt => Success(DebtData())
      case Comprehensive =>
        var r := ComprehensiveData(filters, now, zone);
        assert r.Failure? ==> r.error == InvalidTimeValue;
        r
      case GoalsByStatus => Success(GoalsData(t, now))
      case GoalsByCategory => Success(GoalsData(t, now))
      case ContributionsByGoal => Success(GoalsData(t, now))
      case SavingsComparison => Success(GoalsData(t, now))
      case SavingsSummary => Success(GoalsData(t, now))
  }

  /** The five goal and savings types share one builder, and two of them
      preview as an empty object. */
  lemma GoalTypesDispatch(userId: Option<string>, t: ReportType, filters: ReportFilters, now: Date, zone: UtcOffset)
    requires userId.Some? && userId.value != []
    requires t in {GoalsByStatus, GoalsByCategory, ContributionsByGoal, SavingsComparison, SavingsSummary}
    ensures MutationFn(userId, t, filters, now, zone) == Success(GoalsData(t, now))
    ensures t == ContributionsByGoal || t == SavingsComparison ==>
              MutationFn(userId, t, filters, now, zone) == Success(DObj(map[]))
  {
  }
}

=== FILE: reports.dfy ===
/** The report model: the ten report types, the four output formats, the
    filter record and the display label of every type and format. */
module Reports {
  import opened Wrappers

  datatype ReportType =
    | GoalsByStatus | GoalsByCategory | ContributionsByGoal | SavingsComparison | SavingsSummary
    | Budget | Expense | Income | Debt | Comprehensive

  datatype ReportFormat = Json | Pdf | Excel | Csv

  /** The types in the order of the label table. */
  const AllTypes: seq<ReportType> :=
    [GoalsByStatus, GoalsByCategory, ContributionsByGoal, SavingsComparison, SavingsSummary,
     Budget, Expense, Income, Debt, Comprehensive]

  /** The formats in the order of the label table. */
  const AllFormats: seq<ReportFormat> := [Json, Pdf, Excel, Csv]

  /** `ReportFilters`: every field may be absent. */
  datatype ReportFilters = ReportFilters(
    startDate: Option<string>, endDate: Option<string>, categoryId: Option<string>, userId: Option<string>)

  /** A generated report; `data` and `needsDownload` may be absent. */
  datatype Report = Report(
    id: string, kind: ReportType, format: ReportFormat, data: Option<string>,
    createdAt: string, expiresAt: string, needsDownload: Option<bool>)

  /** The enum's string value, as sent to the backend and used as a select value. */
  function TypeCode(t: ReportType): string {
    match t
    case GoalsByStatus => "GOALS_BY_STATUS"
    case GoalsByCategory => "GOALS_BY_CATEGORY"
    case ContributionsByGoal => "CONTRIBUTIONS_BY_GOAL"
    case SavingsComparison => "SAVINGS_COMPARISON"
    case SavingsSummary => "SAVINGS_SUMMARY"
    case Budget => "BUDGET"
    case Expense => "EXPENSE"
    case Income => "INCOME"
    case Debt => "DEBT"
    case Comprehensive => "COMPREHENSIVE"
  }

  function FormatCode(f: ReportFormat): string {
    match f
    case Json => "JSON"
    case Pdf => "PDF"
    case Excel => "EXCEL"
    case Csv => "CSV"
  }

  /** `REPORT_TYPE_LABELS`. */
  function TypeLabel(t: ReportType): string {
    match t
    case GoalsByStatus => "Metas por Estado"
    case GoalsByCategory => "Metas por Categoría"
    case ContributionsByGoal => "Contribuciones por Meta"
    case SavingsComparison => "Comparación de Ahorros"
    case SavingsSummary => "Resumen de Ahorros"
    case Budget => "Presupuestos"
    case Expense => "Gastos"
    case Income => "Ingresos"
    case Debt => "Deudas"
    case Comprehensive => "Reporte Completo"
  }

  /** `REPORT_FORMAT_LABELS`. */
  function FormatLabel(f: ReportFormat): string {
    match f
    case Json => "JSON"
    case Pdf => "PDF"
    case Excel => "Excel"
    case Csv => "CSV"
  }

  /** The enumeration lists each type and each format exactly once. */
  lemma Enumerations()
    ensures |AllTypes| == 10 && forall t: ReportType :: t in AllTypes
    ensures forall i, j :: 0 <= i < j < |AllTypes| ==> AllTypes[i] != AllTypes[j]
    ensures |AllFormats| == 4 && forall f: ReportFormat :: f in AllFormats
    ensures forall i, j :: 0 <= i < j < |AllFormats| ==> AllFormats[i] != AllFormats[j]
  {
    forall t: ReportType ensures t in AllTypes {
      var i := match t
        case GoalsByStatus => 0 case GoalsByCategory => 1 case ContributionsByGoal => 2
        case SavingsComparison => 3 case SavingsSummary => 4 case Budget => 5
        case Expense => 6 case Income => 7 case Debt => 8 case Comprehensive => 9;
      assert AllTypes[i] == t;
    }
    forall f: ReportFormat ensures f in AllFormats {
      var i := match f case Json => 0 case Pdf => 1 case Excel => 2 case Csv => 3;
      assert AllFormats[i] == f;
    }
  }

  /** No two report types share a label or a code, and no two formats do. */
  lemma LabelsDistinct(a: ReportType, b: ReportType, f: ReportFormat, g: ReportFormat)
    ensures TypeLabel(a) == TypeLabel(b) ==> a == b
    ensures FormatLabel(f) == FormatLabel(g) ==> f == g
    ensures TypeCode(a) == TypeCode(b) ==> a == b
    ensures FormatCode(f) == FormatCode(g) ==> f == g
  {
  }
}

=== FILE: strings.dfy ===
/** Character classes and string tests used by the validators, the menu and the
    voice-input coercion: the ASCII classes of the regular expressions `[A-Z]`,
    `[a-z]` and `[0-9]`, JavaScript's `\s`, `toLowerCase` and `includes`. */
module Strings {

  predicate IsUpper(c: char) { 'A' <= c <= 'Z' }
  predicate IsLower(c: char) { 'a' <= c <= 'z' }
  predicate IsDigit(c: char) { '0' <= c <= '9' }

  /** The characters JavaScript's `\s` matches (white space and line terminators). */
  predicate IsJsWhitespace(c: char) {
    c == '\t' || c == '\n' || c == '\U{000B}' || c == '\U{000C}' || c == '\r' || c == ' '
    || c == '\U{00A0}' || c == '\U{1680}' || ('\U{2000}' <= c <= '\U{200A}')
    || c == '\U{2028}' || c == '\U{2029}' || c == '\U{202F}' || c == '\U{205F}'
    || c == '\U{3000}' || c == '\U{FEFF}'
  }

  /** `/[X]/.test(s)` for a character class X. */
  predicate HasUpper(s: string) { exists i :: 0 <= i < |s| && IsUpper(s[i]) }
  predicate HasLower(s: string) { exists i :: 0 <= i < |s| && IsLower(s[i]) }
  predicate HasDigit(s: string) { exists i :: 0 <= i < |s| && IsDigit(s[i]) }

  function LowerChar(c: char): (r: char)
    ensures IsUpper(c) ==> IsLower(r) && r as int == c as int + 32
    ensures !IsUpper(c) ==> r == c
  {
    if IsUpper(c) then (c as int + 32) as char else c
  }

  /** `toLowerCase`, restricted to the ASCII letters. */
  function ToLower(s: string): (r: string)
    ensures |r| == |s|
    ensures forall i :: 0 <= i < |s| ==> r[i] == LowerChar(s[i])
  {
    if s == [] then [] else [LowerChar(s[0])] + ToLower(s[1..])
  }

  /** `sub` occurs in `s` starting at index `i`. */
  predicate OccursAt(s: string, sub: string, i: nat) {
    i + |sub| <= |s| && s[i..i + |sub|] == sub
  }

  /** `s.includes(sub)`. */
  predicate Contains(s: string, sub: string) {
    exists i: nat | i <= |s| :: OccursAt(s, sub, i)
  }

  /** `s.startsWith(prefix)`. */
  predicate StartsWith(s: string, prefix: string) {
    |prefix| <= |s| && s[..|prefix|] == prefix
  }
}

=== FILE: uri.dfy ===
/** `encodeURIComponent` and `decodeURIComponent`: every character outside the
    unreserved set travels as the `%XX` escapes of its UTF-8 bytes. Characters
    are Unicode scalar values, so no lone surrogate can occur. */
module Uri {
  import opened Wrappers

  /** The characters `encodeURIComponent` leaves as they are. */
  predicate Unreserved(c: char) {
    ('A' <= c <= 'Z') || ('a' <= c <= 'z') || ('0' <= c <= '9')
    || c == '-' || c == '_' || c == '.' || c == '!' || c == '~' || c == '*'
    || c == '\'' || c == '(' || c == ')'
  }

  predicate IsByte(b: int) { 0 <= b < 256 }

  predicate AllBytes(bytes: seq<nat>) {
    forall i :: 0 <= i < |bytes| ==> IsByte(bytes[i])
  }

  /** An upper-case hexadecimal digit. */
  function HexDigit(n: nat): (c: char)
    requires n < 16
  {
    if n < 10 then ('0' as int + n) as char else ('A' as int + n - 10) as char
  }

  /** A hexadecimal digit of either case. */
  function HexValue(c: char): (r: Option<nat>)
    ensures r.Some? ==> r.value < 16
  {
    if '0' <= c <= '9' then Some(c as int - '0' as int)
    else if 'A' <= c <= 'F' then Some(c as int - 'A' as int + 10)
    else if 'a' <= c <= 'f' then Some(c as int - 'a' as int + 10)
    else None
  }

  lemma HexValueDigit(n: nat)
    requires n < 16
    ensures HexValue(HexDigit(n)) == Some(n)
  {
  }

  /** `%XX` for one byte, upper-case hexadecimal. */
  function Escape(b: nat): (t: string)
    requires IsByte(b)
    ensures |t| == 3 && t[0] == '%'
  {
    ['%', HexDigit(b / 16), HexDigit(b % 16)]
  }

  function EscapeAll(bytes: seq<nat>): (t: string)
    requires AllBytes(bytes)
    ensures |t| == 3 * |bytes|
  {
    if bytes == [] then [] else Escape(bytes[0]) + EscapeAll(bytes[1..])
  }

  /** The UTF-8 bytes of a code point. */
  function Utf8(c: char): (bytes: seq<nat>)
    ensures 1 <= |bytes| <= 4
    ensures AllBytes(bytes)
    ensures |bytes| == 1 <==> c as int < 0x80
    ensures |bytes| == 1 ==> bytes[0] == c as int
  {
    var n := c as int;
    if n < 0x80 then [n]
    else if n < 0x800 then [0xC0 + n / 64, 0x80 + n % 64]
    else if n < 0x10000 then [0xE0 + n / 4096, 0x80 + (n / 64) % 64, 0x80 + n % 64]
    else [0xF0 + n / 262144, 0x80 + (n / 4096) % 64, 0x80 + (n / 64) % 64, 0x80 + n % 64]
  }

  function EncodeChar(c: char): (t: string)
    ensures 0 < |t|
  {
    if Unreserved(c) then [c] else EscapeAll(Utf8(c))
  }

  /** `encodeURIComponent(s)`. */
  function EncodeUriComponent(s: string): (t: string)
    ensures |s| <= |t|
  {
    if s == [] then []
    else
      EncodeChar(s[0]) + EncodeUriComponent(s[1..])
  }

  /** Text that needs no further escaping in a URL component: unreserved
      characters and the `%` of an escape. */
  predicate UrlSafe(t: string) {
    forall i :: 0 <= i < |t| ==> Unreserved(t[i]) || t[i] == '%'
  }

  lemma UrlSafeConcat(a: string, b: string)
    requires UrlSafe(a) && UrlSafe(b)
    ensures UrlSafe(a + b)
  {
  }

  lemma EscapeSafe(b: nat)
    requires IsByte(b)
    ensures UrlSafe(Escape(b))
  {
    assert Unreserved(HexDigit(b / 16)) && Unreserved(HexDigit(b % 16));
  }

  lemma {:induction false} EscapeAllSafe(bytes: seq<nat>)
    requires AllBytes(bytes)
    ensures UrlSafe(EscapeAll(bytes))
  {
    if bytes != [] {
      EscapeAllSafe(bytes[1..]);
      EscapeSafe(bytes[0]);
      UrlSafeConcat(Escape(bytes[0]), EscapeAll(bytes[1..]));
    }
  }

  /** `encodeURIComponent` leaves no `&`, `=`, `#`, `/`, `?` or space in the
      text, so a query parameter it writes ends where the text ends. */
  lemma {:induction false} EncodeUriComponentSafe(s: string)
    ensures UrlSafe(EncodeUriComponent(s))
  {
    if s != [] {
      EncodeUriComponentSafe(s[1..]);
      if !Unreserved(s[0]) {
        EscapeAllSafe(Utf8(s[0]));
      }
      UrlSafeConcat(EncodeChar(s[0]), EncodeUriComponent(s[1..]));
    }
  }

  // ----- Decoding -----

  /** The byte written as `%XX` at position `i`, if there is one. */
  function ByteAt(s: string, i: nat): (r: Option<nat>)
    ensures r.Some? ==> i + 3 <= |s| && IsByte(r.value)
  {
    if i + 3 <= |s| && s[i] == '%' then
      match (HexValue(s[i + 1]), HexValue(s[i + 2]))
      case (Some(h), Some(l)) => Some(h * 16 + l)
      case _ => None
    else None
  }

  /** The six payload bits of a continuation byte `%80`..`%BF` at position `i`. */
  function ContAt(s: string, i: nat): (r: Option<nat>)
    ensures r.Some? ==> i + 3 <= |s| && r.value < 64
  {
    match ByteAt(s, i)
    case Some(b) => if 0x80 <= b < 0xC0 then Some(b - 0x80) else None
    case None => None
  }

  predicate IsScalar(n: int) {
    (0 <= n < 0xD800) || (0xE000 <= n < 0x110000)
  }

  /** The character spelt by the escapes at the start of `s` and how many
      characters they take; `None` where `decodeURIComponent` throws. */
  function DecodeEscaped(s: string): (r: Option<(char, nat)>)
    ensures r.Some? ==> 3 <= r.value.1 <= |s|
  {
    match ByteAt(s, 0)
    case None => None
    case Some(b0) =>
      if b0 < 0x80 then Some((b0 as char, 3))
      else if 0xC0 <= b0 < 0xE0 then DecodeTwo(s, b0)
      else if 0xE0 <= b0 < 0xF0 then DecodeThree(s, b0)
      else if 0xF0 <= b0 < 0xF8 then DecodeFour(s, b0)
      else None
  }

  /** A two-byte sequence; an overlong one is rejected. */
  function DecodeTwo(s: string, b0: nat): (r: Option<(char, nat)>)
    requires 0xC0 <= b0 < 0xE0
    ensures r.Some? ==> r.value.1 == 6 <= |s|
  {
    match ContAt(s, 3)
    case None => None
    case Some(b1) =>
      var n := (b0 - 0xC0) * 64 + b1;
      if 0x80 <= n then Some((n as char, 6)) else None
  }

  /** A three-byte sequence; an overlong one or a surrogate is rejected. */
  function DecodeThree(s: string, b0: nat): (r: Option<(char, nat)>)
    requires 0xE0 <= b0 < 0xF0
    ensures r.Some? ==> r.value.1 == 9 <= |s|
  {
    match (ContAt(s, 3), ContAt(s, 6))
    case (Some(b1), Some(b2)) =>
      var n := (b0 - 0xE0) * 4096 + b1 * 64 + b2;
      if 0x800 <= n && IsScalar(n) then Some((n as char, 9)) else None
    case _ => None
  }

  /** A four-byte sequence; an overlong one or one past U+10FFFF is rejected. */
  function DecodeFour(s: string, b0: nat): (r: Option<(char, nat)>)
    requires 0xF0 <= b0 < 0xF8
    ensures r.Some? ==> r.value.1 == 12 <= |s|
  {
    match (ContAt(s, 3), ContAt(s, 6), ContAt(s, 9))
    case (Some(b1), Some(b2), Some(b3)) =>
      var n := (b0 - 0xF0) * 262144 + b1 * 4096 + b2 * 64 + b3;
      if 0x10000 <= n < 0x110000 then Some((n as char, 12)) else None
    case _ => None
  }

  /** `decodeURIComponent(s)`; `None` where it throws a `URIError`. */
  function DecodeUriComponent(s: string): (r: Option<string>)
    decreases |s|
  {
    if s == [] then Some([])
    else if s[0] != '%' then
      match DecodeUriComponent(s[1..])
      case None => None
      case Some(t) => Some([s[0]] + t)
    else
      match DecodeEscaped(s)
      case None => None
      case Some((c, n)) =>
        match DecodeUriComponent(s[n..])
        case None => None
        case Some(t) => Some([c] + t)
  }

  lemma ByteAtEscape(b: nat, rest: string)
    requires IsByte(b)
    ensures ByteAt(Escape(b) + rest, 0) == Some(b)
  {
    var s := Escape(b) + rest;
    assert s[0] == '%' && s[1] == HexDigit(b / 16) && s[2] == HexDigit(b % 16);
    HexValueDigit(b / 16);
    HexValueDigit(b % 16);
  }

  lemma ByteAtShift(p: string, x: string, j: nat)
    ensures ByteAt(p + x, |p| + j) == ByteAt(x, j)
  {
    if j + 3 <= |x| {
      assert (p + x)[|p| + j] == x[j];
      assert (p + x)[|p| + j + 1] == x[j + 1];
      assert (p + x)[|p| + j + 2] == x[j + 2];
    }
  }

  lemma ByteAtPrefix(t: string, x: string, i: nat)
    requires i + 3 <= |t|
    ensures ByteAt(t + x, i) == ByteAt(t, i)
  {
    assert (t + x)[i] == t[i] && (t + x)[i + 1] == t[i + 1] && (t + x)[i + 2] == t[i + 2];
  }

  /** The `k`-th escape of a byte sequence reads back as the `k`-th byte. */
  lemma {:induction false} ReadEscapes(bytes: seq<nat>, k: nat)
    requires AllBytes(bytes)
    requires k < |bytes|
    ensures ByteAt(EscapeAll(bytes), 3 * k) == Some(bytes[k])
  {
    var tail := EscapeAll(bytes[1..]);
    if k == 0 {
      ByteAtEscape(bytes[0], tail);
    } else {
      ReadEscapes(bytes[1..], k - 1);
      ByteAtShift(Escape(bytes[0]), tail, 3 * (k - 1));
      assert EscapeAll(bytes) == Escape(bytes[0]) + tail;
      assert 3 * k == |Escape(bytes[0])| + 3 * (k - 1);
    }
  }

  lemma ContAtByte(s: string, i: nat, b: nat)
    requires ByteAt(s, i) == Some(b) && 0x80 <= b < 0xC0
    ensures ContAt(s, i) == Some(b - 0x80)
  {
  }

  /** The same, followed by anything. */
  lemma ReadEscapesThen(bytes: seq<nat>, rest: string, k: nat)
    requires AllBytes(bytes)
    requires k < |bytes|
    ensures ByteAt(EscapeAll(bytes) + rest, 3 * k) == Some(bytes[k])
  {
    ReadEscapes(bytes, k);
    ByteAtPrefix(EscapeAll(bytes), rest, 3 * k);
  }

  lemma Utf8Two(n: int)
    requires 0x80 <= n < 0x800
    ensures 0xC0 <= 0xC0 + n / 64 < 0xE0
    ensures (n / 64) * 64 + n % 64 == n
  {
  }

  lemma Utf8Three(n: int)
    requires 0x800 <= n < 0x10000
    ensures 0xE0 <= 0xE0 + n / 4096 < 0xF0
    ensures (n / 4096) * 4096 + ((n / 64) % 64) * 64 + n % 64 == n
  {
    var q := n / 64;
    assert n == q * 64 + n % 64;
    assert q == (q / 64) * 64 + q % 64;
    assert q / 64 == n / 4096;
  }

  lemma Utf8Four(n: int)
    requires 0x10000 <= n < 0x110000
    ensures 0xF0 <= 0xF0 + n / 262144 < 0xF8
    ensures (n / 262144) * 262144 + ((n / 4096) % 64) * 4096 + ((n / 64) % 64) * 64 + n % 64 == n
  {
    var q1 := n / 64;
    var q2 := q1 / 64;
    assert n == q1 * 64 + n % 64;
    assert q1 == q2 * 64 + q1 % 64;
    assert q2 == (q2 / 64) * 64 + q2 % 64;
    assert q2 == n / 4096;
    assert q2 / 64 == n / 262144;
  }

  lemma DecodeEscapedTwo(c: char, rest: string)
    requires !Unreserved(c) && 0x80 <= c as int < 0x800
    ensures DecodeEscaped(EncodeChar(c) + rest) == Some((c, 6))
  {
    var n := c as int;
    var b := Utf8(c);
    var s := EncodeChar(c) + rest;
    assert b == [0xC0 + n / 64, 0x80 + n % 64];
    Utf8Two(n);
    ReadEscapesThen(b, rest, 0);
    ReadEscapesThen(b, rest, 1);
    ContAtByte(s, 3, b[1]);
    assert DecodeTwo(s, b[0]) == Some((c, 6));
  }

  lemma DecodeEscapedThree(c: char, rest: string)
    requires !Unreserved(c) && 0x800 <= c as int < 0x10000
    ensures DecodeEscaped(EncodeChar(c) + rest) == Some((c, 9))
  {
    var n := c as int;
    var b := Utf8(c);
    var s := EncodeChar(c) + rest;
    assert b == [0xE0 + n / 4096, 0x80 + (n / 64) % 64, 0x80 + n % 64];
    Utf8Three(n);
    ReadEscapesThen(b, rest, 0);
    ReadEscapesThen(b, rest, 1);
    ReadEscapesThen(b, rest, 2);
    ContAtByte(s, 3, b[1]);
    ContAtByte(s, 6, b[2]);
    assert DecodeThree(s, b[0]) == Some((c, 9));
  }

  lemma DecodeEscapedFour(c: char, rest: string)
    requires !Unreserved(c) && 0x10000 <= c as int
    ensures DecodeEscaped(EncodeChar(c) + rest) == Some((c, 12))
  {
    var n := c as int;
    var b := Utf8(c);
    var s := EncodeChar(c) + rest;
    assert b == [0xF0 + n / 262144, 0x80 + (n / 4096) % 64, 0x80 + (n / 64) % 64, 0x80 + n % 64];
    Utf8Four(n);
    ReadEscapesThen(b, rest, 0);
    ReadEscapesThen(b, rest, 1);
    ReadEscapesThen(b, rest, 2);
    ReadEscapesThen(b, rest, 3);
    ContAtByte(s, 3, b[1]);
    ContAtByte(s, 6, b[2]);
    ContAtByte(s, 9, b[3]);
    assert DecodeFour(s, b[0]) == Some((c, 12));
  }

  /** The escapes of a character that is not unreserved decode to that character. */
  lemma DecodeEscapedChar(c: char, rest: string)
    requires !Unreserved(c)
    ensures DecodeEscaped(EncodeChar(c) + rest) == Some((c, |EncodeChar(c)|))
  {
    var n := c as int;
    if n < 0x80 {
      ReadEscapesThen(Utf8(c), rest, 0);
    } else if n < 0x800 {
      DecodeEscapedTwo(c, rest);
    } else if n < 0x10000 {
      DecodeEscapedThree(c, rest);
    } else {
      DecodeEscapedFour(c, rest);
    }
  }

  /** `decodeURIComponent(encodeURIComponent(s)) === s`. */
  lemma {:induction false} DecodeEncode(s: string)
    ensures DecodeUriComponent(EncodeUriComponent(s)) == Some(s)
  {
    if s != [] {
      var head := EncodeChar(s[0]);
      var t := head + EncodeUriComponent(s[1..]);
      assert EncodeUriComponent(s) == t;
      DecodeEncode(s[1..]);
      if Unreserved(s[0]) {
        assert t[0] == s[0] && t[1..] == EncodeUriComponent(s[1..]);
      } else {
        DecodeEscapedChar(s[0], EncodeUriComponent(s[1..]));
        assert t[0] == '%';
        assert t[|head|..] == EncodeUriComponent(s[1..]);
      }
      assert [s[0]] + s[1..] == s;
    }
  }
}

=== FILE: voice_input.dfy ===
/** The voice button: once the recorded command has been processed, its
    extracted values are either written into the surrounding form (date-like
    fields as dates) or carried to the create page of their section in the
    query string. Modal-closing timers are taken to have fired. */
module VoiceInput {
  import opened Wrappers
  import opened Strings
  import opened Json
  import opened Uri
  import opened FormState
  import opened DateText
  import opened Audio
  import opened Browser

  /** Keys written as dates: those containing "date", and "month". */
  predicate IsDateKey(key: string) {
    Contains(key, "date") || key == "month"
  }

  /** The value `setValue` receives for a key. */
  function Coerce(key: string, v: Value, zone: UtcOffset): (f: FieldValue)
    ensures IsDateKey(key) ==> f == FDate(DateOf(v, zone))
    ensures !IsDateKey(key) ==> f == Raw(v)
  {
    if IsDateKey(key) then FDate(DateOf(v, zone)) else Raw(v)
  }

  /** One entry of the `forEach`: a `null` value leaves the form as it is. */
  function WriteEntry(form: Form, f: Field, zone: UtcOffset): Form {
    if f.value == JNull then form else form[f.key := Coerce(f.key, f.value, zone)]
  }

  /** The form after the entries have been written in order. */
  function Populated(form: Form, entries: Object, zone: UtcOffset): Form
    decreases |entries|
  {
    if entries == [] then form
    else WriteEntry(Populated(form, entries[..|entries| - 1], zone), entries[|entries| - 1], zone)
  }

  /** The schema says nothing for `k`: it has no entry for it, or only `null`. */
  predicate Untouched(schema: Object, k: string) {
    forall i :: 0 <= i < |schema| && schema[i].key == k ==> schema[i].value == JNull
  }

  /** The populate loop writes every key whose value is not `null` (dates for
      date-like keys, the value itself otherwise), keeps every other field, and
      adds no field the schema does not give a value for. */
  lemma {:induction false} PopulatedFields(form: Form, schema: Object, zone: UtcOffset)
    requires DistinctKeys(schema)
    ensures var r := Populated(form, schema, zone);
            forall i :: 0 <= i < |schema| && schema[i].value != JNull ==>
              schema[i].key in r && r[schema[i].key] == Coerce(schema[i].key, schema[i].value, zone)
    ensures var r := Populated(form, schema, zone);
            forall k :: k in form && Untouched(schema, k) ==> k in r && r[k] == form[k]
    ensures var r := Populated(form, schema, zone);
            forall k :: k in r ==> k in form || !Untouched(schema, k)
  {
    if schema != [] {
      var init := schema[..|schema| - 1];
      var last := schema[|schema| - 1];
      PopulatedFields(form, init, zone);
      var before := Populated(form, init, zone);
      var r := Populated(form, schema, zone);
      assert r == WriteEntry(before, last, zone);
      forall i | 0 <= i < |schema| && schema[i].value != JNull
        ensures schema[i].key in r && r[schema[i].key] == Coerce(schema[i].key, schema[i].value, zone)
      {
        if i < |schema| - 1 {
          assert init[i] == schema[i];
          assert schema[i].key != last.key;
        }
      }
      forall k | k in form && Untouched(schema, k)
        ensures k in r && r[k] == form[k]
      {
        assert Untouched(init, k) by {
          forall i | 0 <= i < |init| && init[i].key == k
            ensures init[i].value == JNull
          {
            assert schema[i] == init[i];
          }
        }
      }
      forall k | k in r
        ensures k in form || !Untouched(schema, k)
      {
        if k !in before {
          assert k == last.key && last.value != JNull;
        } else if k !in form {
          var i :| 0 <= i < |init| && init[i].key == k && init[i].value != JNull;
          assert schema[i] == init[i];
        }
      }
    }
  }

  /** `Object.entries(schema).forEach(...)`: writes each non-null entry. */
  method Populate(form: Form, schema: Object, zone: UtcOffset) returns (r: Form)
    ensures r == Populated(form, schema, zone)
  {
    r := form;
    var i := 0;
    while i < |schema|
      invariant 0 <= i <= |schema|
      invariant r == Populated(form, schema[..i], zone)
    {
      var f := schema[i];
      if f.value != JNull {
        r := r[f.key := Coerce(f.key, f.value, zone)];
      }
      assert schema[..i + 1][..i] == schema[..i];
      i := i + 1;
    }
    assert schema[..|schema|] == schema;
  }

  const CreateQuery := "/create?data="

  /** `/management/{path}/create?data=` and the schema as encoded JSON. */
  function Route(fd: FormData): string {
    "/management/" + fd.path + CreateQuery + EncodeUriComponent(Stringify(fd.schema))
  }

  /** The create page finds the schema in its `data` parameter: the text after
      `?data=` has no `&` or `#` to cut it short, and decoding and parsing it
      gives back the schema unchanged. */
  lemma RouteCarriesSchema(fd: FormData)
    requires DistinctKeys(fd.schema)
    ensures var prefix := "/management/" + fd.path + CreateQuery;
            var data := Route(fd)[|prefix|..];
            Route(fd)[..|prefix|] == prefix
            && UrlSafe(data)
            && DecodeUriComponent(data) == Some(Stringify(fd.schema))
            && Parse(DecodeUriComponent(data).value) == Some(fd.schema)
  {
    var prefix := "/management/" + fd.path + CreateQuery;
    var data := EncodeUriComponent(Stringify(fd.schema));
    assert Route(fd) == prefix + data;
    assert Route(fd)[|prefix|..] == data;
    EncodeUriComponentSafe(Stringify(fd.schema));
    DecodeEncode(Stringify(fd.schema));
    ParseStringify(fd.schema);
  }

  class VoiceInputButton {
    const populateForm: bool
    const hasFormContext: bool
    const hasOnSuccess: bool
    const browser: Browser
    var isModalOpen: bool
    var isProcessing: bool
    /** The surrounding form's values. */
    var form: Form
    /** The schemas handed to `onSuccess`, in order. */
    var delivered: seq<Object>

    constructor(populateForm: bool, hasFormContext: bool, hasOnSuccess: bool, form: Form, browser: Browser)
      ensures this.populateForm == populateForm && this.hasFormContext == hasFormContext
      ensures this.hasOnSuccess == hasOnSuccess && this.browser == browser
      ensures this.form == form && delivered == [] && !isModalOpen && !isProcessing
    {
      this.populateForm := populateForm;
      this.hasFormContext := hasFormContext;
      this.hasOnSuccess := hasOnSuccess;
      this.browser := browser;
      this.form := form;
      delivered := [];
      isModalOpen := false;
      isProcessing := false;
    }

    /** The microphone button opens the recording modal. */
    method Open()
      modifies this
      ensures isModalOpen
      ensures isProcessing == old(isProcessing) && form == old(form) && delivered == old(delivered)
    {
      isModalOpen := true;
    }

    /** `handleAudioCaptured` once `sendAudio` has settled with `response`. */
    method HandleAudioCaptured(response: Result<AudioResponse>, zone: UtcOffset)
      modifies this, browser
      ensures !isProcessing && !isModalOpen
      ensures browser.storage == old(browser.storage)
      ensures response.Failure? || response.value.formData.None? ==>
                form == old(form) && delivered == old(delivered) && browser.routes == old(browser.routes)
      ensures response.Success? && response.value.formData.Some? && populateForm && hasFormContext ==>
                var schema := response.value.formData.value.schema;
                form == Populated(old(form), schema, zone)
                && delivered == old(delivered) + (if hasOnSuccess then [schema] else [])
                && browser.routes == old(browser.routes)
      ensures response.Success? && response.value.formData.Some? && !(populateForm && hasFormContext) ==>
                form == old(form) && delivered == old(delivered)
                && browser.routes == old(browser.routes) + [Route(response.value.formData.value)]
    {
      isProcessing := true;
      if response.Failure? {
        isProcessing := false;
        isModalOpen := false;
        return;
      }
      isProcessing := false;
      match response.value.formData
      case None =>
        isModalOpen := false;
      case Some(fd) =>
        if populateForm && hasFormContext {
          form := Populate(form, fd.schema, zone);
          if hasOnSuccess {
            delivered := delivered + [fd.schema];
          }
          isModalOpen := false;
        } else {
          isModalOpen := false;
          browser.Push(Route(fd));
        }
    }
  }

  /** A recognised "create goal" command heard by a button outside any form
      opens the goal create page carrying exactly the extracted values. */
  method CommandOutsideForm(answer: VoiceCommandResult, zone: UtcOffset) returns (routes: seq<string>)
    requires answer.success && answer.intent == "CREATE_GOAL"
    requires answer.extractedData.Some? && answer.extractedData.value != []
    requires DistinctKeys(answer.extractedData.value)
    ensures routes == [Route(FormData("goals", answer.extractedData.value))]
  {
    var service := new AudioService();
    var response := service.SendAudio(answer);
    var browser := new Browser(map[]);
    var button := new VoiceInputButton(true, false, false, map[], browser);
    button.HandleAudioCaptured(response, zone);
    routes := browser.routes;
  }
}

=== FILE: wrappers.dfy ===
/** Optional values and results of operations that can fail. */
module Wrappers {
  /** A value that may be absent (`undefined`, `null`, or `NaN` from a failed read). */
  datatype Option<T> = None | Some(value: T)

  /** The outcome of an operation that returns a value or throws an error message. */
  datatype Result<T> = Success(value: T) | Failure(error: string)
}
